=== FILE: README.md ===
# FCC-Frontend in Dafny

A verified model of the front-end projects in the FCC-Frontend repository. Its centre is the DUEL tic-tac-toe game:

- the client's board engine;
- the minimax opponent;
- the session controller, with its CPU, local and online modes;
- the Socket.io room server that pairs two online players.

Around it are the state machines and pure helpers of six smaller pages:

- a calculator;
- a pomodoro timer;
- a random quote machine with favourites;
- a Twitch status board;
- a Wikipedia viewer;
- a Markdown previewer.

Each source file keeps its own form here:

- Pure helpers (win detection, minimax scores, room codes, text formatting, sorting) are datatypes, functions and lemmas.
- Objects whose state the page mutates become classes whose methods change their fields:
  - the tic-tac-toe client, over an `array` board;
  - the room registry;
  - the calculator;
  - the timer;
  - the favourites list;
  - the status board;
  - the search box;
  - the editor.

Modules:

| module | file | models |
|---|---|---|
| `Wrappers` | wrappers.dfy | `Option` |
| `JsText` | jstext.dfy | the JavaScript string built-ins the pages call: `trim`, `toUpperCase`, `toLowerCase`, `String(n)`, `padStart(2, '0')` |
| `Board` | board.dfy | `WIN_COMBOS`, `checkWin`/`hasWin`, the full-board test and the outcome of a move |
| `Search` | search.dfy | the value minimax computes (unpruned reference), the alpha-beta steps, and the best-move scan |
| `Duel` | duel.dfy | the tic-tac-toe client (`class Client`): modes, moves, the AI turn, end of game, auto-restart, the online handshake and socket events |
| `Protocol` | protocol.dfy | the room-code alphabet and the normalisation both ends apply to a typed code |
| `Rooms` | rooms.dfy | the Socket.io room server (`class RoomServer`); the repository's root `server.js` holds the same room logic one line earlier from `create-room` on (its `leave-room` and `disconnect` handlers are lines 78 and 79, `cleanup` is 82-93), and the table below cites the copy under `projects/tic-tac-toe/socket-server/` |
| `Calculator` | calculator.dfy | the calculator's input state machine and `prettify` |
| `Pomodoro` | pomodoro.dfy | the timer (`class Timer`) and the clock/focus formats |
| `Quotes` | quotes.dfy | quote keys and the favourites list |
| `Twitch` | twitch.dfy | merging the API answers into a channel record, the live-first sort, filters and counts |
| `Wiki` | wiki.dfy | the search guard around `lastQuery`, response handling, and the discover feed's selections |
| `Markdown` | markdown.dfy | word/char/line statistics, the document name, and the editor's buttons |

Facts about the game's code that the model keeps:

- `makeMove` never rejects a move. An index off the board throws at `cells[idx]`, after `moveCount` and `turn` were already updated (`Duel.Client.MakeMove`).
- A mode switch cancels only the latest auto-restart timer and never an AI timer. The client keeps the set of live restart timers and a count of pending AI moves.
- The sequence X 0, O 1, X 2, O 4, X 6, O 3, X 5, O 7 ends with O's win on the middle column 1-4-7 (`Board.MiddleColumnGame`).
- The room server validates no payload. A relayed move is any integer, and the client applies it unchecked.
- The acknowledgements of `create-room` and `join-room` are handled whenever they arrive, whatever the mode is then. A player who creates a room and switches to CPU mode before the answer still becomes the host of a room that `setMode` never left (`Duel.LateCreateAck`).

## Model

| member | source | states |
|---|---|---|
| Board.Other | projects/tic-tac-toe/public/script.js:458 | the mark to play after `mark` is the other one |
| Board.FirstWinFrom | projects/tic-tac-toe/public/script.js:495-500 | the first line at or after position `k` of `WIN_COMBOS` that `m` owns entirely; none exactly when no such line exists |
| Board.CheckWin | projects/tic-tac-toe/public/script.js:495-504 | `checkWin` finds a line exactly when `hasWin` holds, and it is the first owned line in `WIN_COMBOS` order |
| Board.Empties | projects/tic-tac-toe/public/script.js:474 | the number of empty cells is zero exactly when `board.every(c => c !== null)` |
| Board.EmptiesPlace | projects/tic-tac-toe/public/script.js:456 | placing a mark on an empty cell removes exactly one empty cell |
| Board.NoNewWin | projects/tic-tac-toe/public/script.js:456-476 | placing `m` cannot give the other mark a winning line it did not have |
| Board.Outcome | projects/tic-tac-toe/public/script.js:468-476 | after `mark` moves: Won(mark, line) exactly when `mark` owns a winning line (which is in `WIN_COMBOS`), Draw exactly when it owns none and the board is full, InProgress otherwise |
| Board.EmptyBoardOpen | projects/tic-tac-toe/public/script.js:603 | the empty board has an empty cell and no line for either mark |
| Board.MoveKeepsOpen | projects/tic-tac-toe/public/script.js:455-477 | a move that neither wins nor fills the board leaves a board on which play can go on |
| Board.MiddleRowGame | projects/tic-tac-toe/public/script.js:455-477 | X 4, O 0, X 3, O 1 is still in progress, and X 5 then wins on 3-4-5 |
| Board.MiddleColumnGame | projects/tic-tac-toe/public/script.js:455-477 | X 0, O 1, X 2, O 4, X 6, O 3, X 5 is still in progress, and O 7 then wins on 1-4-7 |
| Search.ValueBounds | projects/tic-tac-toe/public/script.js:209-237 | every minimax score at depth `d` lies between `d-10` and `10-d` |
| Search.BestOfBounds | projects/tic-tac-toe/public/script.js:214-236 | the best child score over the children of a node with an empty cell lies strictly inside the leaf range |
| Search.BestOfMono | projects/tic-tac-toe/public/script.js:214-236 | scanning more cells can only raise the maximiser's best and lower the minimiser's best |
| Search.MaxStep | projects/tic-tac-toe/public/script.js:215-224 | one iteration of the maximiser's loop keeps `best` fail-soft against the exact best so far, and a cut-off (`beta <= alpha`) only happens when the rest cannot matter |
| Search.MinStep | projects/tic-tac-toe/public/script.js:226-235 | the same for the minimiser's loop |
| Search.NoWinValueBound | projects/tic-tac-toe/public/script.js:209-237 | without a line for the AI, no score reaches `10 - depth` |
| Search.ImmediateWinChosen | projects/tic-tac-toe/public/script.js:192-237 | when some empty cell wins for the AI at once, the cell `bestMove` picks also wins at once |
| Search.EmptyIndices | projects/tic-tac-toe/public/script.js:193-194 | the empty cells of the board, in increasing index order, all of them |
| Search.ScanChoosesBest | projects/tic-tac-toe/public/script.js:197-206 | the first cell whose score is the maximum is a best choice: no cell scores higher and no earlier cell scores as high |
| Search.EmptyIndicesFull | projects/tic-tac-toe/public/script.js:193-195 | there are no empty cells to scan exactly when the board is full |
| Duel.ScoreAfter | projects/tic-tac-toe/public/script.js:507-541 | a finished game adds exactly one to the tally: to draws exactly when there is no winner, to player 1 exactly when `isP1Win` |
| Duel.IsP1Win | projects/tic-tac-toe/public/script.js:516-518 | the left-hand entry wins in local mode exactly when X wins, in CPU and online mode exactly when this player's mark wins |
| Duel.WinnerOf | projects/tic-tac-toe/public/script.js:469-476 | `endGame` receives a winner exactly when the move won, and it is the mark that won |
| Duel.Cancel | projects/tic-tac-toe/public/script.js:98 | `clearTimeout(resetTimer)` removes that one timer from the live ones and nothing else |
| Duel.Client.constructor | projects/tic-tac-toe/public/script.js:73-88 | the page after `setMode('cpu')`: empty board, X to move, zero scores, mark picker shown, no room, no socket |
| Duel.Client.ResetBoard | projects/tic-tac-toe/public/script.js:602-619 | a fresh empty board, X to move, move count 0, game not over and input unlocked |
| Duel.Client.ResetScores | projects/tic-tac-toe/public/script.js:631-636 | all three counters back to zero |
| Duel.Client.EndGame | projects/tic-tac-toe/public/script.js:507-545 | game over and locked, the tally updated as ScoreAfter says, and a new auto-restart timer that becomes `resetTimer` |
| Duel.Client.MakeMove | projects/tic-tac-toe/public/script.js:455-477 | the mark is placed, the move counter goes up and the turn passes to the other mark; the game ends exactly when Outcome is not InProgress; an index off the board throws after the counter and turn changed |
| Duel.Client.CheckOutcome | projects/tic-tac-toe/public/script.js:468-476 | locks and records the end of the game exactly when Outcome is Won or Draw |
| Duel.Client.Minimax | projects/tic-tac-toe/public/script.js:209-237 | the board is left as it was, and the returned score is fail-soft against Search.Value: exact inside (alpha, beta), a bound outside it |
| Duel.Client.TryCell | projects/tic-tac-toe/public/script.js:218-220 | place, search, undo: the board is restored and the score is fail-soft against the child's value |
| Duel.Client.ScoreCell | projects/tic-tac-toe/public/script.js:200-203 | the top-level score of one empty cell is its exact minimax value, within -10..10 |
| Duel.Client.PickBest | projects/tic-tac-toe/public/script.js:197-206 | over a board with an empty cell, the scan returns an empty cell that is a best choice under minimax, and the board is left as it was |
| Duel.Client.BestMove | projects/tic-tac-toe/public/script.js:192-207 | -1 exactly when the board is full; otherwise an empty cell that is a best choice under minimax; the board is left as it was |
| Duel.Client.AiMove | projects/tic-tac-toe/public/script.js:178-190 | nothing happens once the game is over or the board is full; otherwise the CPU places its mark on a best-choice cell, the turn passes back, and input is unlocked |
| Duel.Client.FireAiTimer | projects/tic-tac-toe/public/script.js:174 | a pending AI timer fires: one fewer pending, and AiMove's effect |
| Duel.Client.StartCPUGame | projects/tic-tac-toe/public/script.js:156-176 | after picking a mark: the picker hides, the board is empty with X to move, and when the player chose O the CPU's first move is scheduled and input locked |
| Duel.Client.StartLocalGame | projects/tic-tac-toe/public/script.js:242-248 | an empty board, X to move, unlocked |
| Duel.Client.ClearResetTimer | projects/tic-tac-toe/public/script.js:98 | the pending auto-restart, if any, is cancelled |
| Duel.Client.Connect | projects/tic-tac-toe/public/script.js:259-275 | a socket exists afterwards exactly when one existed or `io` is available |
| Duel.Client.LeaveRoom | projects/tic-tac-toe/public/script.js:383-394 | `leave-room` is sent only when in a room; afterwards no room, not host, game over and locked, board hidden |
| Duel.Client.SetMode | projects/tic-tac-toe/public/script.js:93-146 | choosing the current mode changes nothing; a new mode cancels the restart timer, leaves the room when the old mode was online (keeping any room held otherwise), zeroes the scores, and shows that mode's arena on an empty board |
| Duel.Client.SwitchMode | projects/tic-tac-toe/public/script.js:96-145 | the part of `setMode` after the same-mode guard |
| Duel.Client.LeaveMode | projects/tic-tac-toe/public/script.js:96-114 | the teardown of the old mode: timer cancelled, the room left with `leave-room` sent only when leaving online mode, scores zeroed |
| Duel.Client.ShowArena | projects/tic-tac-toe/public/script.js:116-145 | CPU shows the mark picker, local starts a game, online connects and shows the room panel |
| Duel.Client.Click | projects/tic-tac-toe/public/script.js:414-450 | a click on a taken cell, while locked or after the game ended, or online out of turn changes nothing; otherwise the clicking side's mark is placed, the CPU is scheduled or the move sent as the mode requires, and the game ends exactly when Outcome says |
| Duel.Client.PlayClick | projects/tic-tac-toe/public/script.js:421-448 | the mode switch of the click handler once the guards passed |
| Duel.Client.AutoRestart | projects/tic-tac-toe/public/script.js:547-579 | a new round in CPU and local mode, a rematch request and a new round inside an online room, and nothing online without a room |
| Duel.Client.FireRestartTimer | projects/tic-tac-toe/public/script.js:544 | an auto-restart timer fires: it is no longer live, and AutoRestart's effect |
| Duel.Client.NewGame | projects/tic-tac-toe/public/script.js:665-691 | the pending restart is cancelled; CPU goes back to the mark picker, local starts over, an online room asks for a rematch |
| Duel.Client.NewRound | projects/tic-tac-toe/public/script.js:668-690 | the New Game button's effect after the timer is cancelled |
| Duel.Client.CreateClick | projects/tic-tac-toe/public/script.js:336-338 | connects if needed; with a socket, `create-room` is sent and one more acknowledgement is awaited, without a socket nothing is sent |
| Duel.Client.OnCreateAck | projects/tic-tac-toe/public/script.js:339-345 | in any mode, a reply with a code makes this client the host of that room; a reply without one changes nothing but the pending count |
| Duel.Client.JoinClick | projects/tic-tac-toe/public/script.js:350-355 | a code shorter than three characters after trim and upper-case changes nothing; otherwise `join-room` is sent for it and its acknowledgement is awaited |
| Duel.Client.SendJoin | projects/tic-tac-toe/public/script.js:353-355 | the part of the join handler after the length check: connect, send, await |
| Duel.Client.OnJoinAck | projects/tic-tac-toe/public/script.js:355-364 | in any mode, an acknowledgement without an error makes this client the guest of that room; an error leaves the room and role as they were |
| Duel.LateCreateAck | projects/tic-tac-toe/public/script.js:339-345 | create, switch to CPU mode, then the acknowledgement: CPU mode with a room held as host, and only `create-room` sent |
| Duel.Client.OnGameStart | projects/tic-tac-toe/public/script.js:277-297 | an empty board shown, host plays X and moves first, the guest plays O and waits |
| Duel.Client.OnMove | projects/tic-tac-toe/public/script.js:299-307 | ignored once the game is over; otherwise the opponent's mark is placed as MakeMove says and the input unlocks unless the game ended |
| Duel.Client.OnReqRematch | projects/tic-tac-toe/public/script.js:309-323 | an empty board, X to move, unlocked only for the host |
| Duel.Client.OnOpponentLeft | projects/tic-tac-toe/public/script.js:325-332 | locked, game over, board hidden, no room |
| Protocol.AlphabetIndex | projects/tic-tac-toe/socket-server/server.js:37 | every code character has a position in the alphabet |
| Protocol.ClientCode | projects/tic-tac-toe/public/script.js:351 | the client's normalised code has no surrounding spaces and no lower-case letters, and is no longer than the input |
| Protocol.ServerCode | projects/tic-tac-toe/socket-server/server.js:56 | the same for the server's normalisation, with a missing code read as empty |
| Protocol.UpperIdempotent | projects/tic-tac-toe/socket-server/server.js:56 | upper-casing twice is upper-casing once |
| Protocol.ServerAcceptsClientCode | projects/tic-tac-toe/socket-server/server.js:56 | the server's normalisation leaves a code the client normalised unchanged |
| Protocol.RoomCodeSurvives | projects/tic-tac-toe/socket-server/server.js:36-41 | a generated room code passes both normalisations unchanged |
| Rooms.CodeChar | projects/tic-tac-toe/socket-server/server.js:37-39 | each drawn index picks a character of the alphabet |
| Rooms.CodeOf | projects/tic-tac-toe/socket-server/server.js:36-41 | a draw of five indices gives a five-character code over the alphabet, character by character |
| Rooms.EveryCodeDrawable | projects/tic-tac-toe/socket-server/server.js:36-41 | every room code is the code of some draw |
| Rooms.GenCode | projects/tic-tac-toe/socket-server/server.js:36-41 | the loop's code is a room code and equals CodeOf of the draw |
| Rooms.RoomServer.RoomOf | projects/tic-tac-toe/socket-server/server.js:70 | `socket.data?.room` when it is a non-empty string |
| Rooms.RoomServer.constructor | projects/tic-tac-toe/socket-server/server.js:34 | no rooms, no socket data, no messages |
| Rooms.RoomServer.Join | projects/tic-tac-toe/socket-server/server.js:49 | `socket.join(code)` adds the socket to that room's members |
| Rooms.RoomServer.CreateRoom | projects/tic-tac-toe/socket-server/server.js:46-53 | the new code was not registered before, is the first free code among the draws, and is registered with one player; the socket records room and number 1 |
| Rooms.RoomServer.JoinRoom | projects/tic-tac-toe/socket-server/server.js:55-67 | "Room not found" for an unknown code and "Room is full" at two players, both with nothing changed; otherwise the room has two players, the socket records number 2 and `game-start` goes to both |
| Rooms.RoomServer.Relay | projects/tic-tac-toe/socket-server/server.js:69-77 | a message goes to every other member of the sender's room, and nowhere when the sender has no room |
| Rooms.RoomServer.MoveEvent | projects/tic-tac-toe/socket-server/server.js:69-72 | the move payload is forwarded unchanged to the other members of the sender's room |
| Rooms.RoomServer.RematchEvent | projects/tic-tac-toe/socket-server/server.js:74-77 | `req-rematch` is forwarded to the other members of the sender's room |
| Rooms.RoomServer.Cleanup | projects/tic-tac-toe/socket-server/server.js:86-97 | nothing without a room; otherwise `opponent-left` to the others, one player fewer, the room removed at zero, the socket data cleared and the socket out of the room |
| Rooms.RoomServer.LeaveRoom | projects/tic-tac-toe/socket-server/server.js:79 | the same as Cleanup |
| Rooms.RoomServer.Disconnect | projects/tic-tac-toe/socket-server/server.js:80-83 | Cleanup, and then the socket is in no room's member set, every other socket keeps exactly its memberships, and the set of rooms is unchanged |
| JsText.TrimStart | projects/tic-tac-toe/socket-server/server.js:56 | drops exactly the leading white space |
| JsText.TrimEnd | projects/tic-tac-toe/socket-server/server.js:56 | drops exactly the trailing white space |
| JsText.Trim | projects/tic-tac-toe/socket-server/server.js:56 | the trimmed string is the slice between the leading and trailing white space, and is empty exactly when the string is all white space |
| JsText.TrimTrimmed | projects/tic-tac-toe/socket-server/server.js:56 | trimming a string without surrounding white space changes nothing |
| JsText.TrimIdempotent | projects/tic-tac-toe/socket-server/server.js:56 | trimming twice is trimming once |
| JsText.Upper | projects/tic-tac-toe/socket-server/server.js:56 | upper-cases each character in place |
| JsText.UpperTrimmed | projects/tic-tac-toe/socket-server/server.js:56 | an upper-cased string has no lower-case letters, and upper-casing keeps a trimmed string trimmed |
| JsText.TrimNoLower | projects/tic-tac-toe/public/script.js:351 | trimming keeps a string free of lower-case letters |
| JsText.Lower | projects/twitch-tv/public/script.js:95 | lower-cases each character in place |
| JsText.DigitValue | projects/pomodoro-clock/public/script.js:59 | digit characters and digit values correspond one to one |
| JsText.Dec | projects/pomodoro-clock/public/script.js:59 | `String(n)`: a non-empty string of digits, without a leading zero unless n is 0 |
| JsText.ParseDecOfDec | projects/pomodoro-clock/public/script.js:59 | reading `String(n)` back gives n |
| JsText.ParseDecLeadingZero | projects/pomodoro-clock/public/script.js:59 | a leading zero does not change the value of a digit string |
| JsText.Pad2 | projects/pomodoro-clock/public/script.js:59 | `padStart(2, '0')` gives at least two characters and keeps the value of a digit string |
| Calculator.Dots | projects/javascript-calculator/public/script.js:140 | the number of decimal points, at most the length |
| Calculator.DotsIncludes | projects/javascript-calculator/public/script.js:140 | `includes('.')` holds exactly when there is at least one decimal point |
| Calculator.StripOps | projects/javascript-calculator/public/script.js:160 | `replace(/[+\-*/]+$/, '')` removes exactly the trailing run of operators |
| Calculator.OpTailAppend | projects/javascript-calculator/public/script.js:160 | appending an operator to a formula not ending in one gives a formula whose operator run is exactly that operator |
| Calculator.MinusAfterOp | projects/javascript-calculator/public/script.js:157-158 | a minus appended after an operator joins the trailing operator run |
| Calculator.Calc.constructor | projects/javascript-calculator/public/script.js:22-28 | display 0, empty formula, nothing pending, empty history |
| Calculator.Calc.InputDigit | projects/javascript-calculator/public/script.js:114-129 | after `=` the digit starts a new number and formula; after an operator it starts a new number; a lone 0 is replaced; otherwise the digit is appended |
| Calculator.Calc.InputDecimal | projects/javascript-calculator/public/script.js:131-145 | the number ends up with exactly one decimal point: `0.` after `=` or an operator, otherwise a point appended only when there is none |
| Calculator.Calc.InputOperator | projects/javascript-calculator/public/script.js:147-169 | the formula ends with the operator run the consecutive-operator rule gives: a minus after an operator is kept as a sign, any other operator replaces the run |
| Calculator.Calc.StartOperator | projects/javascript-calculator/public/script.js:148-153 | the first operator after a number appends the number and the operator |
| Calculator.Calc.ChainOperator | projects/javascript-calculator/public/script.js:156-161 | an operator after an operator: minus appended unless already there, any other replaces the run |
| Calculator.Calc.Evaluate | projects/javascript-calculator/public/script.js:171-200 | a second `=` does nothing; otherwise the evaluated formula is remembered, the display shows the number or "Error", and only a numeric result is added to the history |
| Calculator.Calc.Clear | projects/javascript-calculator/public/script.js:202-210 | display 0, empty formula, nothing pending |
| Calculator.Calc.Backspace | projects/javascript-calculator/public/script.js:248-257 | after `=` or an operator nothing changes; otherwise the last character goes, and a single character becomes 0 |
| Calculator.Calc.ClearHistory | projects/javascript-calculator/public/script.js:106-110 | the history is empty |
| Calculator.ReplaceChar | projects/javascript-calculator/public/script.js:55-57 | replacing every `c` by text without `c` leaves no `c`, a string without `c` is unchanged, and a non-empty replacement never shortens it |
| Calculator.ReplaceCharAppend | projects/javascript-calculator/public/script.js:55-57 | a global one-character replace works piece by piece over a concatenation, so order is kept |
| Calculator.ReplaceCharOne | projects/javascript-calculator/public/script.js:55-57 | one character: `c` becomes the replacement, any other character stays |
| Calculator.SpaceRun | projects/javascript-calculator/public/script.js:59 | the length of the leading run of white space |
| Calculator.CollapseSpaces | projects/javascript-calculator/public/script.js:59 | `replace(/\s{2,}/g, ' ')`: no two white-space characters in a row afterwards, empty exactly when the input is; what each run becomes is pinned by CollapseAppend, CollapseRun and CollapseOne |
| Calculator.CollapseAppend | projects/javascript-calculator/public/script.js:59 | the runs are maximal: a concatenation that does not split a white-space run collapses side by side, so everything else keeps its order |
| Calculator.CollapseRun | projects/javascript-calculator/public/script.js:59 | a run of two or more white-space characters becomes one space |
| Calculator.CollapseOne | projects/javascript-calculator/public/script.js:59 | a single character, white space or not, stays as it is |
| Calculator.SpaceRunAppend | projects/javascript-calculator/public/script.js:59 | the white-space run at the front of a concatenation is the first part's when the cut does not split a run |
| Calculator.SpaceMinus | projects/javascript-calculator/public/script.js:58 | `replace(/(?<=\d)-/g, ' − ')` never shortens the text and changes nothing when no `-` follows a digit; the rewrite itself is pinned by SpaceMinusAppend and SpaceMinusOne |
| Calculator.SpaceMinusAppend | projects/javascript-calculator/public/script.js:58 | the look-behind sees one character back: over a concatenation the second part is rewritten with the first part's last character before it |
| Calculator.SpaceMinusOne | projects/javascript-calculator/public/script.js:58 | a `-` right after a digit becomes ` − `, any other character stays |
| Calculator.Prettify | projects/javascript-calculator/public/script.js:53-61 | `prettify`'s result has no surrounding white space, holds no `*` or `/`, and reads back (spacing dropped, `×` `÷` `−` read as `*` `/` `-`) as its input does |
| Calculator.Spelled | projects/javascript-calculator/public/script.js:55-57 | the operator replacements never shorten the text, change nothing when it has no `*`, `/` or `+`, and change nothing read back |
| Calculator.SpelledAppend | projects/javascript-calculator/public/script.js:55-57 | the three replacements work piece by piece over a concatenation |
| Calculator.SpelledOne | projects/javascript-calculator/public/script.js:55-57 | one character: `*`, `/` and `+` become ` × `, ` ÷ ` and ` + `, any other stays |
| Calculator.PlainSpelled | projects/javascript-calculator/public/script.js:55-57 | the spelled operators read back as the keys they replace |
| Calculator.PrettifyShape | projects/javascript-calculator/public/script.js:53-61 | `prettify`'s result holds no `*` or `/`, has no surrounding white space and no double spaces, and reads back as its input does |
| Calculator.PrettifyReadsBack | projects/javascript-calculator/public/script.js:53-61 | round trip: a formula built from the keys is recovered from what `prettify` shows by dropping the spaces and reading `×`, `÷`, `−` as `*`, `/`, `-` |
| Calculator.PlainAppend | projects/javascript-calculator/public/script.js:53-61 | reading back works piece by piece over a concatenation |
| Calculator.PlainAllSpace | projects/javascript-calculator/public/script.js:59-60 | white space reads back as nothing |
| Calculator.PlainSign | projects/javascript-calculator/public/script.js:55-58 | a printed sign with a space on each side reads back as the sign alone, so ` × `, ` ÷ `, ` + ` and ` − ` read back as `*`, `/`, `+` and `-` |
| Calculator.PlainReplace | projects/javascript-calculator/public/script.js:55-57 | a replacement that reads back as the replaced character changes nothing read back |
| Calculator.PlainSpaceMinus | projects/javascript-calculator/public/script.js:58 | spacing the minus signs changes nothing read back |
| Calculator.PlainCollapse | projects/javascript-calculator/public/script.js:59 | collapsing white space changes nothing read back |
| Calculator.PlainTrim | projects/javascript-calculator/public/script.js:60 | trimming changes nothing read back |
| Calculator.PlainTrimStart | projects/javascript-calculator/public/script.js:60 | dropping leading white space changes nothing read back |
| Calculator.PlainTrimEnd | projects/javascript-calculator/public/script.js:60 | dropping trailing white space changes nothing read back |
| Calculator.PlainFixed | projects/javascript-calculator/public/script.js:53-61 | a text without white space or printed signs reads back as itself |
| Calculator.SpelledSigns | projects/javascript-calculator/public/script.js:55-58 | the operator replacements remove every `*` and `/` |
| Calculator.TrimSingleSpaced | projects/javascript-calculator/public/script.js:60 | trimming keeps a string free of double spaces |
| Pomodoro.Fmt | projects/pomodoro-clock/public/script.js:56-60 | the clock text ends in `:` and two characters, at least five in all |
| Pomodoro.FmtReadsBack | projects/pomodoro-clock/public/script.js:56-60 | the clock text reads back as the minutes and seconds of the input |
| Pomodoro.FmtFocus | projects/pomodoro-clock/public/script.js:62-66 | the focus text ends in `m` |
| Pomodoro.IndexOf | projects/pomodoro-clock/public/script.js:62-66 | the first position of a character, or none when it is absent |
| Pomodoro.FmtFocusReadsBack | projects/pomodoro-clock/public/script.js:62-66 | the focus text reads back as the whole minutes of the input |
| Pomodoro.HoursReadBack | projects/pomodoro-clock/public/script.js:65 | the `Nh Mm` form reads back as N*60+M |
| Pomodoro.DigitsHoursReadBack | projects/pomodoro-clock/public/script.js:65 | the same for any digit strings |
| Pomodoro.Timer.constructor | projects/pomodoro-clock/public/script.js:34-45 | a 25-minute session and 5-minute break, 1500 seconds left, not running, nothing counted |
| Pomodoro.Timer.Tick | projects/pomodoro-clock/public/script.js:127-147 | one second less and focus time counted while a session runs; a finished session is counted; at zero the mode flips and the clock reloads with the new mode's length |
| Pomodoro.Timer.SwitchMode | projects/pomodoro-clock/public/script.js:149-155 | session and break swap and the clock reloads with the new length |
| Pomodoro.Timer.StartStop | projects/pomodoro-clock/public/script.js:157-168 | running flips, and the timer counts as started once it has run |
| Pomodoro.Timer.Reset | projects/pomodoro-clock/public/script.js:170-189 | every field back to its initial value |
| Pomodoro.Timer.AdjustLen | projects/pomodoro-clock/public/script.js:193-212 | nothing while running or when the new length leaves 1..60; otherwise that length changes, and the clock follows the session length only before the first start |
| Quotes.QuoteKey | projects/random-quote-machine/public/script.js:58-60 | the key is the text, three bars and the author |
| Quotes.KeyInjective | projects/random-quote-machine/public/script.js:58-60 | quotes whose texts have no bar share a key only when they are equal |
| Quotes.KeysCanCollide | projects/random-quote-machine/public/script.js:58-60 | two different quotes can share a key when a text holds three bars in a row |
| Quotes.HasKey | projects/random-quote-machine/public/script.js:64 | some favourite has that key |
| Quotes.IsFavorited | projects/random-quote-machine/public/script.js:62-65 | false without a current quote, otherwise whether a favourite shares its key |
| Quotes.WithoutKey | projects/random-quote-machine/public/script.js:197 | the filter shortens the list whenever the key was there |
| Quotes.WithoutKeyMembers | projects/random-quote-machine/public/script.js:197 | the filter keeps exactly the favourites whose key differs |
| Quotes.WithoutKeyAppend | projects/random-quote-machine/public/script.js:197 | the filter works piece by piece over a concatenation, so it keeps order |
| Quotes.WithoutAbsentKey | projects/random-quote-machine/public/script.js:197 | filtering a key that is not there changes nothing |
| Quotes.WithoutKeyNoDup | projects/random-quote-machine/public/script.js:197 | filtering keeps distinct keys distinct |
| Quotes.RemoveAt | projects/random-quote-machine/public/script.js:105 | `splice(idx, 1)` removes the entry at idx and shifts the rest; past the end nothing changes |
| Quotes.RemoveAtNoDup | projects/random-quote-machine/public/script.js:105 | splicing keeps distinct keys distinct |
| Quotes.QuoteBoard.constructor | projects/random-quote-machine/public/script.js:20-21 | the stored counter and favourites, no current quote |
| Quotes.QuoteBoard.ShowQuote | projects/random-quote-machine/public/script.js:157-183 | the quote becomes current, the counter goes up, and the heart shows whether its key is a favourite |
| Quotes.QuoteBoard.ToggleFavorite | projects/random-quote-machine/public/script.js:192-211 | nothing without a current quote; otherwise its membership flips, by filtering its key out or appending it, and no key appears twice if none did |
| Quotes.QuoteBoard.RemoveFavorite | projects/random-quote-machine/public/script.js:102-117 | the favourites are spliced, no key appears twice if none did, and the heart is refreshed |
| Twitch.Initial | projects/twitch-tv/public/script.js:42-51 | a new channel record: offline, an existing account, no viewers, the channel URL |
| Twitch.FetchChannel | projects/twitch-tv/public/script.js:36-81 | live exactly when the stream answer has a stream, closed exactly when the channel answer has an error or status 422, the display name when given (together `Identified`); viewers, game and logo from a live stream |
| Twitch.LexCompare | projects/twitch-tv/public/script.js:95 | a three-way comparison that is 0 exactly for equal strings |
| Twitch.LexCompareFlip | projects/twitch-tv/public/script.js:95 | swapping the operands negates the comparison |
| Twitch.Compare | projects/twitch-tv/public/script.js:92-96 | live before offline, otherwise by lower-cased name |
| Twitch.CompareFlip | projects/twitch-tv/public/script.js:92-96 | the comparator is antisymmetric |
| Twitch.Insert | projects/twitch-tv/public/script.js:92-96 | inserting adds exactly one element |
| Twitch.InsertSorted | projects/twitch-tv/public/script.js:92-96 | inserting into a sorted list keeps it sorted |
| Twitch.SortChannels | projects/twitch-tv/public/script.js:92-96 | the sort is a permutation of its input |
| Twitch.SortSorted | projects/twitch-tv/public/script.js:92-96 | the sort's result is ordered by the comparator |
| Twitch.SortedLiveFirst | projects/twitch-tv/public/script.js:92-96 | a sorted list has every live channel before every offline one, and names in order within each group |
| Twitch.Shows | projects/twitch-tv/public/script.js:190-193 | `online` shows exactly the live, `offline` exactly the others, any other filter everything |
| Twitch.ShownCount | projects/twitch-tv/public/script.js:184-199 | the count of shown rows is zero exactly when no row is shown |
| Twitch.LiveCount | projects/twitch-tv/public/script.js:203 | at most the number of channels; what it counts is pinned by LiveCountAppend and LiveCountOne |
| Twitch.LiveCountAppend | projects/twitch-tv/public/script.js:203 | the live count adds up over a concatenation |
| Twitch.LiveCountOne | projects/twitch-tv/public/script.js:203 | one channel counts once exactly when it is live |
| Twitch.AnyLive | projects/twitch-tv/public/script.js:217-221 | the global dot is lit exactly when some channel is live, that is when the live count is positive |
| Twitch.ShownCounts | projects/twitch-tv/public/script.js:184-207 | the all/online/offline row counts equal the total, live and offline counters |
| Twitch.Counts | projects/twitch-tv/public/script.js:202-207 | the live and offline counters add up to the total |
| Twitch.Badge | projects/twitch-tv/public/script.js:129-134 | LIVE exactly when live, CLOSED exactly when an offline closed account, OFFLINE otherwise |
| Twitch.StatusBoard.constructor | projects/twitch-tv/public/script.js:32-33 | no channels, filter `all` |
| Twitch.StatusBoard.ApplyFilter | projects/twitch-tv/public/script.js:184-200 | each row is hidden exactly when the filter does not show it, and the empty message shows exactly when every row is hidden |
| Twitch.StatusBoard.SelectFilter | projects/twitch-tv/public/script.js:225-234 | the filter changes and the rows are re-filtered |
| Twitch.StatusBoard.Refresh | projects/twitch-tv/public/script.js:83-109 | one record per channel, each `Identified` by its responses (live, closed and name as FetchChannel gives them), then sorted live first as a permutation, and every row hidden exactly when the active tab does not show it, with the empty notice exactly when no row shows |
| Wiki.TotalHits | projects/wikipedia-viewer/public/script.js:108 | `searchinfo.totalhits` when present, otherwise the number of hits |
| Wiki.ReadResponse | projects/wikipedia-viewer/public/script.js:102-114 | unexpected exactly when `query` or `query.search` is missing, no results exactly when the hit list is empty, otherwise the hits and their total |
| Wiki.Viewer.constructor | projects/wikipedia-viewer/public/script.js:41 | empty box, no last query, the welcome screen |
| Wiki.Viewer.Search | projects/wikipedia-viewer/public/script.js:72-77 | a trimmed query shorter than two characters or equal to the last one is not sent; any other becomes the last query and is sent |
| Wiki.Viewer.OnResponse | projects/wikipedia-viewer/public/script.js:102-115 | the error, no-results or results screen, as ReadResponse says |
| Wiki.Viewer.OnNetworkError | projects/wikipedia-viewer/public/script.js:116-121 | the network error screen |
| Wiki.Viewer.OnInput | projects/wikipedia-viewer/public/script.js:222-237 | the pending search is always cancelled; an empty query also forgets the last one and shows the welcome screen, one character schedules nothing, two or more schedule a search for it |
| Wiki.Viewer.OnDebounce | projects/wikipedia-viewer/public/script.js:236 | the scheduled search runs with Search's guard |
| Wiki.Viewer.OnEnter | projects/wikipedia-viewer/public/script.js:241-249 | the pending search is dropped and a query of two or more characters is sent even when it is the last one |
| Wiki.Viewer.ResendBox | projects/wikipedia-viewer/public/script.js:246-247 | the box's trimmed query becomes the last query and is sent |
| Wiki.Viewer.SearchAgain | projects/wikipedia-viewer/public/script.js:270-271 | the last query is forgotten and the trimmed query sent if it is long enough |
| Wiki.Viewer.OnPill | projects/wikipedia-viewer/public/script.js:263-272 | the pill's query fills the box and is searched even when it is the last one |
| Wiki.Viewer.OnRetry | projects/wikipedia-viewer/public/script.js:284-292 | the box's query is searched again, or, when too short, the welcome screen shows |
| Wiki.Viewer.ClearSearch | projects/wikipedia-viewer/public/script.js:208-217 | empty box, no last query, no pending search, the welcome screen |
| Wiki.Listable | projects/wikipedia-viewer/public/script.js:365 | an article is left out exactly when its title is `Main Page` or begins with `Special:` |
| Wiki.ListableOnly | projects/wikipedia-viewer/public/script.js:364-365 | every listable article is kept as many times as it occurs in the input, and no other article |
| Wiki.ListableOnlyAppend | projects/wikipedia-viewer/public/script.js:364-365 | the filter works piece by piece over a concatenation, so it keeps order |
| Wiki.ListableOnlyOne | projects/wikipedia-viewer/public/script.js:365 | a single article is kept exactly when it is neither the main page nor a special page |
| Wiki.ListableOnlyKeeps | projects/wikipedia-viewer/public/script.js:364-365 | every listable article is kept |
| Wiki.Take | projects/wikipedia-viewer/public/script.js:366 | `slice(0, n)`: the first n entries, or all when fewer |
| Wiki.MostRead | projects/wikipedia-viewer/public/script.js:362-366 | the first four listable articles in feed order, or all of them when there are fewer |
| Wiki.DisplayTitle | projects/wikipedia-viewer/public/script.js:373 | the normalized title when present and non-empty, otherwise the title |
| Wiki.Dated | projects/wikipedia-viewer/public/script.js:412 | `e.text && e.year` holds exactly when there is a non-empty text and the year is not 0 |
| Wiki.DatedOnly | projects/wikipedia-viewer/public/script.js:412 | every event with a text and a non-zero year, as often as it occurs, and no other |
| Wiki.DatedOnlyAppend | projects/wikipedia-viewer/public/script.js:412 | the filter keeps order: it works piece by piece over a concatenation |
| Wiki.DatedOnlyOne | projects/wikipedia-viewer/public/script.js:412 | one event is kept exactly when it is dated |
| Wiki.InsertByYear | projects/wikipedia-viewer/public/script.js:413 | inserting adds exactly one event |
| Wiki.InsertByYearSorted | projects/wikipedia-viewer/public/script.js:413 | inserting into a newest-first list keeps it newest first |
| Wiki.ByYear | projects/wikipedia-viewer/public/script.js:413 | the sort is a permutation |
| Wiki.ByYearSorted | projects/wikipedia-viewer/public/script.js:413 | the sort's result is newest first |
| Wiki.OnThisDayPicks | projects/wikipedia-viewer/public/script.js:409-414 | five dated events from the feed, or all of them when there are fewer, newest first, and no dated event left out is more recent than one shown |
| Wiki.SortedDated | projects/wikipedia-viewer/public/script.js:412-413 | the dated events sorted by year are newest first, as many as the dated events, and are exactly the dated events of the feed |
| Wiki.TakeKeepsNewest | projects/wikipedia-viewer/public/script.js:414 | the first events of a newest-first list are newest first, and none left out is more recent than one kept |
| Wiki.ConsNewestFirst | projects/wikipedia-viewer/public/script.js:413 | an event no older than every event of a newest-first list keeps it newest first in front of it |
| Wiki.OnThisDay | projects/wikipedia-viewer/public/script.js:411-414 | at most five events, each a dated event of the feed |
| Wiki.YearLabelReadsBack | projects/wikipedia-viewer/public/script.js:421 | the year label, the number or its magnitude with ` BC`, reads back as the year |
| Wiki.YearLabel | projects/wikipedia-viewer/public/script.js:421 | a positive year is shown as digits only; any other year ends in ` BC` |
| Wiki.Excerpt | projects/wikipedia-viewer/public/script.js:346 | texts of up to 220 characters are unchanged; longer ones become their first 220 characters and `...` |
| Markdown.Pluralize | projects/markdown-previewer/public/script.js:86-88 | the singular form `1 word` exactly for a count of one; any other count ends in `s` |
| Markdown.PluralizeReadsBack | projects/markdown-previewer/public/script.js:86-88 | the count, a space, the word, and an `s` exactly when the count is not 1 |
| Markdown.WordPrefix | projects/markdown-previewer/public/script.js:104 | the leading run of non-space characters |
| Markdown.SplitWs | projects/markdown-previewer/public/script.js:104 | `split(/\s+/)` gives at least one piece |
| Markdown.WordCount | projects/markdown-previewer/public/script.js:103 | the word count is zero exactly when the text is all white space |
| Markdown.WordCountIsWordStarts | projects/markdown-previewer/public/script.js:104 | the word count equals the number of word starts: characters that are not white space and follow white space or the start |
| Markdown.SplitAt | projects/markdown-previewer/public/script.js:106 | `split('\n')` gives one more piece than there are newlines, none containing one |
| Markdown.JoinSplit | projects/markdown-previewer/public/script.js:106 | joining the pieces with newlines gives the text back |
| Markdown.LineCount | projects/markdown-previewer/public/script.js:106 | the line count is the number of newlines plus one |
| Markdown.StatsCounts | projects/markdown-previewer/public/script.js:101-107 | the footer shows the word, character and line counts, pluralized |
| Markdown.ZeroWords | projects/markdown-previewer/public/script.js:101-107 | the word label reads `0 words` exactly when the count is zero |
| Markdown.StatsOf | projects/markdown-previewer/public/script.js:101-107 | the footer reads `0 words` exactly when the text is all white space, and the line count is the newlines plus one |
| Markdown.EmptyStats | projects/markdown-previewer/public/script.js:101-107 | an empty document shows `0 words`, `0 chars`, `1 line` |
| Markdown.Strip | projects/markdown-previewer/public/script.js:112 | `replace(/[^\w\s-]/g, '')` keeps every word character, white space and `-` as many times as it occurs, and nothing else |
| Markdown.StripAppend | projects/markdown-previewer/public/script.js:112 | the replacement works piece by piece over a concatenation, so it keeps order |
| Markdown.StripOne | projects/markdown-previewer/public/script.js:112 | a single character stays exactly when it is a word character, white space or `-` |
| Markdown.StripKept | projects/markdown-previewer/public/script.js:112 | a string of kept characters is unchanged |
| Markdown.LineRest | projects/markdown-previewer/public/script.js:110 | the rest of a line, up to the first line terminator |
| Markdown.Backtrack | projects/markdown-previewer/public/script.js:110 | a capture needs at least one white-space character after the `#` and is a non-empty rest of a line, without a line terminator |
| Markdown.BacktrackMatches | projects/markdown-previewer/public/script.js:110 | backtracking finds a capture exactly when some white-space run of length 1 to `k` is followed by a character that is not a line terminator, and the capture is the rest of the line after the longest such run |
| Markdown.HeadingAt | projects/markdown-previewer/public/script.js:110 | a match at a position has a `#` at the start of a line followed by white space, and its capture is a non-empty rest of a line without a line terminator |
| Markdown.HeadingAtMatches | projects/markdown-previewer/public/script.js:110 | no match at a position exactly when no `#` starts the line there or no white-space run after it is followed by a non-terminator; otherwise the capture is the rest of the line after the longest such run |
| Markdown.LongestRunMatches | projects/markdown-previewer/public/script.js:110 | when the whole white-space run after a line-start `#` is followed by a non-terminator, the rest of that line is the capture |
| Markdown.HeadingOnAnyLine | projects/markdown-previewer/public/script.js:110 | a `#` at the start of any line, any white space and a title capture that title up to the end of its line |
| Markdown.RunThenLine | projects/markdown-previewer/public/script.js:110 | a white-space run after a line-start `#` and then a line's rest: that rest is the capture |
| Markdown.TrimStartOfSpace | projects/markdown-previewer/public/script.js:110 | `trimStart` drops exactly a white-space run that stops before a non-white-space character |
| Markdown.FirstHeadingFromLeftmost | projects/markdown-previewer/public/script.js:110 | the search from a position finds the leftmost match, and none exactly when no later position matches |
| Markdown.LeftmostFrom | projects/markdown-previewer/public/script.js:110 | the search from a position stops at the first matching position after it, or finds nothing when no position after it matches |
| Markdown.FirstHeading | projects/markdown-previewer/public/script.js:110 | `match` gives the leftmost match in the text, and none exactly when no position matches |
| Markdown.DocNameShape | projects/markdown-previewer/public/script.js:109-117 | the document name is one to 28 kept characters followed by `.md` |
| Markdown.DocName | projects/markdown-previewer/public/script.js:109-117 | the document name always ends in `.md` |
| Markdown.NameOf | projects/markdown-previewer/public/script.js:112-113 | the name made from a heading is one to 28 word, white-space or `-` characters followed by `.md` |
| Markdown.FileName | projects/markdown-previewer/public/script.js:113 | `untitled.md` for an empty name, otherwise the name's first 28 characters (or all of them) followed by `.md` |
| Markdown.FileNameShape | projects/markdown-previewer/public/script.js:112-113 | the same for the name built from a stripped heading |
| Markdown.NoHashNoHeading | projects/markdown-previewer/public/script.js:110 | a text without `#` has no heading match |
| Markdown.UntitledWithoutHash | projects/markdown-previewer/public/script.js:115 | a text without `#` is named `untitled.md` |
| Markdown.HeadingOfTitle | projects/markdown-previewer/public/script.js:110 | a text starting `# title` matches with that title |
| Markdown.DocNameOfTitle | projects/markdown-previewer/public/script.js:109-117 | a text starting `# title` with a short, clean title is named `title.md` |
| Markdown.Editor.constructor | projects/markdown-previewer/public/script.js:129-133 | the saved text when there is one, otherwise the sample, rendered and saved |
| Markdown.Editor.Render | projects/markdown-previewer/public/script.js:91-97 | the text is saved |
| Markdown.Editor.Edit | projects/markdown-previewer/public/script.js:201 | the text and selection are replaced |
| Markdown.Editor.Tab | projects/markdown-previewer/public/script.js:209-218 | the selection is replaced by two spaces and the caret is placed after them |
| Markdown.Editor.ClearEditor | projects/markdown-previewer/public/script.js:144-149 | nothing at all changes for a blank editor; otherwise it is emptied, saved and announced, and the footer and header show `0 words`, `0 chars`, `1 line` and `untitled.md` |
| Markdown.Editor.Save | projects/markdown-previewer/public/script.js:125-127 | the text is stored and announced |
| Markdown.Editor.Copy | projects/markdown-previewer/public/script.js:151-156 | nothing to copy for a blank editor; otherwise the text reaches the clipboard when the clipboard accepts it, with the matching toast |
| Markdown.Editor.Download | projects/markdown-previewer/public/script.js:158-168 | nothing to download for a blank editor; otherwise the text is offered under the document name |

## Left out

- The DOM, CSS classes, animations, audio, toasts' timing, status texts, the move log, the win stroke, the score labels (`updateMarkLabels`) and the copy-code button: they are presentation. Where a page's logic reads its own DOM, the model keeps the fact as a field; examples are which section shows, the `hidden` flag of a row and the heart's state.
- Timers (`setTimeout`, `setInterval`, debounce): they become explicit events. The model keeps a count of pending AI moves, the set of live restart timers with the `resetTimer` handle, the debounced query and the running flag. Firing one is a method call. Time itself is not modelled.
- `fetch`, `localStorage`, the clipboard, the Blob download and Socket.io transport: responses and stored values are parameters, and each Socket.io acknowledgement is a separate event whose reply is a parameter. Messages sent are appended to an outbox. The Wikipedia viewer's aborted requests are not modelled; each response arrives as a separate event.
- `Math.random`: room codes are drawn from an explicit list of index draws, and the quote shown is a parameter.
- Rooms.RoomServer.CreateRoom: requires some draw in the list to give a free code. The source retries without bound, and an unbounded retry over random draws cannot be expressed without randomness.
- The calculator's `Function(...)` evaluation of the formula and its floating-point formatting: Calculator.Calc.Evaluate takes the outcome (a number's text or an error) as a parameter.
- `localeCompare`: Twitch.Compare orders lower-cased names by code unit. Case mapping (`toUpperCase`, `toLowerCase`) covers ASCII letters only; white space is ECMAScript's full WhiteSpace and LineTerminator set.
- String lengths: a Dafny `string` counts Unicode characters, while JavaScript's `.length`, `slice` and `substring` count UTF-16 code units. Wiki.Viewer.Search (at least two characters), Duel.Client.JoinClick (at least three), Wiki.Excerpt (the cut at 220), Markdown.FileName and Markdown.FileNameShape (the cut at 28) and Markdown.StatsCounts (the character count) agree with the source only on text without characters outside the Basic Multilingual Plane. For example, the query "😀" has length 2 in JavaScript and is searched, while the model counts 1 and ignores it.
- `Array.prototype.sort`: Twitch.SortChannels and Wiki.ByYear are stable insertion sorts. Engines may choose other algorithms, but they agree on any comparator consistent with a total preorder, as these are.
- Duel.Client.MakeMove: when the index is off the board, JavaScript stores the mark under that property of the board array before `cells[idx]` throws. The model leaves the nine cells unchanged and reports the throw.
- Duel.Client.BestMove: proves the chosen cell is a best choice under the exact minimax value, and Search.ImmediateWinChosen proves an immediate win is always taken. That the AI never loses from any reachable position, and that two AIs draw from the empty board, are not proved; both need the whole game tree.
- The marked library and the rendered preview HTML: Markdown.Editor.Render only records the save.
- The Markdown footer and document name are computed from the current text. The source updates them after a debounce.
- The Markdown default sample text is a parameter of the constructor. The caret position beyond the Tab key's selection is not modelled.
- The keyboard shortcuts that toggle the test suites (the `fcc` key buffer) and the test-suite loaders: they load external scripts.
- The Wikipedia featured-article card's title and links, and the Twitch logos, game and status texts beyond the live case: display only.
- Console logging, and the servers' HTTP/CORS/Express setup.

=== FILE: board.dfy ===
/**
 * The tic-tac-toe board engine: nine cells in row-major order, the eight
 * winning lines in their fixed order, win and full-board detection, and the
 * outcome of a move.
 */
module Board {
  import opened Wrappers

  datatype Mark = X | O

  /** A cell holds a mark or is empty (`null` in the client). */
  type Cell = Option<Mark>

  function Other(m: Mark): (r: Mark)
    ensures r != m
  {
    if m == X then O else X
  }

  /** A winning line: three board indices. */
  datatype Line = Line(a: nat, b: nat, c: nat)

  /** `WIN_COMBOS`: three rows, three columns, two diagonals, in this order. */
  const Combos: seq<Line> := [
    Line(0, 1, 2), Line(3, 4, 5), Line(6, 7, 8),
    Line(0, 3, 6), Line(1, 4, 7), Line(2, 5, 8),
    Line(0, 4, 8), Line(2, 4, 6)
  ]

  /** All three cells of `l` hold `m` (an index off the board holds nothing). */
  predicate Owns(b: seq<Cell>, l: Line, m: Mark)
  {
    l.a < |b| && l.b < |b| && l.c < |b| &&
    b[l.a] == Some(m) && b[l.b] == Some(m) && b[l.c] == Some(m)
  }

  /** `hasWin(mark)`: some winning line is entirely `m`. */
  predicate HasWin(b: seq<Cell>, m: Mark)
  {
    exists k :: 0 <= k < |Combos| && Owns(b, Combos[k], m)
  }

  /** `board.every(c => c !== null)`. */
  predicate Full(b: seq<Cell>)
  {
    forall i :: 0 <= i < |b| ==> b[i].Some?
  }

  /** The position in `Combos`, at or after `k`, of the first line entirely `m`. */
  function FirstWinFrom(b: seq<Cell>, m: Mark, k: nat): (r: Option<nat>)
    requires k <= |Combos|
    ensures r.Some? ==> k <= r.value < |Combos| && Owns(b, Combos[r.value], m)
    ensures r.Some? ==> forall j :: k <= j < r.value ==> !Owns(b, Combos[j], m)
    ensures r.None? ==> forall j :: k <= j < |Combos| ==> !Owns(b, Combos[j], m)
    decreases |Combos| - k
  {
    if k == |Combos| then None
    else if Owns(b, Combos[k], m) then Some(k)
    else FirstWinFrom(b, m, k + 1)
  }

  /**
   * `checkWin(mark)`: the first line, in `Combos` order, entirely `m`, or
   * nothing; it finds a line exactly when `hasWin` holds.
   */
  function CheckWin(b: seq<Cell>, m: Mark): (r: Option<Line>)
    ensures r.Some? <==> HasWin(b, m)
    ensures r.Some? ==> exists k :: 0 <= k < |Combos| && r.value == Combos[k] && Owns(b, Combos[k], m) &&
                                     forall j :: 0 <= j < k ==> !Owns(b, Combos[j], m)
  {
    match FirstWinFrom(b, m, 0)
    case Some(k) => Some(Combos[k])
    case None => None
  }

  /** `Array(9).fill(null)`. */
  const EmptyBoard: seq<Cell> := [None, None, None, None, None, None, None, None, None]

  /** A board a game can go on from: it has an empty cell and no line for either mark. */
  predicate Open(b: seq<Cell>)
  {
    !Full(b) && !HasWin(b, X) && !HasWin(b, O)
  }

  /** A fresh board is open. */
  lemma EmptyBoardOpen()
    ensures Open(EmptyBoard)
  {
    assert EmptyBoard[0].None?;
  }

  /** Number of empty cells. */
  function Empties(b: seq<Cell>): (n: nat)
    ensures n <= |b|
    ensures n == 0 <==> Full(b)
  {
    if b == [] then 0
    else Empties(b[..|b| - 1]) + (if b[|b| - 1].None? then 1 else 0)
  }

  /** Placing a mark in an empty cell leaves one empty cell fewer. */
  lemma {:induction false} EmptiesPlace(b: seq<Cell>, i: nat, m: Mark)
    requires i < |b| && b[i].None?
    ensures Empties(b[i := Some(m)]) == Empties(b) - 1
    decreases |b|
  {
    var b' := b[i := Some(m)];
    var n := |b| - 1;
    assert Empties(b) == Empties(b[..n]) + (if b[n].None? then 1 else 0);
    assert Empties(b') == Empties(b'[..n]) + (if b'[n].None? then 1 else 0);
    if i < n {
      assert b'[..n] == b[..n][i := Some(m)];
      EmptiesPlace(b[..n], i, m);
    } else {
      assert b'[..n] == b[..n];
    }
  }

  /** Placing `m` never completes a line for a different mark. */
  lemma NoNewWin(b: seq<Cell>, i: nat, m: Mark, other: Mark)
    requires i < |b| && m != other && !HasWin(b, other)
    ensures !HasWin(b[i := Some(m)], other)
  {
    var b' := b[i := Some(m)];
    forall k | 0 <= k < |Combos|
      ensures !Owns(b', Combos[k], other)
    {
      assert !Owns(b, Combos[k], other);
    }
  }

  /** The state of a game after a move by `m`, as `makeMove` decides it. */
  datatype Status = InProgress | Won(winner: Mark, line: Line) | Draw

  /**
   * A move that completes a line is a win for its mark even when it also
   * fills the board; otherwise a full board is a draw.
   */
  function Outcome(b: seq<Cell>, m: Mark): (r: Status)
    ensures r.Won? <==> HasWin(b, m)
    ensures r.Won? ==> r.winner == m && Owns(b, r.line, m) && r.line in Combos
    ensures r == Draw <==> !HasWin(b, m) && Full(b)
    ensures r == InProgress <==> !HasWin(b, m) && !Full(b)
  {
    match CheckWin(b, m)
    case Some(l) => Won(m, l)
    case None => if Full(b) then Draw else InProgress
  }

  /**
   * X on 4, O on 0, X on 3, O on 1, X on 5: the game goes on until X's
   * third mark completes the middle row.
   */
  lemma MiddleRowGame()
    ensures var b4 := EmptyBoard[4 := Some(X)][0 := Some(O)][3 := Some(X)][1 := Some(O)];
            Outcome(b4, O) == InProgress &&
            Outcome(b4[5 := Some(X)], X) == Won(X, Line(3, 4, 5))
  {
    var b4 := EmptyBoard[4 := Some(X)][0 := Some(O)][3 := Some(X)][1 := Some(O)];
    assert !Owns(b4, Combos[0], O);
    assert b4[2].None?;
    assert !Owns(b4[5 := Some(X)], Combos[0], X);
    assert Owns(b4[5 := Some(X)], Combos[1], X);
  }

  /**
   * X on 0, O on 1, X on 2, O on 4, X on 6, O on 3, X on 5, O on 7: the
   * eighth mark already completes the middle column for O, so the game ends
   * there as O's win and a ninth mark never reaches the board.
   */
  lemma MiddleColumnGame()
    ensures var b7 := EmptyBoard[0 := Some(X)][1 := Some(O)][2 := Some(X)][4 := Some(O)]
                                [6 := Some(X)][3 := Some(O)][5 := Some(X)];
            Outcome(b7, X) == InProgress &&
            Outcome(b7[7 := Some(O)], O) == Won(O, Line(1, 4, 7))
  {
    var b7 := EmptyBoard[0 := Some(X)][1 := Some(O)][2 := Some(X)][4 := Some(O)]
                        [6 := Some(X)][3 := Some(O)][5 := Some(X)];
    var b8 := b7[7 := Some(O)];
    assert b7 == [Some(X), Some(O), Some(X), Some(O), Some(O), Some(X), Some(X), None, None];
    forall k | 0 <= k < |Combos|
      ensures !Owns(b7, Combos[k], X)
    {
      assert k == 0 || k == 1 || k == 2 || k == 3 || k == 4 || k == 5 || k == 6 || k == 7;
    }
    assert b7[7].None?;
    assert b8 == [Some(X), Some(O), Some(X), Some(O), Some(O), Some(X), Some(X), Some(O), None];
    assert !Owns(b8, Combos[0], O) && !Owns(b8, Combos[1], O) && !Owns(b8, Combos[2], O);
    assert !Owns(b8, Combos[3], O) && Owns(b8, Combos[4], O);
  }

  /** A move on an open board that neither wins nor fills the board leaves it open. */
  lemma MoveKeepsOpen(b: seq<Cell>, i: nat, m: Mark)
    requires i < |b| && Open(b) && Outcome(b[i := Some(m)], m) == InProgress
    ensures Open(b[i := Some(m)])
  {
    NoNewWin(b, i, m, Other(m));
    assert m == X || m == O;
  }
}

=== FILE: calculator.dfy ===
/**
 * The JavaScript calculator's input state machine: the display entry
 * `current`, the pending `formula`, the `awaiting` (an operator was just
 * pressed) and `evaluated` (a result is shown) flags, the last evaluated
 * formula and the history tape. The numeric evaluation itself is abstracted:
 * `Evaluate` receives its outcome, a number's text or an error.
 */
module Calculator {
  import opened JsText
  import opened Seqs

  /** The operator characters `+ - * /`. */
  predicate IsOp(c: char)
  {
    c == '+' || c == '-' || c == '*' || c == '/'
  }

  /** Number of `.` characters in `s`. */
  function Dots(s: string): (n: nat)
    ensures n <= |s|
  {
    if s == [] then 0 else Dots(s[..|s| - 1]) + (if s[|s| - 1] == '.' then 1 else 0)
  }

  lemma {:induction false} DotsAppend(s: string, t: string)
    ensures Dots(s + t) == Dots(s) + Dots(t)
    decreases |t|
  {
    if t != [] {
      var u := t[..|t| - 1];
      var last := if t[|t| - 1] == '.' then 1 else 0;
      assert (s + t)[..|s + t| - 1] == s + u;
      assert Dots(s + t) == Dots(s + u) + last;
      assert Dots(t) == Dots(u) + last;
      DotsAppend(s, u);
    } else {
      assert s + t == s;
    }
  }

  /** `current.includes('.')`. */
  lemma DotsIncludes(s: string)
    ensures Dots(s) == 0 <==> '.' !in s
  {
    if s != [] {
      DotsIncludes(s[..|s| - 1]);
      assert s == s[..|s| - 1] + [s[|s| - 1]];
    }
  }

  /**
   * A typed entry: a digit followed by digits and at most one `.`, with no
   * leading zero before another digit.
   */
  predicate IsEntry(s: string)
  {
    |s| >= 1 && IsDigit(s[0]) &&
    (forall i :: 0 <= i < |s| ==> IsDigit(s[i]) || s[i] == '.') &&
    Dots(s) <= 1 &&
    !(|s| >= 2 && s[0] == '0' && IsDigit(s[1]))
  }

  /** The text a finite result is shown as: non-empty, at most one `.`, not ending in an operator. */
  predicate IsNumberText(t: string)
  {
    |t| >= 1 && Dots(t) <= 1 && !IsOp(t[|t| - 1]) && t != "Error"
  }

  /** What the abstracted evaluation produced. */
  datatype EvalResult = Number(text: string) | Failed

  /** One history tape entry. */
  datatype Entry = Entry(expr: string, result: string)

  /** `s` without its trailing run of operators: `s.replace(/[+\-*\/]+$/, '')`. */
  function StripOps(s: string): (r: string)
    ensures |r| <= |s| && r == s[..|r|]
    ensures r == [] || !IsOp(r[|r| - 1])
    ensures forall i :: |r| <= i < |s| ==> IsOp(s[i])
  {
    if s == [] || !IsOp(s[|s| - 1]) then s else StripOps(s[..|s| - 1])
  }

  /**
   * The trailing operator run of `f` is one operator, or an operator other
   * than `-` followed by `-`.
   */
  predicate OpTail(f: string)
  {
    var r := StripOps(f);
    (|f| == |r| + 1) || (|f| == |r| + 2 && f[|f| - 2] != '-' && f[|f| - 1] == '-')
  }

  /** Appending an operator to a string that does not end in one leaves a one-operator tail. */
  lemma OpTailAppend(s: string, op: char)
    requires IsOp(op) && (s == [] || !IsOp(s[|s| - 1]))
    ensures OpTail(s + [op]) && StripOps(s + [op]) == s
  {
    assert (s + [op])[..|s|] == s;
  }

  /** A `-` after a single operator other than `-` makes a two-operator tail over the same stripped formula. */
  lemma MinusAfterOp(f: string)
    requires OpTail(f) && !EndsWithMinus(f)
    ensures OpTail(f + "-") && StripOps(f + "-") == StripOps(f)
  {
    var g := f + "-";
    assert g[..|f|] == f;
  }

  /** `s.endsWith('-')`. */
  function EndsWithMinus(s: string): bool
  {
    |s| >= 1 && s[|s| - 1] == '-'
  }

  /** The calculator state of one page. */
  class Calc {
    var current: string
    var formula: string
    var awaiting: bool
    var evaluated: bool
    var lastFormula: string
    var history: seq<Entry>

    /**
     * A result is never pending together with an operator; the display is
     * never empty, holds at most one `.` and does not end in an operator; it
     * is a typed entry unless a result or an operator is pending; after an
     * operator the formula ends in a one- or two-operator run; after a result
     * the formula is empty.
     */
    predicate Valid()
      reads this
    {
      !(evaluated && awaiting) &&
      |current| >= 1 && Dots(current) <= 1 && !IsOp(current[|current| - 1]) &&
      (!evaluated && !awaiting ==> IsEntry(current)) &&
      (awaiting ==> OpTail(formula)) &&
      (evaluated ==> formula == "")
    }

    constructor ()
      ensures Valid()
      ensures current == "0" && formula == "" && !awaiting && !evaluated && lastFormula == "" && history == []
    {
      current := "0";
      formula := "";
      awaiting := false;
      evaluated := false;
      lastFormula := "";
      history := [];
    }

    /**
     * `inputDigit(d)`: after a result the digit starts afresh and the
     * formula is dropped; after an operator it starts a new entry; a lone
     * `0` is replaced; otherwise the digit is appended.
     */
    method InputDigit(d: char)
      requires Valid() && IsDigit(d)
      modifies this`current, this`formula, this`awaiting, this`evaluated
      ensures Valid() && !awaiting && !evaluated
      ensures old(evaluated) ==> current == [d] && formula == ""
      ensures !old(evaluated) && old(awaiting) ==> current == [d] && formula == old(formula)
      ensures !old(evaluated) && !old(awaiting) && old(current) == "0" ==> current == [d] && formula == old(formula)
      ensures !old(evaluated) && !old(awaiting) && old(current) != "0" ==>
                current == old(current) + [d] && formula == old(formula)
    {
      if evaluated {
        current := [d];
        formula := "";
        evaluated := false;
      } else if awaiting {
        current := [d];
        awaiting := false;
      } else if current == "0" {
        current := if d == '0' then "0" else [d];
      } else {
        DotsAppend(current, [d]);
        current := current + [d];
      }
    }

    /**
     * `inputDecimal`: `0.` after a result (dropping the formula) or an
     * operator; otherwise a `.` appended unless the entry already has one.
     */
    method InputDecimal()
      requires Valid()
      modifies this`current, this`formula, this`awaiting, this`evaluated
      ensures Valid() && !awaiting && !evaluated && Dots(current) == 1
      ensures old(evaluated) ==> current == "0." && formula == ""
      ensures !old(evaluated) && old(awaiting) ==> current == "0." && formula == old(formula)
      ensures !old(evaluated) && !old(awaiting) ==>
                formula == old(formula) &&
                current == (if '.' in old(current) then old(current) else old(current) + ".")
    {
      DotsAppend("0", ".");
      if evaluated {
        current := "0.";
        formula := "";
        evaluated := false;
        awaiting := false;
      } else if awaiting {
        current := "0.";
        awaiting := false;
      } else if '.' !in current {
        DotsIncludes(current);
        DotsAppend(current, ".");
        current := current + ".";
      } else {
        DotsIncludes(current);
      }
    }

    /**
     * `inputOperator(op)`: the entry (or the result) moves into the formula
     * followed by `op`. Right after another operator, a `-` is appended
     * unless the formula already ends in `-`, and any other operator
     * replaces the whole trailing operator run.
     */
    method InputOperator(op: char)
      requires Valid() && IsOp(op)
      modifies this`formula, this`awaiting, this`evaluated
      ensures Valid() && awaiting && !evaluated && OpTail(formula)
      ensures formula[|formula| - 1] == (if old(awaiting) && op == '-' then '-' else op)
      ensures !old(awaiting) ==> formula == (if old(evaluated) then "" else old(formula)) + current + [op]
      ensures old(awaiting) && op == '-' ==>
                formula == (if EndsWithMinus(old(formula)) then old(formula) else old(formula) + "-")
      ensures old(awaiting) && op != '-' ==> formula == StripOps(old(formula)) + [op]
    {
      if awaiting {
        ChainOperator(op);
      } else {
        StartOperator(op);
      }
    }

    /** `inputOperator(op)` with no operator pending: the entry or the result is moved into the formula, then `op`. */
    method StartOperator(op: char)
      requires Valid() && IsOp(op) && !awaiting
      modifies this`formula, this`awaiting, this`evaluated
      ensures Valid() && awaiting && !evaluated && OpTail(formula)
      ensures formula == (if old(evaluated) then "" else old(formula)) + current + [op]
    {
      if evaluated {
        formula := current;
        evaluated := false;
      } else {
        formula := formula + current;
      }
      assert formula[|formula| - 1] == current[|current| - 1];
      OpTailAppend(formula, op);
      formula := formula + [op];
      awaiting := true;
    }

    /** `inputOperator(op)` right after another operator. */
    method ChainOperator(op: char)
      requires Valid() && IsOp(op) && awaiting
      modifies this`formula
      ensures Valid() && OpTail(formula)
      ensures op == '-' ==> formula == (if EndsWithMinus(old(formula)) then old(formula) else old(formula) + "-")
      ensures op != '-' ==> formula == StripOps(old(formula)) + [op]
    {
      if op == '-' && !EndsWithMinus(formula) {
        MinusAfterOp(formula);
        formula := formula + [op];
      } else if op != '-' {
        OpTailAppend(StripOps(formula), op);
        formula := StripOps(formula) + [op];
      }
    }

    /**
     * `evaluate`: nothing while a result is shown (the formula is then
     * empty); otherwise the full expression becomes `lastFormula`, the
     * outcome replaces the display (`Error` on failure), a successful
     * outcome is appended to the history, and the result is pending.
     */
    method Evaluate(outcome: EvalResult)
      requires Valid()
      requires outcome.Number? ==> IsNumberText(outcome.text)
      modifies this`current, this`formula, this`awaiting, this`evaluated, this`lastFormula, this`history
      ensures Valid()
      ensures old(evaluated) ==> unchanged(this)
      ensures !old(evaluated) ==>
                lastFormula == old(formula) + old(current) &&
                current == (if outcome.Number? then outcome.text else "Error") &&
                history == old(history) + (if outcome.Number? then [Entry(lastFormula, current)] else []) &&
                formula == "" && evaluated && !awaiting
    {
      if evaluated && formula == "" {
        return;
      }
      var fullExpr := formula + current;
      lastFormula := fullExpr;
      DotsIncludes("Error");
      current := if outcome.Number? then outcome.text else "Error";
      if current != "Error" {
        history := history + [Entry(fullExpr, current)];
      }
      formula := "";
      evaluated := true;
      awaiting := false;
    }

    /** `clear`: back to `0` with an empty formula and no pending operator or result; the history stays. */
    method Clear()
      modifies this`current, this`formula, this`awaiting, this`evaluated, this`lastFormula
      ensures Valid()
      ensures current == "0" && formula == "" && !awaiting && !evaluated && lastFormula == ""
    {
      current := "0";
      formula := "";
      awaiting := false;
      evaluated := false;
      lastFormula := "";
    }

    /**
     * The Backspace key: only while an entry is being typed, it drops the
     * last character, or leaves `0` when one character is left.
     */
    method Backspace()
      requires Valid()
      modifies this`current
      ensures Valid()
      ensures old(evaluated) || old(awaiting) ==> current == old(current)
      ensures !old(evaluated) && !old(awaiting) ==>
                current == if |old(current)| > 1 then old(current)[..|old(current)| - 1] else "0"
    {
      if !evaluated && !awaiting && |current| > 1 {
        var c := current;
        assert c == c[..|c| - 1] + [c[|c| - 1]];
        DotsAppend(c[..|c| - 1], [c[|c| - 1]]);
        current := current[..|current| - 1];
      } else if !evaluated && !awaiting {
        current := "0";
      }
    }

    /** The tape's clear button. */
    method ClearHistory()
      modifies this`history
      ensures history == []
    {
      history := [];
    }
  }

  /** Every occurrence of `c` in `s` replaced by `rep`. */
  function ReplaceChar(s: string, c: char, rep: string): (r: string)
    ensures c !in rep ==> c !in r
    ensures c !in s ==> r == s
    ensures |rep| >= 1 ==> |r| >= |s|
  {
    if s == [] then []
    else (if s[0] == c then rep else [s[0]]) + ReplaceChar(s[1..], c, rep)
  }

  /** The replacement works piece by piece over a concatenation. */
  lemma {:induction false} ReplaceCharAppend(a: string, b: string, c: char, rep: string)
    ensures ReplaceChar(a + b, c, rep) == ReplaceChar(a, c, rep) + ReplaceChar(b, c, rep)
  {
    if a == [] {
      assert a + b == b;
    } else {
      var h := if a[0] == c then rep else [a[0]];
      DropAppend(a, b, 1);
      assert (a + b)[0] == a[0];
      ReplaceCharAppend(a[1..], b, c, rep);
      Regroup(ReplaceChar(a + b, c, rep), ReplaceChar(a, c, rep), ReplaceChar(b, c, rep), h, ReplaceChar(a[1..], c, rep));
    }
  }

  /** One character: `c` becomes `rep`, any other stays. */
  lemma ReplaceCharOne(x: char, c: char, rep: string)
    ensures ReplaceChar([x], c, rep) == if x == c then rep else [x]
  {
    assert [x][1..] == [];
  }

  /** `.replace(/(?<=\d)-/g, ' − ')`: a `-` right after a digit becomes a spaced minus sign. */
  function SpaceMinus(s: string, prev: char): (r: string)
    ensures |r| >= |s|
    ensures NoMinusAfterDigit(s, prev) ==> r == s
  {
    if s == [] then []
    else
      assert NoMinusAfterDigit(s, prev) ==> NoMinusAfterDigit(s[1..], s[0]) by {
        if NoMinusAfterDigit(s, prev) {
          forall i | 1 <= i < |s[1..]| && s[1..][i] == '-'
            ensures !IsDigit(s[1..][i - 1])
          {
            assert s[i + 1] == '-';
          }
        }
      }
      assert s == [s[0]] + s[1..];
      (if s[0] == '-' && IsDigit(prev) then " \U{2212} " else [s[0]]) + SpaceMinus(s[1..], s[0])
  }

  /** No `-` in `s` follows a digit, `prev` being the character before `s`. */
  predicate NoMinusAfterDigit(s: string, prev: char)
  {
    (s != [] && s[0] == '-' ==> !IsDigit(prev)) &&
    forall i :: 1 <= i < |s| && s[i] == '-' ==> !IsDigit(s[i - 1])
  }

  /** The character before `b` when `a` comes first: `a`'s last, or `prev` when `a` is empty. */
  function LastOr(a: string, prev: char): char
  {
    if a == [] then prev else a[|a| - 1]
  }

  /**
   * The look-behind reaches one character back: over a concatenation, `b` is
   * rewritten with `a`'s last character as the one before it.
   */
  lemma {:induction false} SpaceMinusAppend(a: string, b: string, prev: char)
    ensures SpaceMinus(a + b, prev) == SpaceMinus(a, prev) + SpaceMinus(b, LastOr(a, prev))
  {
    if a == [] {
      assert a + b == b;
    } else {
      var h := if a[0] == '-' && IsDigit(prev) then " \U{2212} " else [a[0]];
      DropAppend(a, b, 1);
      assert (a + b)[0] == a[0];
      assert SpaceMinus(a + b, prev) == h + SpaceMinus(a[1..] + b, a[0]);
      assert SpaceMinus(a, prev) == h + SpaceMinus(a[1..], a[0]);
      SpaceMinusAppend(a[1..], b, a[0]);
      assert LastOr(a[1..], a[0]) == LastOr(a, prev);
      Regroup(SpaceMinus(a + b, prev), SpaceMinus(a, prev), SpaceMinus(b, LastOr(a, prev)), h, SpaceMinus(a[1..], a[0]));
    }
  }

  /** One character: a `-` after a digit becomes ` − `, any other character stays. */
  lemma SpaceMinusOne(x: char, prev: char)
    ensures SpaceMinus([x], prev) == if x == '-' && IsDigit(prev) then " \U{2212} " else [x]
  {
    assert [x][1..] == [];
  }

  /** The length of the run of white space at the front of `s`. */
  function SpaceRun(s: string): (n: nat)
    ensures n <= |s| && AllSpace(s[..n])
    ensures n < |s| ==> !IsSpace(s[n])
  {
    if s == [] || !IsSpace(s[0]) then 0 else 1 + SpaceRun(s[1..])
  }

  /** `.replace(/\s{2,}/g, ' ')`: each run of two or more white-space characters becomes one space. */
  function CollapseSpaces(s: string): (r: string)
    ensures |r| <= |s|
    ensures forall i :: 0 <= i < |r| - 1 ==> !(IsSpace(r[i]) && IsSpace(r[i + 1]))
    ensures r != [] && s != [] ==> (IsSpace(r[0]) <==> IsSpace(s[0]))
    ensures r == [] <==> s == []
    decreases |s|
  {
    if s == [] then []
    else
      var n := SpaceRun(s);
      if n >= 2 then
        var rest := CollapseSpaces(s[n..]);
        assert rest != [] ==> !IsSpace(rest[0]);
        [' '] + rest
      else if n == 1 then
        var rest := CollapseSpaces(s[1..]);
        assert rest != [] ==> !IsSpace(rest[0]);
        [s[0]] + rest
      else
        [s[0]] + CollapseSpaces(s[1..])
  }

  /** A single character is never a run of two: it stays. */
  lemma CollapseOne(x: char)
    ensures CollapseSpaces([x]) == [x]
  {
    assert [x][1..] == [];
  }

  /** A run of two or more white-space characters becomes one space. */
  lemma CollapseRun(w: string)
    requires |w| >= 2 && AllSpace(w)
    ensures CollapseSpaces(w) == " "
  {
    assert SpaceRun(w) == |w|;
    assert w[|w|..] == [];
  }

  /**
   * The runs are maximal: over a concatenation that does not cut a run of
   * white space in two, each side collapses on its own.
   */
  lemma {:induction false} CollapseAppend(a: string, b: string)
    requires Joinable(a, b)
    ensures CollapseSpaces(a + b) == CollapseSpaces(a) + CollapseSpaces(b)
    decreases |a|
  {
    if a == [] {
      assert a + b == b;
    } else {
      var k := CollapseStep(a);
      CollapseFrontOfAppend(a, b);
      CollapseUnfold(a);
      JoinableDrop(a, b, k);
      CollapseAppend(a[k..], b);
      Regroup(CollapseSpaces(a + b), CollapseSpaces(a), CollapseSpaces(b), CollapseHead(a), CollapseSpaces(a[k..]));
    }
  }

  /** Putting `a` before `b` does not join two white-space runs into one. */
  predicate Joinable(a: string, b: string)
  {
    a == [] || b == [] || !(IsSpace(a[|a| - 1]) && IsSpace(b[0]))
  }

  lemma JoinableDrop(a: string, b: string, k: nat)
    requires Joinable(a, b) && k <= |a|
    ensures Joinable(a[k..], b)
  {
    assert a[k..] != [] ==> a[k..][|a[k..]| - 1] == a[|a| - 1];
  }

  /** How many characters `CollapseSpaces` consumes at the front of `s`: a whole run of two or more, otherwise one. */
  function CollapseStep(s: string): nat
    requires s != []
  {
    if SpaceRun(s) >= 2 then SpaceRun(s) else 1
  }

  /** What `CollapseSpaces` puts out for them. */
  function CollapseHead(s: string): string
    requires s != []
  {
    if SpaceRun(s) >= 2 then " " else [s[0]]
  }

  /** The front of `a + b` collapses as the front of `a` does when the cut does not split a run. */
  lemma CollapseFrontOfAppend(a: string, b: string)
    requires a != [] && Joinable(a, b)
    ensures CollapseStep(a) <= |a|
    ensures CollapseSpaces(a + b) == CollapseHead(a) + CollapseSpaces(a[CollapseStep(a)..] + b)
  {
    SpaceRunAppend(a, b);
    var k := CollapseStep(a);
    assert CollapseStep(a + b) == k;
    assert CollapseHead(a + b) == CollapseHead(a) by { assert (a + b)[0] == a[0]; }
    CollapseUnfold(a + b);
    DropAppend(a, b, k);
  }

  lemma CollapseUnfold(s: string)
    requires s != []
    ensures CollapseStep(s) <= |s|
    ensures CollapseSpaces(s) == CollapseHead(s) + CollapseSpaces(s[CollapseStep(s)..])
  {
  }

  /** The white-space run at the front of `a + b` is `a`'s when the cut does not split a run. */
  lemma {:induction false} SpaceRunAppend(a: string, b: string)
    requires a != []
    requires b == [] || !(IsSpace(a[|a| - 1]) && IsSpace(b[0]))
    ensures SpaceRun(a + b) == SpaceRun(a)
  {
    if IsSpace(a[0]) && |a| > 1 {
      assert (a + b)[1..] == a[1..] + b;
      SpaceRunAppend(a[1..], b);
    } else if IsSpace(a[0]) {
      assert (a + b)[1..] == b;
    }
  }

  /**
   * What a shown formula reads as once its spacing is ignored and its printed
   * signs `×`, `÷` and `−` are read back as the keys `*`, `/` and `-`.
   */
  function Plain(s: string): string
  {
    if s == [] then [] else PlainChar(s[0]) + Plain(s[1..])
  }

  function PlainChar(c: char): string
  {
    if IsSpace(c) then []
    else if c == '\U{D7}' then "*"
    else if c == '\U{F7}' then "/"
    else if c == '\U{2212}' then "-"
    else [c]
  }

  lemma {:induction false} PlainAppend(a: string, b: string)
    ensures Plain(a + b) == Plain(a) + Plain(b)
  {
    if a == [] {
      assert a + b == b;
    } else {
      DropAppend(a, b, 1);
      assert (a + b)[0] == a[0];
      PlainAppend(a[1..], b);
      Regroup(Plain(a + b), Plain(a), Plain(b), PlainChar(a[0]), Plain(a[1..]));
    }
  }

  lemma {:induction false} PlainAllSpace(w: string)
    requires AllSpace(w)
    ensures Plain(w) == []
  {
    if w != [] {
      PlainAllSpace(w[1..]);
    }
  }

  /** A printed sign with a space on each side reads back as the key it stands for. */
  lemma PlainSign(c: char, key: char)
    requires (c == '\U{D7}' && key == '*') || (c == '\U{F7}' && key == '/') ||
             (c == '+' && key == '+') || (c == '\U{2212}' && key == '-')
    ensures Plain([' ', c, ' ']) == PlainChar(key)
  {
    var t := [' ', c, ' '];
    assert t[1..] == [c, ' '] && t[1..][1..] == [' '] && t[1..][1..][1..] == [];
    assert Plain([' ']) == [];
    assert PlainChar(c) == [key] == PlainChar(key);
  }


  /** A replacement that reads back as the character it replaces changes nothing read back. */
  lemma {:induction false} PlainReplace(s: string, c: char, rep: string)
    requires Plain(rep) == PlainChar(c)
    ensures Plain(ReplaceChar(s, c, rep)) == Plain(s)
  {
    if s != [] {
      PlainReplace(s[1..], c, rep);
      PlainAppend(if s[0] == c then rep else [s[0]], ReplaceChar(s[1..], c, rep));
      assert Plain([s[0]]) == PlainChar(s[0]) by { assert [s[0]][1..] == []; }
    }
  }

  /** Spacing the minus signs changes nothing read back. */
  lemma {:induction false} PlainSpaceMinus(s: string, prev: char)
    ensures Plain(SpaceMinus(s, prev)) == Plain(s)
  {
    if s != [] {
      PlainSpaceMinus(s[1..], s[0]);
      var h := if s[0] == '-' && IsDigit(prev) then " \U{2212} " else [s[0]];
      PlainAppend(h, SpaceMinus(s[1..], s[0]));
      assert Plain([s[0]]) == PlainChar(s[0]) by { assert [s[0]][1..] == []; }
      PlainSign('\U{2212}', '-');
    }
  }

  /** Collapsing white space changes nothing read back. */
  lemma {:induction false} PlainCollapse(s: string)
    ensures Plain(CollapseSpaces(s)) == Plain(s)
    decreases |s|
  {
    if s != [] {
      var k := CollapseStep(s);
      CollapseUnfold(s);
      PlainCollapse(s[k..]);
      assert s == s[..k] + s[k..];
      PlainAppend(s[..k], s[k..]);
      PlainAppend(CollapseHead(s), CollapseSpaces(s[k..]));
      if SpaceRun(s) >= 2 {
        PlainAllSpace(s[..k]);
        PlainAllSpace(" ");
      } else {
        assert s[..k] == [s[0]];
      }
    }
  }

  /** Trimming changes nothing read back. */
  lemma PlainTrim(s: string)
    ensures Plain(Trim(s)) == Plain(s)
  {
    PlainTrimStart(s);
    PlainTrimEnd(TrimStart(s));
  }

  lemma {:induction false} PlainTrimStart(s: string)
    ensures Plain(TrimStart(s)) == Plain(s)
  {
    if s != [] && IsSpace(s[0]) {
      PlainTrimStart(s[1..]);
    }
  }

  lemma {:induction false} PlainTrimEnd(s: string)
    ensures Plain(TrimEnd(s)) == Plain(s)
  {
    if s != [] && IsSpace(s[|s| - 1]) {
      var p := s[..|s| - 1];
      PlainTrimEnd(p);
      assert s == p + [s[|s| - 1]];
      PlainAppend(p, [s[|s| - 1]]);
      assert Plain([s[|s| - 1]]) == [] by { assert [s[|s| - 1]][1..] == []; }
    }
  }

  /** `prettify(expr)`: spaced operator signs, runs of white space collapsed, trimmed. */
  function Prettify(expr: string): (r: string)
    ensures Trimmed(r)
    ensures '*' !in r && '/' !in r
    ensures Plain(r) == Plain(expr)
  {
    var spelled := Spelled(expr);
    var spaced := SpaceMinus(spelled, ' ');
    var collapsed := CollapseSpaces(spaced);
    SpelledSigns(expr);
    PlainSpaceMinus(spelled, ' ');
    PlainCollapse(spaced);
    PlainTrim(collapsed);
    SpaceMinusKeeps(spelled, ' ', '*');
    SpaceMinusKeeps(spelled, ' ', '/');
    CollapseKeeps(spaced, '*');
    CollapseKeeps(spaced, '/');
    TrimKeeps(collapsed, '*');
    TrimKeeps(collapsed, '/');
    Trim(collapsed)
  }

  /** Trimming only removes characters. */
  lemma TrimKeeps(s: string, x: char)
    requires x !in s
    ensures x !in Trim(s)
  {
    var r := Trim(s);
    var l := LeadingSpace(s);
    forall i | 0 <= i < |r|
      ensures r[i] != x
    {
      assert r[i] == s[l + i];
    }
  }

  /** No two white-space characters in a row anywhere in `s`. */
  predicate SingleSpaced(s: string)
  {
    forall i :: 0 <= i < |s| - 1 ==> !(IsSpace(s[i]) && IsSpace(s[i + 1]))
  }

  /**
   * What `prettify` shows: no `*` or `/` sign is left, no white space at
   * either end and no two white-space characters side by side.
   */
  lemma PrettifyShape(expr: string)
    ensures '*' !in Prettify(expr) && '/' !in Prettify(expr)
    ensures Trimmed(Prettify(expr)) && SingleSpaced(Prettify(expr))
    ensures Plain(Prettify(expr)) == Plain(expr)
  {
    TrimSingleSpaced(CollapseSpaces(SpaceMinus(Spelled(expr), ' ')));
  }

  /**
   * The round trip: a formula as the keys build it (digits, `.`, `+ - * /`,
   * and in any case no white space and none of the printed signs) is read
   * back from what `prettify` shows by dropping the spaces and reading `×`,
   * `÷` and `−` as `*`, `/` and `-`.
   */
  lemma PrettifyReadsBack(f: string)
    requires forall i :: 0 <= i < |f| ==> !IsSpace(f[i]) && f[i] !in "\U{D7}\U{F7}\U{2212}"
    ensures Plain(Prettify(f)) == f
  {
    PlainFixed(f);
  }

  lemma {:induction false} PlainFixed(f: string)
    requires forall i :: 0 <= i < |f| ==> !IsSpace(f[i]) && f[i] !in "\U{D7}\U{F7}\U{2212}"
    ensures Plain(f) == f
  {
    if f != [] {
      PlainFixed(f[1..]);
      assert f[0] != '\U{D7}' && f[0] != '\U{F7}' && f[0] != '\U{2212}';
      assert f == [f[0]] + f[1..];
    }
  }

  /** The operator signs spelled out, before the spacing is tidied. */
  function Spelled(expr: string): (r: string)
    ensures '*' !in expr && '/' !in expr && '+' !in expr ==> r == expr
    ensures |r| >= |expr|
    ensures Plain(r) == Plain(expr)
  {
    PlainSpelled(expr);
    ReplaceChar(ReplaceChar(ReplaceChar(expr, '*', " \U{D7} "), '/', " \U{F7} "), '+', " + ")
  }

  lemma PlainSpelled(expr: string)
    ensures Plain(ReplaceChar(ReplaceChar(ReplaceChar(expr, '*', " \U{D7} "), '/', " \U{F7} "), '+', " + ")) == Plain(expr)
  {
    var a := ReplaceChar(expr, '*', " \U{D7} ");
    var b := ReplaceChar(a, '/', " \U{F7} ");
    PlainSign('\U{D7}', '*');
    PlainSign('\U{F7}', '/');
    PlainSign('+', '+');
    PlainReplace(expr, '*', " \U{D7} ");
    PlainReplace(a, '/', " \U{F7} ");
    PlainReplace(b, '+', " + ");
  }

  /** Spelling works piece by piece over a concatenation. */
  lemma SpelledAppend(a: string, b: string)
    ensures Spelled(a + b) == Spelled(a) + Spelled(b)
  {
    var a1, b1 := ReplaceChar(a, '*', " \U{D7} "), ReplaceChar(b, '*', " \U{D7} ");
    var a2, b2 := ReplaceChar(a1, '/', " \U{F7} "), ReplaceChar(b1, '/', " \U{F7} ");
    ReplaceCharAppend(a, b, '*', " \U{D7} ");
    ReplaceCharAppend(a1, b1, '/', " \U{F7} ");
    ReplaceCharAppend(a2, b2, '+', " + ");
  }

  /** One character: `*`, `/` and `+` become ` × `, ` ÷ ` and ` + `; any other stays. */
  lemma SpelledOne(x: char)
    ensures Spelled([x]) == if x == '*' then " \U{D7} " else if x == '/' then " \U{F7} "
                            else if x == '+' then " + " else [x]
  {
    ReplaceCharOne(x, '*', " \U{D7} ");
    var a := ReplaceChar([x], '*', " \U{D7} ");
    if x == '*' {
      assert '/' !in a && '+' !in a;
    } else {
      ReplaceCharOne(x, '/', " \U{F7} ");
      var b := ReplaceChar(a, '/', " \U{F7} ");
      if x == '/' {
        assert '+' !in b;
      } else {
        ReplaceCharOne(x, '+', " + ");
      }
    }
  }

  lemma SpelledSigns(expr: string)
    ensures '*' !in Spelled(expr) && '/' !in Spelled(expr)
  {
    var a := ReplaceChar(expr, '*', " \U{D7} ");
    var b := ReplaceChar(a, '/', " \U{F7} ");
    ReplaceKeeps(a, '/', " \U{F7} ", '*');
    ReplaceKeeps(b, '+', " + ", '*');
    ReplaceKeeps(b, '+', " + ", '/');
  }

  /** Trimming keeps a string single-spaced. */
  lemma TrimSingleSpaced(k: string)
    requires SingleSpaced(k)
    ensures SingleSpaced(Trim(k))
  {
    SliceSingleSpaced(k, LeadingSpace(k), LeadingSpace(k) + |Trim(k)|);
  }

  /** Any slice of a single-spaced string is single-spaced. */
  lemma SliceSingleSpaced(k: string, a: nat, b: nat)
    requires SingleSpaced(k) && a <= b <= |k|
    ensures SingleSpaced(k[a..b])
  {
    var r := k[a..b];
    forall i | 0 <= i < |r| - 1
      ensures !(IsSpace(r[i]) && IsSpace(r[i + 1]))
    {
      assert r[i] == k[a + i] && r[i + 1] == k[a + i + 1];
    }
  }

  lemma ReplaceKeeps(s: string, c: char, rep: string, x: char)
    requires x != c && x !in rep && x !in s
    ensures x !in ReplaceChar(s, c, rep)
  {
    if s != [] {
      ReplaceKeeps(s[1..], c, rep, x);
    }
  }

  lemma SpaceMinusKeeps(s: string, prev: char, x: char)
    requires x !in s && x != ' ' && x != '\U{2212}'
    ensures x !in SpaceMinus(s, prev)
  {
    if s != [] {
      SpaceMinusKeeps(s[1..], s[0], x);
    }
  }

  lemma CollapseKeeps(s: string, x: char)
    requires x !in s && x != ' '
    ensures x !in CollapseSpaces(s)
    decreases |s|
  {
    if s != [] {
      var n := SpaceRun(s);
      if n >= 2 {
        CollapseKeeps(s[n..], x);
      } else {
        CollapseKeeps(s[1..], x);
      }
    }
  }
}

=== FILE: duel.dfy ===
/**
 * The DUEL tic-tac-toe client: one browser page's game session in CPU,
 * local two-player or online mode. The page's module-level variables are the
 * fields of `Client`; each event handler is a method.
 *
 * Events from outside are method calls: a click, a timer firing, a message
 * from the socket. The page's `setTimeout` continuations are counted or named
 * here and fired explicitly. Messages sent with `socket.emit` are appended to
 * `outbox`. Visibility of the board and of the mark picker is kept because it
 * decides which clicks can happen.
 */
module Duel {
  import opened Wrappers
  import opened Board
  import opened Search
  import Protocol

  datatype Mode = Cpu | Local | Online

  datatype Scores = Scores(p1: nat, p2: nat, draws: nat)

  const ZeroScores: Scores := Scores(0, 0, 0)

  /** The events this client emits to the room server. */
  datatype ClientMsg = CreateRoomMsg | JoinRoomMsg(code: string) | MoveMsg(index: int) | ReqRematchMsg | LeaveRoomMsg

  /**
   * The argument the `join-room` callback receives: the server's success or
   * error answer, or `NoAck` for a call without one (the room server always
   * passes an object; without one, `res.error` would throw a TypeError and
   * the callback would change nothing).
   */
  datatype JoinAck = JoinOk | JoinError(message: string) | NoAck
  {
    /** The client treats an acknowledgement without an error message as success. */
    predicate Accepted()
    {
      JoinOk? || (JoinError? && message == "")
    }
  }

  /** Whether a win by `winner` counts for the left-hand scoreboard entry. */
  predicate IsP1Win(mode: Mode, winner: Mark, myMark: Mark): (b: bool)
    ensures mode == Local ==> (b <==> winner == X)
    ensures mode != Local ==> (b <==> winner == myMark)
  {
    (mode == Cpu && winner == myMark) || (mode == Local && winner == X) || (mode == Online && winner == myMark)
  }

  /** The scoreboard after `endGame`: exactly one counter goes up by one. */
  function ScoreAfter(s: Scores, winner: Option<Mark>, mode: Mode, myMark: Mark): (r: Scores)
    ensures r.p1 + r.p2 + r.draws == s.p1 + s.p2 + s.draws + 1
    ensures r.p1 >= s.p1 && r.p2 >= s.p2 && r.draws >= s.draws
    ensures r.draws > s.draws <==> winner.None?
    ensures r.p1 > s.p1 <==> winner.Some? && IsP1Win(mode, winner.value, myMark)
  {
    match winner
    case None => s.(draws := s.draws + 1)
    case Some(w) => if IsP1Win(mode, w, myMark) then s.(p1 := s.p1 + 1) else s.(p2 := s.p2 + 1)
  }

  /** `clearTimeout(handle)` on the set of scheduled timers; a missing handle cancels nothing. */
  function Cancel(timers: set<nat>, handle: Option<nat>): (r: set<nat>)
    ensures r <= timers
    ensures handle.Some? ==> handle.value !in r && timers - r <= {handle.value}
    ensures handle.None? ==> r == timers
  {
    if handle.Some? then timers - {handle.value} else timers
  }

  /** The `winner` argument `makeMove` passes to `endGame`. */
  function WinnerOf(st: Status): (w: Option<Mark>)
    ensures w.None? <==> !st.Won?
    ensures w.Some? ==> w.value == st.winner
  {
    if st.Won? then Some(st.winner) else None
  }

  class Client {
    var mode: Mode
    var myMark: Mark
    var oppMark: Mark
    var board: array<Cell>
    var turn: Mark
    var gameOver: bool
    var locked: bool
    var moveCount: int
    var scores: Scores
    var roomCode: Option<string>
    var isHost: bool
    /** A socket has been opened (`socket !== null`). */
    var socket: bool
    var outbox: seq<ClientMsg>
    /** `create-room` requests whose acknowledgement has not arrived yet. */
    var pendingCreates: nat
    /** The codes of `join-room` requests whose acknowledgement has not arrived yet. */
    var pendingJoins: multiset<string>
    /** The mark picker and the board are on screen. */
    var pickVisible: bool
    var boardVisible: bool
    /** Scheduled `aiMove` calls: they are never cancelled. */
    var pendingAi: nat
    /** Scheduled `autoRestart` calls, by timer id; `resetTimer` is the last one scheduled. */
    var restartTimers: set<nat>
    var resetTimer: Option<nat>
    var nextTimer: nat

    /** Nine cells, and the two marks differ. */
    predicate Valid()
      reads this
    {
      board.Length == 9 && oppMark == Other(myMark)
    }

    /**
     * The page is consistent with the connection: a room is only held over an
     * open socket (in any mode, since an acknowledgement can arrive after the
     * player has switched away from online mode), the online board is only
     * shown with a socket, and the mark picker only in CPU mode.
     */
    predicate Wired()
      reads this`roomCode, this`mode, this`socket, this`boardVisible, this`pickVisible
    {
      (roomCode.Some? ==> socket) &&
      (mode == Online && boardVisible ==> socket) &&
      (pickVisible ==> mode == Cpu)
    }

    /** A game in progress has an empty cell and no completed line. */
    predicate Coherent()
      reads this, board
    {
      gameOver || Open(board[..])
    }

    /** A click on cell `idx` is acted upon. */
    predicate Playable(idx: nat)
      reads this, board
    {
      idx < board.Length && !gameOver && !locked && board[idx].None? &&
      (mode == Online ==> turn == myMark)
    }

    /**
     * What `endGame` leaves behind when `st` ends the game, or that nothing
     * it touches has changed when the game goes on.
     */
    predicate EndRecorded(st: Status, gameOver0: bool, scores0: Scores, timers0: set<nat>, handle0: Option<nat>, next0: nat)
      reads this
    {
      if st == InProgress then
        gameOver == gameOver0 && scores == scores0 &&
        restartTimers == timers0 && resetTimer == handle0 && nextTimer == next0
      else
        gameOver && scores == ScoreAfter(scores0, WinnerOf(st), mode, myMark) &&
        restartTimers == timers0 + {next0} && resetTimer == Some(next0) && nextTimer == next0 + 1
    }

    /** The page after loading, once `setMode('cpu')` has run. */
    constructor()
      ensures Valid() && Wired() && Coherent()
      ensures mode == Cpu && myMark == X && oppMark == O && board[..] == EmptyBoard && turn == X
      ensures !gameOver && !locked && moveCount == 0 && scores == ZeroScores
      ensures roomCode == None && !isHost && !socket && outbox == []
      ensures pendingCreates == 0 && pendingJoins == multiset{}
      ensures pickVisible && !boardVisible
      ensures pendingAi == 0 && restartTimers == {} && resetTimer == None
    {
      mode := Cpu;
      myMark, oppMark := X, O;
      board := new Cell[9](_ => None);
      turn := X;
      gameOver, locked := false, false;
      moveCount := 0;
      scores := ZeroScores;
      roomCode, isHost, socket := None, false, false;
      outbox := [];
      pendingCreates, pendingJoins := 0, multiset{};
      pickVisible, boardVisible := true, false;
      pendingAi := 0;
      restartTimers, resetTimer, nextTimer := {}, None, 0;
      new;
      assert board[..] == EmptyBoard;
      EmptyBoardOpen();
    }

    /** `resetBoard`: a new empty board, X to move, the game open and unlocked. */
    method ResetBoard()
      modifies this`board, this`turn, this`moveCount, this`gameOver, this`locked
      ensures board.Length == 9 && Coherent()
      ensures fresh(board) && board[..] == EmptyBoard
      ensures turn == X && moveCount == 0 && !gameOver && !locked
    {
      board := new Cell[9](_ => None);
      turn := X;
      moveCount := 0;
      gameOver := false;
      locked := false;
      assert board[..] == EmptyBoard;
      EmptyBoardOpen();
    }

    /** `resetScores`. */
    method ResetScores()
      modifies this`scores
      ensures scores == ZeroScores
    {
      scores := ZeroScores;
    }

    /** `endGame(winner, combo)`: closes and locks the game, scores it and schedules `autoRestart`. */
    method EndGame(winner: Option<Mark>)
      modifies this`gameOver, this`locked, this`scores, this`restartTimers, this`resetTimer, this`nextTimer
      ensures gameOver && locked
      ensures scores == ScoreAfter(old(scores), winner, mode, myMark)
      ensures restartTimers == old(restartTimers) + {old(nextTimer)}
      ensures resetTimer == Some(old(nextTimer)) && nextTimer == old(nextTimer) + 1
    {
      gameOver := true;
      locked := true;
      scores := ScoreAfter(scores, winner, mode, myMark);
      restartTimers := restartTimers + {nextTimer};
      resetTimer := Some(nextTimer);
      nextTimer := nextTimer + 1;
    }

    /**
     * `makeMove(idx, mark)`: writes the cell, counts the move, hands the turn
     * over and ends the game on a line or a full board. An index off the board
     * makes the page throw once the turn has been handed over (`cells[idx]`
     * is undefined); `thrown` reports that, and the handler stops there.
     */
    method MakeMove(idx: int, mark: Mark) returns (thrown: bool)
      requires board.Length == 9
      modifies board, this`moveCount, this`turn, this`gameOver, this`locked, this`scores,
               this`restartTimers, this`resetTimer, this`nextTimer
      ensures old(Coherent()) ==> Coherent()
      ensures moveCount == old(moveCount) + 1 && turn == Other(mark)
      ensures thrown <==> !(0 <= idx < 9)
      ensures thrown ==> board[..] == old(board[..]) && locked == old(locked) &&
                         EndRecorded(InProgress, old(gameOver), old(scores), old(restartTimers), old(resetTimer), old(nextTimer))
      ensures !thrown ==> board[..] == old(board[..])[idx := Some(mark)] &&
                          locked == (old(locked) || Outcome(board[..], mark) != InProgress) &&
                          EndRecorded(Outcome(board[..], mark), old(gameOver), old(scores), old(restartTimers), old(resetTimer), old(nextTimer))
    {
      ghost var b0 := board[..];
      ghost var open := Coherent();
      if 0 <= idx < 9 {
        board[idx] := Some(mark);
      }
      moveCount := moveCount + 1;
      turn := Other(mark);
      if !(0 <= idx < 9) {
        return true;
      }
      if open && !gameOver && Outcome(board[..], mark) == InProgress {
        MoveKeepsOpen(b0, idx, mark);
      }
      CheckOutcome(mark);
      return false;
    }

    /**
     * The end of `makeMove`: a line for `mark` ends the game as its win, a
     * full board as a draw; otherwise nothing changes.
     */
    method CheckOutcome(mark: Mark)
      modifies this`gameOver, this`locked, this`scores, this`restartTimers, this`resetTimer, this`nextTimer
      ensures locked == (old(locked) || Outcome(board[..], mark) != InProgress)
      ensures EndRecorded(Outcome(board[..], mark), old(gameOver), old(scores), old(restartTimers), old(resetTimer), old(nextTimer))
    {
      var st := Outcome(board[..], mark);
      if st.Won? {
        EndGame(Some(mark));
      } else if st == Draw {
        EndGame(None);
      }
    }

    /**
     * `minimax(depth, isMax, alpha, beta)`: alpha-beta search that places and
     * removes marks on the shared board. It leaves the board as it found it,
     * and its answer stands in the fail-soft relation to the unpruned `Value`
     * of the board.
     */
    method Minimax(depth: nat, isMax: bool, alpha: int, beta: int) returns (v: int)
      requires board.Length == 9 && NegInf <= alpha < beta <= PosInf
      modifies board
      ensures board[..] == old(board[..])
      ensures FailSoft(v, Value(old(board[..]), oppMark, myMark, depth, isMax), alpha, beta)
      decreases Empties(board[..]), 1
    {
      if HasWin(board[..], oppMark) { return 10 - depth; }
      if HasWin(board[..], myMark) { return depth - 10; }
      if Full(board[..]) { return 0; }
      ghost var b0 := board[..];
      if isMax {
        var best := NegInf;
        var a := alpha;
        for i := 0 to 9
          invariant board[..] == b0
          invariant a == Max(alpha, best) && best < beta
          invariant BestOf(b0, oppMark, myMark, depth, true, i) <= best
          invariant alpha < best ==> best == BestOf(b0, oppMark, myMark, depth, true, i)
        {
          if board[i].Some? { continue; }
          var c := TryCell(i, oppMark, depth + 1, false, a, beta);
          MaxStep(b0, oppMark, myMark, depth, i, alpha, beta, best, c);
          best := Max(best, c);
          a := Max(a, best);
          if beta <= a {
            BestOfMono(b0, oppMark, myMark, depth, true, i + 1, 9);
            return best;
          }
        }
        return best;
      } else {
        var best := PosInf;
        var bt := beta;
        for i := 0 to 9
          invariant board[..] == b0
          invariant bt == Min(beta, best) && alpha < best
          invariant best <= BestOf(b0, oppMark, myMark, depth, false, i)
          invariant best < beta ==> best == BestOf(b0, oppMark, myMark, depth, false, i)
        {
          if board[i].Some? { continue; }
          var c := TryCell(i, myMark, depth + 1, true, alpha, bt);
          MinStep(b0, oppMark, myMark, depth, i, alpha, beta, best, c);
          best := Min(best, c);
          bt := Min(bt, best);
          if bt <= alpha {
            BestOfMono(b0, oppMark, myMark, depth, false, i + 1, 9);
            return best;
          }
        }
        return best;
      }
    }

    /**
     * The body of the search loops: `board[i] = m`, a search of the resulting
     * position, `board[i] = null`.
     */
    method TryCell(i: nat, m: Mark, depth: nat, isMax: bool, alpha: int, beta: int) returns (v: int)
      requires board.Length == 9 && i < 9 && board[i].None? && NegInf <= alpha < beta <= PosInf
      modifies board
      ensures board[..] == old(board[..])
      ensures FailSoft(v, Value(old(board[..])[i := Some(m)], oppMark, myMark, depth, isMax), alpha, beta)
      decreases Empties(board[..]), 0
    {
      ghost var b0 := board[..];
      EmptiesPlace(b0, i, m);
      board[i] := Some(m);
      assert board[..] == b0[i := Some(m)];
      v := Minimax(depth, isMax, alpha, beta);
      board[i] := None;
      assert board[..] == b0;
    }

    /**
     * The body of `bestMove`'s loop for the cell `es[t]`: the CPU's mark goes
     * there, a full-window search scores the position, and the cell is
     * cleared again. `scores` holds the scores of all the cells `es`.
     */
    method ScoreCell(ghost es: seq<nat>, ghost scores: seq<int>, t: nat, i: nat) returns (s: int)
      requires board.Length == 9 && t < |es| && i == es[t] && i < 9 && board[i].None?
      requires Scored(board[..], oppMark, myMark, es, scores)
      modifies board
      ensures board[..] == old(board[..])
      ensures -10 <= s <= 10 && s == scores[t]
    {
      ghost var b0 := board[..];
      s := TryCell(i, oppMark, 0, false, NegInf, PosInf);
      ScanStep(b0, oppMark, myMark, es, scores, t, s);
    }

    /**
     * `bestMove`: -1 on a full board; otherwise the lowest empty cell whose
     * full-window search score is the largest. The board is left as found.
     */
    method BestMove() returns (move: int)
      requires board.Length == 9
      modifies board
      ensures board[..] == old(board[..])
      ensures move == -1 <==> Full(old(board[..]))
      ensures move != -1 ==> 0 <= move < 9 && IsBestChoice(old(board[..]), oppMark, myMark, move)
    {
      ghost var b0 := board[..];
      var empty: seq<nat> := [];
      for i := 0 to 9
        invariant board[..] == b0
        invariant empty == EmptyIndices(b0, i)
      {
        if board[i].None? { empty := empty + [i]; }
      }
      EmptyIndicesFull(b0);
      if |empty| == 0 {
        return -1;
      }
      move := PickBest(b0, empty);
    }

    /** `bestMove`'s second loop: every empty cell is tried in turn and the first one with the top score is kept. */
    method PickBest(ghost b0: seq<Option<Mark>>, empty: seq<nat>) returns (move: int)
      requires board.Length == 9 && board[..] == b0 && empty == EmptyIndices(b0, 9) && |empty| > 0
      modifies board
      ensures board[..] == b0
      ensures 0 <= move < 9 && IsBestChoice(b0, oppMark, myMark, move)
    {
      ghost var scores := ScoresOf(b0, oppMark, myMark, empty);
      var best := NegInf;
      move := empty[0];
      ghost var mi: nat := 0;
      for t := 0 to |empty|
        invariant board[..] == b0
        invariant mi < |empty| && move == empty[mi] && 0 <= move < 9 && mi <= t && (t > 0 ==> mi < t)
        invariant t == 0 ==> best == NegInf
        invariant t > 0 ==> best == scores[mi]
        invariant forall s :: 0 <= s < t ==> scores[s] <= best
        invariant forall s :: 0 <= s < mi ==> scores[s] < best
      {
        var i := empty[t];
        var s := ScoreCell(empty, scores, t, i);
        ghost var best0 := best;
        if s > best {
          best := s;
          move := i;
          mi := t;
        }
        forall u | 0 <= u <= t
          ensures scores[u] <= best
        {
          if u < t {
            assert scores[u] <= best0;
          }
        }
      }
      ScanChoosesBest(b0, oppMark, myMark, empty, scores, mi, best);
    }

    /**
     * `aiMove`: unless the game is over or the board full, the CPU plays the
     * cell `bestMove` picks. The input lock is released in every case, even
     * when the CPU's move ended the game.
     */
    method AiMove()
      requires Valid()
      modifies board, this`moveCount, this`turn, this`gameOver, this`locked, this`scores,
               this`restartTimers, this`resetTimer, this`nextTimer
      ensures Valid() && (old(Coherent()) ==> Coherent()) && !locked
      ensures old(gameOver) || old(Full(board[..])) ==>
                board[..] == old(board[..]) && moveCount == old(moveCount) && turn == old(turn) &&
                EndRecorded(InProgress, old(gameOver), old(scores), old(restartTimers), old(resetTimer), old(nextTimer))
      ensures !old(gameOver) && !old(Full(board[..])) ==>
                (exists k: nat :: IsBestChoice(old(board[..]), oppMark, myMark, k) &&
                             board[..] == old(board[..])[k := Some(oppMark)]) &&
                moveCount == old(moveCount) + 1 && turn == myMark &&
                EndRecorded(Outcome(board[..], oppMark), false, old(scores), old(restartTimers), old(resetTimer), old(nextTimer))
    {
      if gameOver {
        locked := false;
        return;
      }
      var idx := BestMove();
      if idx == -1 {
        locked := false;
        return;
      }
      var thrown := MakeMove(idx, oppMark);
      locked := false;
    }

    /** One scheduled `aiMove` timer fires. */
    method FireAiTimer()
      requires Valid() && pendingAi > 0
      modifies board, this`pendingAi, this`moveCount, this`turn, this`gameOver, this`locked, this`scores,
               this`restartTimers, this`resetTimer, this`nextTimer
      ensures Valid() && (old(Coherent()) ==> Coherent()) && !locked
      ensures pendingAi == old(pendingAi) - 1
      ensures old(gameOver) || old(Full(board[..])) ==>
                board[..] == old(board[..]) && moveCount == old(moveCount) && turn == old(turn) &&
                EndRecorded(InProgress, old(gameOver), old(scores), old(restartTimers), old(resetTimer), old(nextTimer))
      ensures !old(gameOver) && !old(Full(board[..])) ==>
                (exists k: nat :: IsBestChoice(old(board[..]), oppMark, myMark, k) &&
                             board[..] == old(board[..])[k := Some(oppMark)]) &&
                moveCount == old(moveCount) + 1 && turn == myMark &&
                EndRecorded(Outcome(board[..], oppMark), false, old(scores), old(restartTimers), old(resetTimer), old(nextTimer))
    {
      pendingAi := pendingAi - 1;
      AiMove();
    }

    /** `startCPUGame(mark)`: a pick on the mark picker; the CPU opens when the player took O. */
    method StartCPUGame(mark: Mark)
      requires Valid() && Wired() && pickVisible
      modifies this`myMark, this`oppMark, this`pickVisible, this`boardVisible, this`board, this`turn,
               this`moveCount, this`gameOver, this`locked, this`pendingAi
      ensures Valid() && Wired() && Coherent()
      ensures myMark == mark && oppMark == Other(mark) && !pickVisible && boardVisible
      ensures fresh(board) && board[..] == EmptyBoard && turn == X && moveCount == 0 && !gameOver
      ensures locked == (mark == O)
      ensures pendingAi == old(pendingAi) + (if mark == O then 1 else 0)
    {
      myMark := mark;
      oppMark := Other(mark);
      pickVisible := false;
      boardVisible := true;
      ResetBoard();
      if myMark == O {
        locked := true;
        pendingAi := pendingAi + 1;
      }
    }

    /** `startLocalGame`. */
    method StartLocalGame()
      modifies this`board, this`turn, this`moveCount, this`gameOver, this`locked
      ensures board.Length == 9 && Coherent()
      ensures fresh(board) && board[..] == EmptyBoard && turn == X && moveCount == 0 && !gameOver && !locked
    {
      ResetBoard();
      gameOver := false;
      locked := false;
    }

    /** `clearTimeout(resetTimer)`: only the last restart timer scheduled can be cancelled. */
    method ClearResetTimer()
      modifies this`restartTimers
      ensures restartTimers == Cancel(old(restartTimers), resetTimer)
    {
      if resetTimer.Some? {
        restartTimers := restartTimers - {resetTimer.value};
      }
    }

    /** `connectSocket`: `ioAvailable` says whether the Socket.io client is loaded and a server configured. */
    method Connect(ioAvailable: bool)
      modifies this`socket
      ensures socket == (old(socket) || ioAvailable)
    {
      if !socket && ioAvailable {
        socket := true;
      }
    }

    /** `leaveRoom`: tells the server when in a room, then closes and hides the game. */
    method LeaveRoom()
      requires Valid() && Wired()
      modifies this`roomCode, this`isHost, this`gameOver, this`locked, this`boardVisible, this`outbox
      ensures Valid() && Wired() && Coherent()
      ensures outbox == old(outbox) + (if old(roomCode).Some? then [LeaveRoomMsg] else [])
      ensures roomCode == None && !isHost && gameOver && locked && !boardVisible
    {
      if socket && roomCode.Some? {
        outbox := outbox + [LeaveRoomMsg];
      }
      roomCode := None;
      isHost := false;
      gameOver := true;
      locked := true;
      boardVisible := false;
    }

    /**
     * `setMode(m)`: a no-op for the current mode; otherwise leaves any room,
     * cancels the pending restart, zeroes the scores, clears the board and
     * sets up the arena for `m`.
     */
    method SetMode(m: Mode, ioAvailable: bool)
      requires Valid() && Wired()
      modifies this`mode, this`myMark, this`oppMark, this`board, this`turn, this`moveCount, this`gameOver,
               this`locked, this`scores, this`roomCode, this`isHost, this`socket, this`outbox,
               this`pickVisible, this`boardVisible, this`restartTimers
      ensures Valid() && Wired()
      ensures old(mode) == m ==> unchanged(this)
      ensures old(mode) != m ==>
                Coherent() && mode == m && scores == ZeroScores &&
                fresh(board) && board[..] == EmptyBoard && turn == X && moveCount == 0 && !gameOver && !locked &&
                RoomLeft(old(mode), old(roomCode), old(isHost)) &&
                outbox == old(outbox) + (if old(mode) == Online && old(roomCode).Some? then [LeaveRoomMsg] else []) &&
                restartTimers == Cancel(old(restartTimers), resetTimer) &&
                ArenaShown(m, old(myMark), old(oppMark), old(socket), ioAvailable)
    {
      if mode == m {
        return;
      }
      SwitchMode(m, ioAvailable);
    }

    /** `setMode` for a mode other than the current one. */
    method SwitchMode(m: Mode, ioAvailable: bool)
      requires Valid() && Wired() && mode != m
      modifies this`mode, this`myMark, this`oppMark, this`board, this`turn, this`moveCount, this`gameOver,
               this`locked, this`scores, this`roomCode, this`isHost, this`socket, this`outbox,
               this`pickVisible, this`boardVisible, this`restartTimers
      ensures board.Length == 9 && Coherent()
      ensures mode == m && scores == ZeroScores
      ensures fresh(board) && board[..] == EmptyBoard && turn == X && moveCount == 0 && !gameOver && !locked
      ensures RoomLeft(old(mode), old(roomCode), old(isHost))
      ensures outbox == old(outbox) + (if old(mode) == Online && old(roomCode).Some? then [LeaveRoomMsg] else [])
      ensures restartTimers == Cancel(old(restartTimers), resetTimer)
      ensures ArenaShown(m, old(myMark), old(oppMark), old(socket), ioAvailable)
    {
      LeaveMode(m);
      ResetBoard();
      ShowArena(m, ioAvailable);
    }

    /**
     * The first half of switching to mode `m`: leave the room when online,
     * cancel the pending restart and zero the scores.
     */
    method LeaveMode(m: Mode)
      requires Valid() && Wired()
      modifies this`mode, this`scores, this`roomCode, this`isHost, this`gameOver, this`locked, this`boardVisible, this`outbox, this`restartTimers
      ensures Valid()
      ensures mode == m && scores == ZeroScores
      ensures outbox == old(outbox) + (if old(mode) == Online && old(roomCode).Some? then [LeaveRoomMsg] else [])
      ensures restartTimers == Cancel(old(restartTimers), resetTimer)
      ensures RoomLeft(old(mode), old(roomCode), old(isHost))
    {
      if mode == Online {
        LeaveRoom();
      }
      ClearResetTimer();
      mode := m;
      ResetScores();
    }

    /**
     * What `setMode` does to the room: leaving online mode leaves the room;
     * any other mode keeps whatever a late acknowledgement put there.
     */
    predicate RoomLeft(mode0: Mode, roomCode0: Option<string>, isHost0: bool)
      reads this`roomCode, this`isHost
    {
      if mode0 == Online then roomCode == None && !isHost else roomCode == roomCode0 && isHost == isHost0
    }

    /** The arena `setMode` sets up for `m`, given the marks and socket it found. */
    predicate ArenaShown(m: Mode, myMark0: Mark, oppMark0: Mark, socket0: bool, ioAvailable: bool)
      reads this
    {
      pickVisible == (m == Cpu) && boardVisible == (m == Local) &&
      (if m == Local then myMark == X && oppMark == O else myMark == myMark0 && oppMark == oppMark0) &&
      socket == (socket0 || (m == Online && ioAvailable))
    }

    /**
     * The arena part of `setMode`: the mark picker for CPU mode, a fresh
     * local game with X for player 1, or the room panel with a socket
     * opened if possible.
     */
    method ShowArena(m: Mode, ioAvailable: bool)
      requires board.Length == 9 && Coherent()
      modifies this`myMark, this`oppMark, this`board, this`turn, this`moveCount, this`gameOver, this`locked,
               this`socket, this`pickVisible, this`boardVisible
      ensures board.Length == 9 && Coherent()
      ensures ArenaShown(m, old(myMark), old(oppMark), old(socket), ioAvailable)
      ensures m != Local ==> unchanged(this`board, this`turn, this`moveCount, this`gameOver, this`locked)
      ensures m == Local ==> fresh(board) && board[..] == EmptyBoard && turn == X && moveCount == 0 && !gameOver && !locked
    {
      match m
      case Cpu =>
        pickVisible := true;
        boardVisible := false;
      case Local =>
        pickVisible := false;
        boardVisible := true;
        myMark := X;
        oppMark := O;
        StartLocalGame();
      case Online =>
        pickVisible := false;
        boardVisible := false;
        Connect(ioAvailable);
    }

    /**
     * A click on board cell `idx`. It is ignored while the game is over or
     * input is locked, on a taken cell, and online when it is not this
     * player's turn. Otherwise the player's mark goes down (in local mode the
     * mark whose turn it is); a CPU game then locks input and schedules
     * `aiMove`, an online game sends the move and locks input.
     */
    method Click(idx: nat)
      requires Valid() && boardVisible && idx < 9
      modifies board, this`moveCount, this`turn, this`gameOver, this`locked, this`scores,
               this`restartTimers, this`resetTimer, this`nextTimer, this`pendingAi, this`outbox
      ensures Valid() && (old(Coherent()) ==> Coherent())
      ensures !old(Playable(idx)) ==> unchanged(this) && unchanged(board)
      ensures old(Playable(idx)) ==>
                var mark := if mode == Local then old(turn) else myMark;
                board[..] == old(board[..])[idx := Some(mark)] &&
                moveCount == old(moveCount) + 1 && turn == Other(mark) &&
                EndRecorded(Outcome(board[..], mark), false, old(scores), old(restartTimers), old(resetTimer), old(nextTimer)) &&
                locked == (mode != Local || Outcome(board[..], mark) != InProgress) &&
                pendingAi == old(pendingAi) + (if mode == Cpu && Outcome(board[..], mark) == InProgress then 1 else 0) &&
                outbox == old(outbox) + (if mode == Online then [MoveMsg(idx)] else [])
    {
      if gameOver || locked {
        return;
      }
      if board[idx].Some? {
        return;
      }
      if mode == Online && turn != myMark {
        return;
      }
      PlayClick(idx, if mode == Local then turn else myMark);
    }

    /** A click that is not ignored: the mark goes down, then the mode decides who plays next. */
    method PlayClick(idx: nat, mark: Mark)
      requires Valid() && Playable(idx) && mark == (if mode == Local then turn else myMark)
      modifies board, this`moveCount, this`turn, this`gameOver, this`locked, this`scores,
               this`restartTimers, this`resetTimer, this`nextTimer, this`pendingAi, this`outbox
      ensures Valid() && (old(Coherent()) ==> Coherent())
      ensures board[..] == old(board[..])[idx := Some(mark)]
      ensures moveCount == old(moveCount) + 1 && turn == Other(mark)
      ensures EndRecorded(Outcome(board[..], mark), false, old(scores), old(restartTimers), old(resetTimer), old(nextTimer))
      ensures locked == (mode != Local || Outcome(board[..], mark) != InProgress)
      ensures pendingAi == old(pendingAi) + (if mode == Cpu && Outcome(board[..], mark) == InProgress then 1 else 0)
      ensures outbox == old(outbox) + (if mode == Online then [MoveMsg(idx)] else [])
    {
      var thrown := MakeMove(idx, mark);
      ghost var b1 := board[..];
      if mode == Online {
        outbox := outbox + [MoveMsg(idx)];
      }
      if mode != Local && !gameOver {
        locked := true;
        if mode == Cpu {
          pendingAi := pendingAi + 1;
        }
      }
      assert board[..] == b1;
    }

    /**
     * `autoRestart`: a new round in CPU and local mode (the CPU opens when the
     * player holds O); online, only inside a room, where it also asks the
     * opponent for a rematch.
     */
    method AutoRestart()
      requires Valid()
      modifies this`board, this`turn, this`moveCount, this`gameOver, this`locked, this`pendingAi, this`outbox
      ensures Valid()
      ensures mode == Online && roomCode == None ==> unchanged(this)
      ensures mode != Online || roomCode.Some? ==>
                Coherent() && fresh(board) && board[..] == EmptyBoard && turn == X && moveCount == 0 && !gameOver
      ensures mode == Cpu ==> locked == (myMark == O) && pendingAi == old(pendingAi) + (if myMark == O then 1 else 0)
      ensures mode != Cpu ==> pendingAi == old(pendingAi)
      ensures mode == Local ==> !locked
      ensures mode == Online && roomCode.Some? ==> locked == !isHost
      ensures outbox == old(outbox) + (if mode == Online && roomCode.Some? then [ReqRematchMsg] else [])
    {
      if mode == Cpu {
        ResetBoard();
        gameOver := false;
        locked := false;
        turn := X;
        if myMark == O {
          locked := true;
          pendingAi := pendingAi + 1;
        }
      } else if mode == Local {
        StartLocalGame();
      } else if roomCode.Some? {
        outbox := outbox + [ReqRematchMsg];
        ResetBoard();
        gameOver := false;
        locked := !isHost;
      }
    }

    /** The restart timer `t` fires. */
    method FireRestartTimer(t: nat)
      requires Valid() && t in restartTimers
      modifies this`restartTimers, this`board, this`turn, this`moveCount, this`gameOver, this`locked,
               this`pendingAi, this`outbox
      ensures Valid()
      ensures restartTimers == old(restartTimers) - {t}
      ensures mode != Online || roomCode.Some? ==>
                Coherent() && fresh(board) && board[..] == EmptyBoard && turn == X && moveCount == 0 && !gameOver
      ensures mode == Online && roomCode == None ==>
                board == old(board) && turn == old(turn) && moveCount == old(moveCount) &&
                gameOver == old(gameOver) && locked == old(locked)
      ensures mode == Cpu ==> locked == (myMark == O) && pendingAi == old(pendingAi) + (if myMark == O then 1 else 0)
      ensures mode != Cpu ==> pendingAi == old(pendingAi)
      ensures mode == Local ==> !locked
      ensures mode == Online && roomCode.Some? ==> locked == !isHost
      ensures outbox == old(outbox) + (if mode == Online && roomCode.Some? then [ReqRematchMsg] else [])
    {
      restartTimers := restartTimers - {t};
      AutoRestart();
    }

    /**
     * The New Game button: cancels the pending restart; back to the mark
     * picker in CPU mode, a new round in local mode, and online a rematch
     * request inside a room.
     */
    method NewGame()
      requires Valid() && Wired()
      modifies this`restartTimers, this`board, this`turn, this`moveCount, this`gameOver, this`locked,
               this`outbox, this`pickVisible, this`boardVisible
      ensures Valid() && Wired()
      ensures restartTimers == Cancel(old(restartTimers), resetTimer)
      ensures mode != Online || roomCode.Some? ==>
                Coherent() && fresh(board) && board[..] == EmptyBoard && turn == X && moveCount == 0 && !gameOver
      ensures mode == Online && roomCode == None ==>
                board == old(board) && turn == old(turn) && moveCount == old(moveCount) &&
                gameOver == old(gameOver) && locked == old(locked)
      ensures mode == Cpu ==> pickVisible && !boardVisible && !locked
      ensures mode != Cpu ==> pickVisible == old(pickVisible) && boardVisible == old(boardVisible)
      ensures mode == Local ==> !locked
      ensures mode == Online && roomCode.Some? ==> locked == !isHost
      ensures outbox == old(outbox) + (if mode == Online && roomCode.Some? then [ReqRematchMsg] else [])
    {
      ClearResetTimer();
      NewRound();
    }

    /** The New Game button after the pending restart is cancelled. */
    method NewRound()
      requires Valid() && Wired()
      modifies this`board, this`turn, this`moveCount, this`gameOver, this`locked,
               this`outbox, this`pickVisible, this`boardVisible
      ensures Valid() && Wired()
      ensures mode != Online || roomCode.Some? ==>
                Coherent() && fresh(board) && board[..] == EmptyBoard && turn == X && moveCount == 0 && !gameOver
      ensures mode == Online && roomCode == None ==>
                board == old(board) && turn == old(turn) && moveCount == old(moveCount) &&
                gameOver == old(gameOver) && locked == old(locked)
      ensures mode == Cpu ==> pickVisible && !boardVisible && !locked
      ensures mode != Cpu ==> pickVisible == old(pickVisible) && boardVisible == old(boardVisible)
      ensures mode == Local ==> !locked
      ensures mode == Online && roomCode.Some? ==> locked == !isHost
      ensures outbox == old(outbox) + (if mode == Online && roomCode.Some? then [ReqRematchMsg] else [])
    {
      if mode == Cpu {
        boardVisible := false;
        pickVisible := true;
        ResetBoard();
      } else if mode == Local {
        StartLocalGame();
      } else if roomCode.Some? {
        outbox := outbox + [ReqRematchMsg];
        ResetBoard();
        gameOver := false;
        locked := !isHost;
      }
    }

    /**
     * The Create Room button (online mode): connect if needed and send
     * `create-room`; its acknowledgement is a later event. Without a socket
     * the handler throws before sending anything.
     */
    method CreateClick(ioAvailable: bool)
      requires Valid() && Wired() && mode == Online
      modifies this`socket, this`outbox, this`pendingCreates
      ensures Valid() && Wired() && socket == (old(socket) || ioAvailable)
      ensures !socket ==> outbox == old(outbox) && pendingCreates == old(pendingCreates)
      ensures socket ==> outbox == old(outbox) + [CreateRoomMsg] && pendingCreates == old(pendingCreates) + 1
    {
      if !socket {
        Connect(ioAvailable);
      }
      if !socket {
        return;
      }
      outbox := outbox + [CreateRoomMsg];
      pendingCreates := pendingCreates + 1;
    }

    /**
     * The acknowledgement of `create-room` arrives, carrying `reply` as its
     * code. It is handled whatever the mode is now: a code makes this page
     * the host of that room.
     */
    method OnCreateAck(reply: Option<string>)
      requires Valid() && Wired() && socket && pendingCreates > 0
      modifies this`pendingCreates, this`roomCode, this`isHost
      ensures Valid() && Wired()
      ensures pendingCreates == old(pendingCreates) - 1
      ensures reply.Some? && reply.value != "" ==> roomCode == reply && isHost
      ensures !(reply.Some? && reply.value != "") ==> roomCode == old(roomCode) && isHost == old(isHost)
    {
      pendingCreates := pendingCreates - 1;
      if reply.Some? && reply.value != "" {
        roomCode := reply;
        isHost := true;
      }
    }

    /**
     * The Join button (online mode): the typed code, trimmed and upper-cased,
     * is sent only when it has at least three characters; its acknowledgement
     * is a later event.
     */
    method JoinClick(input: string, ioAvailable: bool)
      requires Valid() && Wired() && mode == Online
      modifies this`socket, this`outbox, this`pendingJoins
      ensures Valid() && Wired()
      ensures var code := Protocol.ClientCode(input);
              if |code| < 3 then unchanged(this)
              else
                socket == (old(socket) || ioAvailable) &&
                outbox == old(outbox) + (if socket then [JoinRoomMsg(code)] else []) &&
                pendingJoins == old(pendingJoins) + (if socket then multiset{code} else multiset{})
    {
      var code := Protocol.ClientCode(input);
      if |code| < 3 {
        return;
      }
      SendJoin(code, ioAvailable);
    }

    /** The part of the Join button after the length check: connect, then send `join-room`. */
    method SendJoin(code: string, ioAvailable: bool)
      requires Valid() && Wired() && mode == Online
      modifies this`socket, this`outbox, this`pendingJoins
      ensures Valid() && Wired()
      ensures socket == (old(socket) || ioAvailable)
      ensures outbox == old(outbox) + (if socket then [JoinRoomMsg(code)] else [])
      ensures pendingJoins == old(pendingJoins) + (if socket then multiset{code} else multiset{})
    {
      if !socket {
        Connect(ioAvailable);
      }
      if !socket {
        return;
      }
      outbox := outbox + [JoinRoomMsg(code)];
      pendingJoins := pendingJoins + multiset{code};
    }

    /**
     * The acknowledgement of the `join-room` request for `code` arrives. It is
     * handled whatever the mode is now: without an error this page becomes
     * the guest in that room; an error leaves everything else as it was.
     */
    method OnJoinAck(code: string, ack: JoinAck)
      requires Valid() && Wired() && socket && code in pendingJoins
      modifies this`pendingJoins, this`roomCode, this`isHost
      ensures Valid() && Wired()
      ensures pendingJoins == old(pendingJoins) - multiset{code}
      ensures ack.Accepted() ==> roomCode == Some(code) && !isHost
      ensures !ack.Accepted() ==> roomCode == old(roomCode) && isHost == old(isHost)
    {
      pendingJoins := pendingJoins - multiset{code};
      if !ack.Accepted() {
        return;
      }
      roomCode := Some(code);
      isHost := false;
    }

    /** Socket event `game-start`: shows a fresh board; the host plays X and moves first. */
    method OnGameStart()
      requires Valid() && Wired() && socket
      modifies this`boardVisible, this`board, this`turn, this`moveCount, this`gameOver, this`locked,
               this`myMark, this`oppMark
      ensures Valid() && Wired() && Coherent() && boardVisible
      ensures fresh(board) && board[..] == EmptyBoard && turn == X && moveCount == 0 && !gameOver
      ensures myMark == (if isHost then X else O) && oppMark == Other(myMark)
      ensures locked == !isHost
    {
      boardVisible := true;
      ResetBoard();
      gameOver := false;
      myMark := if isHost then X else O;
      oppMark := if isHost then O else X;
      locked := !isHost;
    }

    /**
     * Socket event `move`: the opponent's mark goes on `index` unless the game
     * is over; input is unlocked when the game goes on.
     */
    method OnMove(index: int)
      requires Valid() && socket
      modifies board, this`moveCount, this`turn, this`gameOver, this`locked, this`scores,
               this`restartTimers, this`resetTimer, this`nextTimer
      ensures Valid() && (old(Coherent()) ==> Coherent())
      ensures old(gameOver) ==> unchanged(this) && unchanged(board)
      ensures !old(gameOver) ==> moveCount == old(moveCount) + 1 && turn == myMark
      ensures !old(gameOver) && !(0 <= index < 9) ==>
                board[..] == old(board[..]) && locked == old(locked) &&
                EndRecorded(InProgress, false, old(scores), old(restartTimers), old(resetTimer), old(nextTimer))
      ensures !old(gameOver) && 0 <= index < 9 ==>
                board[..] == old(board[..])[index := Some(oppMark)] &&
                EndRecorded(Outcome(board[..], oppMark), false, old(scores), old(restartTimers), old(resetTimer), old(nextTimer)) &&
                locked == gameOver
    {
      if gameOver {
        return;
      }
      var thrown := MakeMove(index, oppMark);
      if thrown {
        return;
      }
      if !gameOver {
        locked := false;
      }
    }

    /** Socket event `req-rematch`: accepted at once with a fresh board; the host moves first. */
    method OnReqRematch()
      requires Valid() && socket
      modifies this`board, this`turn, this`moveCount, this`gameOver, this`locked
      ensures Valid() && Coherent()
      ensures fresh(board) && board[..] == EmptyBoard && turn == X && moveCount == 0 && !gameOver
      ensures locked == !isHost
    {
      ResetBoard();
      gameOver := false;
      locked := !isHost;
    }

    /** Socket event `opponent-left`: the game closes and the room is forgotten. */
    method OnOpponentLeft()
      requires Valid() && Wired() && socket
      modifies this`locked, this`gameOver, this`boardVisible, this`roomCode
      ensures Valid() && Wired() && Coherent()
      ensures locked && gameOver && !boardVisible && roomCode == None
    {
      locked := true;
      gameOver := true;
      boardVisible := false;
      roomCode := None;
    }
  }

  /**
   * A late acknowledgement: the player creates a room, switches to CPU mode
   * before the server answers, and the answer still makes the page the host
   * of a room that `setMode` never left.
   */
  method LateCreateAck() returns (c: Client)
    ensures c.mode == Cpu && c.roomCode == Some("ABCDE") && c.isHost
    ensures c.outbox == [CreateRoomMsg]
  {
    c := new Client();
    c.SetMode(Online, true);
    c.CreateClick(true);
    c.SetMode(Cpu, true);
    c.OnCreateAck(Some("ABCDE"));
  }
}

=== FILE: jstext.dfy ===
/**
 * The few JavaScript string primitives the front-ends rely on: white space as
 * `trim()` and the regular-expression class `\s` see it, ASCII case mapping,
 * and the decimal rendering `String(n)` of a non-negative integer.
 */
module JsText {

  /** ECMAScript WhiteSpace and LineTerminator code points: what `trim()` strips and `\s` matches. */
  predicate IsSpace(c: char)
  {
    c == '\t' || c == '\n' || c == '\U{B}' || c == '\U{C}' || c == '\r' || c == ' ' ||
    c == '\U{A0}' || c == '\U{1680}' || ('\U{2000}' <= c <= '\U{200A}') ||
    c == '\U{2028}' || c == '\U{2029}' || c == '\U{202F}' || c == '\U{205F}' ||
    c == '\U{3000}' || c == '\U{FEFF}'
  }

  /** The line terminators: `.` does not match them and, in multiline mode, `^` and `$` anchor at them. */
  predicate IsLineTerminator(c: char)
  {
    c == '\n' || c == '\r' || c == '\U{2028}' || c == '\U{2029}'
  }

  predicate AllSpace(s: string)
  {
    forall i :: 0 <= i < |s| ==> IsSpace(s[i])
  }

  /** Drops the leading white space. */
  function TrimStart(s: string): (r: string)
    ensures |r| <= |s| && r == s[|s| - |r|..]
    ensures forall i :: 0 <= i < |s| - |r| ==> IsSpace(s[i])
    ensures r == [] || !IsSpace(r[0])
  {
    if s == [] || !IsSpace(s[0]) then s else TrimStart(s[1..])
  }

  /** Drops the trailing white space. */
  function TrimEnd(s: string): (r: string)
    ensures |r| <= |s| && r == s[..|r|]
    ensures forall i :: |r| <= i < |s| ==> IsSpace(s[i])
    ensures r == [] || !IsSpace(r[|r| - 1])
  {
    if s == [] || !IsSpace(s[|s| - 1]) then s else TrimEnd(s[..|s| - 1])
  }

  /** How many white-space characters `trim()` drops from the front of `s`. */
  function LeadingSpace(s: string): nat
  {
    |s| - |TrimStart(s)|
  }

  /** `s.trim()`: the middle of `s` between the white space at both ends. */
  function Trim(s: string): (r: string)
    ensures LeadingSpace(s) + |r| <= |s| && r == s[LeadingSpace(s)..LeadingSpace(s) + |r|]
    ensures forall i :: 0 <= i < LeadingSpace(s) ==> IsSpace(s[i])
    ensures forall i :: LeadingSpace(s) + |r| <= i < |s| ==> IsSpace(s[i])
    ensures Trimmed(r)
    ensures r == [] <==> AllSpace(s)
  {
    var t := TrimStart(s);
    var r := TrimEnd(t);
    assert r == s[|s| - |t|..][..|r|];
    assert t == [] ==> AllSpace(s);
    r
  }

  /** Trimming a string with no white space at either end gives it back. */
  lemma TrimTrimmed(s: string)
    requires Trimmed(s)
    ensures Trim(s) == s
  {
    if s != [] {
      assert TrimStart(s) == s;
      assert TrimEnd(s) == s;
    }
  }

  /** Trimming twice is trimming once. */
  lemma TrimIdempotent(s: string)
    ensures Trim(Trim(s)) == Trim(s)
  {
    TrimTrimmed(Trim(s));
  }

  /** `toUpperCase()` on one character, for the ASCII letters. */
  function UpperChar(c: char): char
  {
    if 'a' <= c <= 'z' then (c as int - 32) as char else c
  }

  /** `toLowerCase()` on one character, for the ASCII letters. */
  function LowerChar(c: char): char
  {
    if 'A' <= c <= 'Z' then (c as int + 32) as char else c
  }

  function Upper(s: string): (r: string)
    ensures |r| == |s| && forall i :: 0 <= i < |s| ==> r[i] == UpperChar(s[i])
  {
    seq(|s|, i requires 0 <= i < |s| => UpperChar(s[i]))
  }

  /** No lower-case ASCII letter in `s`. */
  predicate NoLower(s: string)
  {
    forall i :: 0 <= i < |s| ==> !('a' <= s[i] <= 'z')
  }

  /** No white space at either end of `s`. */
  predicate Trimmed(s: string)
  {
    s == [] || (!IsSpace(s[0]) && !IsSpace(s[|s| - 1]))
  }

  /** Upper-casing a character keeps it white space exactly when it was. */
  lemma UpperCharSpace(c: char)
    ensures IsSpace(UpperChar(c)) <==> IsSpace(c)
  {
  }

  /** Upper-casing leaves no lower-case letter and keeps a trimmed string trimmed. */
  lemma UpperTrimmed(s: string)
    ensures NoLower(Upper(s))
    ensures Trimmed(s) ==> Trimmed(Upper(s))
  {
    if s != [] {
      UpperCharSpace(s[0]);
      UpperCharSpace(s[|s| - 1]);
    }
  }

  /** Trimming keeps the absence of lower-case letters. */
  lemma TrimNoLower(s: string)
    requires NoLower(s)
    ensures NoLower(Trim(s))
  {
    var l := LeadingSpace(s);
    SliceNoLower(s, l, l + |Trim(s)|);
  }

  /** A slice of a string without lower-case letters has none either. */
  lemma SliceNoLower(s: string, a: nat, b: nat)
    requires a <= b <= |s| && NoLower(s)
    ensures NoLower(s[a..b])
  {
    forall i | 0 <= i < b - a
      ensures !('a' <= s[a..b][i] <= 'z')
    {
      assert s[a..b][i] == s[a + i];
    }
  }

  function Lower(s: string): (r: string)
    ensures |r| == |s| && forall i :: 0 <= i < |s| ==> r[i] == LowerChar(s[i])
  {
    seq(|s|, i requires 0 <= i < |s| => LowerChar(s[i]))
  }

  predicate StartsWith(s: string, prefix: string)
  {
    |prefix| <= |s| && s[..|prefix|] == prefix
  }

  predicate IsDigit(c: char)
  {
    '0' <= c <= '9'
  }

  predicate AllDigits(s: string)
  {
    forall i :: 0 <= i < |s| ==> IsDigit(s[i])
  }

  function DigitChar(d: nat): (c: char)
    requires d < 10
    ensures IsDigit(c)
  {
    ('0' as int + d) as char
  }

  function DigitValue(c: char): (d: nat)
    requires IsDigit(c)
    ensures d < 10 && DigitChar(d) == c
  {
    c as int - '0' as int
  }

  /** `String(n)` for a non-negative integer: its decimal digits, without leading zeros. */
  function Dec(n: nat): (r: string)
    ensures |r| >= 1 && AllDigits(r)
    ensures r[0] == '0' ==> n == 0
  {
    if n < 10 then [DigitChar(n)] else Dec(n / 10) + [DigitChar(n % 10)]
  }

  /** The value of a string of decimal digits (leading zeros allowed). */
  function ParseDec(s: string): nat
    requires AllDigits(s)
  {
    if s == [] then 0 else ParseDec(s[..|s| - 1]) * 10 + DigitValue(s[|s| - 1])
  }

  lemma {:induction false} ParseDecOfDec(n: nat)
    ensures ParseDec(Dec(n)) == n
  {
    if n >= 10 {
      var d := Dec(n);
      assert d[..|d| - 1] == Dec(n / 10);
      ParseDecOfDec(n / 10);
    }
  }

  /** A leading zero does not change the value of a digit string. */
  lemma {:induction false} ParseDecLeadingZero(s: string)
    requires AllDigits(s)
    ensures AllDigits("0" + s) && ParseDec("0" + s) == ParseDec(s)
  {
    if s != [] {
      var z := "0" + s;
      assert z[..|z| - 1] == "0" + s[..|s| - 1];
      ParseDecLeadingZero(s[..|s| - 1]);
    }
  }

  /** `s.padStart(2, '0')`. */
  function Pad2(s: string): (r: string)
    ensures |r| == if |s| < 2 then 2 else |s|
    ensures AllDigits(s) ==> AllDigits(r) && ParseDec(r) == ParseDec(s)
  {
    if |s| == 0 then "00"
    else if |s| == 1 then
      (if IsDigit(s[0]) then ParseDecLeadingZero(s); "0" + s else "0" + s)
    else s
  }
}

=== FILE: markdown.dfy ===
/**
 * The markdown previewer's editor: the statistics line, the document name
 * taken from the first level-one heading, Tab insertion and the clear button.
 * Rendering the markdown itself is done by a library and is not modelled; the
 * browser's storage is a field.
 */
module Markdown {
  import opened Wrappers
  import opened JsText
  import opened Seqs

  /** `pluralize(n, word)`: the singular only for exactly one, otherwise a trailing `s`. */
  function Pluralize(n: nat, word: string): (r: string)
    ensures |r| > |word| + 1
    ensures n == 1 <==> r == "1 " + word
    ensures n != 1 ==> r[|r| - 1] == 's'
  {
    Dec(n) + " " + word + (if n != 1 then "s" else "")
  }

  /**
   * A pluralized count is the count's digits, a space, the word, and an `s`
   * exactly when the count is not one; the digits read back as the count.
   */
  lemma PluralizeReadsBack(n: nat, word: string)
    ensures var r := Pluralize(n, word);
            var k := |Dec(n)|;
            |r| == k + 1 + |word| + (if n == 1 then 0 else 1) &&
            r[k] == ' ' && r[k + 1..k + 1 + |word|] == word && (n != 1 ==> r[|r| - 1] == 's') &&
            AllDigits(r[..k]) && ParseDec(r[..k]) == n
  {
    var r := Pluralize(n, word);
    var k := |Dec(n)|;
    assert r[..k] == Dec(n);
    assert r[k + 1..k + 1 + |word|] == word;
    ParseDecOfDec(n);
  }

  // ---- Word count ----

  /** The longest prefix of `s` without white space. */
  function WordPrefix(s: string): (r: string)
    ensures |r| <= |s| && r == s[..|r|]
    ensures forall i :: 0 <= i < |r| ==> !IsSpace(r[i])
    ensures |r| == |s| || IsSpace(s[|r|])
  {
    if s == [] || IsSpace(s[0]) then []
    else
      assert s == [s[0]] + s[1..];
      [s[0]] + WordPrefix(s[1..])
  }

  /** A non-empty string starting with white space loses some when `TrimStart` is applied. */
  lemma TrimStartShorter(s: string)
    requires s != [] && IsSpace(s[0])
    ensures |TrimStart(s)| < |s|
  {
  }

  /** `s.split(/\s+/)`: the pieces between maximal runs of white space. */
  function SplitWs(s: string): (r: seq<string>)
    ensures |r| >= 1
    decreases |s|
  {
    if s == [] then [""]
    else
      var w := WordPrefix(s);
      var rest := s[|w|..];
      if rest == [] then [w]
      else
        TrimStartShorter(rest);
        [w] + SplitWs(TrimStart(rest))
  }

  /** `text.trim() ? text.trim().split(/\s+/).length : 0`. */
  function WordCount(text: string): (n: nat)
    ensures n == 0 <==> AllSpace(text)
  {
    var t := Trim(text);
    if t == [] then 0 else |SplitWs(t)|
  }

  /**
   * The number of positions in `s` where a word begins: a character that is
   * not white space, at the start (when `afterSpace`) or after white space.
   */
  function WordStartsFrom(s: string, afterSpace: bool): nat
  {
    if s == [] then 0
    else (if afterSpace && !IsSpace(s[0]) then 1 else 0) + WordStartsFrom(s[1..], IsSpace(s[0]))
  }

  /** The number of maximal runs of non-white-space characters in `s`. */
  function WordStarts(s: string): nat
  {
    WordStartsFrom(s, true)
  }

  /** White space begins no word. */
  lemma {:induction false} NoStartsInSpace(q: string, afterSpace: bool)
    requires AllSpace(q)
    ensures WordStartsFrom(q, afterSpace) == 0
  {
    if q != [] {
      NoStartsInSpace(q[1..], true);
    }
  }

  /** Trailing white space adds no word. */
  lemma {:induction false} SpaceSuffix(x: string, q: string, afterSpace: bool)
    requires AllSpace(q)
    ensures WordStartsFrom(x + q, afterSpace) == WordStartsFrom(x, afterSpace)
  {
    if x == [] {
      assert x + q == q;
      NoStartsInSpace(q, afterSpace);
    } else {
      assert (x + q)[1..] == x[1..] + q;
      SpaceSuffix(x[1..], q, IsSpace(x[0]));
    }
  }

  /** After leading white space, counting goes on as at the start. */
  lemma {:induction false} SpacePrefix(p: string, t: string, afterSpace: bool)
    requires AllSpace(p) && p != []
    ensures WordStartsFrom(p + t, afterSpace) == WordStartsFrom(t, true)
  {
    assert (p + t)[1..] == p[1..] + t;
    if |p| > 1 {
      SpacePrefix(p[1..], t, true);
    } else {
      assert p[1..] + t == t;
    }
  }

  /** A word at the front counts once, and counting goes on after it. */
  lemma {:induction false} WordFront(w: string, x: string, afterSpace: bool)
    requires w != [] && forall i :: 0 <= i < |w| ==> !IsSpace(w[i])
    ensures WordStartsFrom(w + x, afterSpace) == (if afterSpace then 1 else 0) + WordStartsFrom(x, false)
  {
    assert (w + x)[1..] == w[1..] + x;
    if |w| > 1 {
      WordFront(w[1..], x, false);
    } else {
      assert w[1..] + x == x;
    }
  }

  /** Splitting a string that ends in a word gives one piece per word, and an empty first piece for leading white space. */
  lemma {:induction false} SplitCount(s: string)
    requires s != [] && !IsSpace(s[|s| - 1])
    ensures |SplitWs(s)| == WordStarts(s) + (if IsSpace(s[0]) then 1 else 0)
    decreases |s|
  {
    var rest := s[|WordPrefix(s)|..];
    if rest == [] {
      SplitOneWord(s);
    } else {
      TrimStartKeepsEnd(rest);
      SplitCount(TrimStart(rest));
      SplitStep(s);
    }
  }

  /** A string without white space is one piece and one word. */
  lemma SplitOneWord(s: string)
    requires s != [] && s[|WordPrefix(s)|..] == []
    ensures |SplitWs(s)| == WordStarts(s) && !IsSpace(s[0])
  {
    var w := WordPrefix(s);
    SplitUnfold(s);
    WordFront(w, [], true);
  }

  /** A word, white space, then pieces that count the words after it: one piece and one word more. */
  lemma SplitStep(s: string)
    requires s != []
    requires var rest := s[|WordPrefix(s)|..];
             rest != [] && TrimStart(rest) != [] && |SplitWs(TrimStart(rest))| == WordStarts(TrimStart(rest))
    ensures |SplitWs(s)| == WordStarts(s) + (if IsSpace(s[0]) then 1 else 0)
  {
    var w := WordPrefix(s);
    var rest := s[|w|..];
    SplitUnfold(s);
    StartsAcrossSpace(w, rest);
  }

  /** One step of the split: the first word, then the rest of the pieces after the white space that follows it. */
  lemma SplitUnfold(s: string)
    requires s != []
    ensures var w := WordPrefix(s);
            var rest := s[|w|..];
            s == w + rest && w + [] == w && (w == [] <==> IsSpace(s[0])) &&
            (rest == [] ==> |SplitWs(s)| == 1) &&
            (rest != [] ==> IsSpace(rest[0]) && rest[|rest| - 1] == s[|s| - 1] &&
                            |SplitWs(s)| == 1 + |SplitWs(TrimStart(rest))|)
  {
    var w := WordPrefix(s);
    assert s == w + s[|w|..];
  }

  /** `TrimStart` of white space followed by more than white space keeps the end. */
  lemma TrimStartKeepsEnd(x: string)
    requires x != [] && IsSpace(x[0]) && !IsSpace(x[|x| - 1])
    ensures var r := TrimStart(x); r != [] && |r| < |x| && r[|r| - 1] == x[|x| - 1]
  {
  }

  /** A word (or nothing) then white space: one run more than what follows the white space, counting the space-first case. */
  lemma StartsAcrossSpace(w: string, rest: string)
    requires forall i :: 0 <= i < |w| ==> !IsSpace(w[i])
    requires rest != [] && IsSpace(rest[0])
    ensures WordStartsFrom(w + rest, true) + (if w == [] then 1 else 0) == 1 + WordStartsFrom(TrimStart(rest), true)
  {
    var r2 := TrimStart(rest);
    var sp := rest[..|rest| - |r2|];
    assert rest == sp + r2;
    if w == [] {
      assert w + rest == rest;
      SpacePrefix(sp, r2, true);
    } else {
      WordFront(w, rest, true);
      SpacePrefix(sp, r2, false);
    }
  }

  /** The word count is the number of maximal runs of non-white-space characters. */
  lemma WordCountIsWordStarts(text: string)
    ensures WordCount(text) == WordStarts(text)
  {
    var t := Trim(text);
    var l := LeadingSpace(text);
    var e := l + |t|;
    var p := text[..l];
    var q := text[e..];
    SpaceBefore(text, l);
    SpaceFrom(text, e);
    Cut3(text, l, e);
    SpaceSuffix(p + t, q, true);
    if p != [] {
      SpacePrefix(p, t, true);
    } else {
      assert p + t == t;
    }
    if t != [] {
      SplitCount(t);
    }
  }

  /** A string is its three pieces around two cut points. */
  lemma Cut3(s: string, a: nat, b: nat)
    requires a <= b <= |s|
    ensures s == s[..a] + s[a..b] + s[b..]
  {
    assert s[..b] == s[..a] + s[a..b];
    assert s == s[..b] + s[b..];
  }

  /** White space up to `k` makes the prefix all white space. */
  lemma SpaceBefore(s: string, k: nat)
    requires k <= |s| && forall i :: 0 <= i < k ==> IsSpace(s[i])
    ensures AllSpace(s[..k])
  {
    assert forall i :: 0 <= i < k ==> s[..k][i] == s[i];
  }

  /** White space from `k` on makes the suffix all white space. */
  lemma SpaceFrom(s: string, k: nat)
    requires k <= |s| && forall i :: k <= i < |s| ==> IsSpace(s[i])
    ensures AllSpace(s[k..])
  {
    assert forall i :: 0 <= i < |s| - k ==> s[k..][i] == s[k + i];
  }

  // ---- Line count ----

  /** The number of occurrences of `c` in `s`. */
  function Occurrences(s: string, c: char): nat
  {
    if s == [] then 0 else (if s[0] == c then 1 else 0) + Occurrences(s[1..], c)
  }

  /** `s.split(c)` for a one-character separator. */
  function SplitAt(s: string, c: char): (r: seq<string>)
    ensures |r| == Occurrences(s, c) + 1
    ensures forall i :: 0 <= i < |r| ==> c !in r[i]
  {
    if s == [] then [""]
    else
      var rest := SplitAt(s[1..], c);
      if s[0] == c then [""] + rest else [[s[0]] + rest[0]] + rest[1..]
  }

  /** `parts.join(c)`. */
  function JoinWith(parts: seq<string>, c: char): string
    requires parts != []
  {
    if |parts| == 1 then parts[0] else parts[0] + [c] + JoinWith(parts[1..], c)
  }

  /** Splitting loses nothing: joining the pieces back gives the text. */
  lemma {:induction false} JoinSplit(s: string, c: char)
    ensures JoinWith(SplitAt(s, c), c) == s
  {
    if s != [] {
      var rest := SplitAt(s[1..], c);
      JoinSplit(s[1..], c);
      if s[0] == c {
        assert [""] + rest == [""] + rest;
        assert ([""] + rest)[1..] == rest;
      } else {
        var r := [[s[0]] + rest[0]] + rest[1..];
        if |rest| == 1 {
          assert s == [s[0]] + s[1..];
        } else {
          assert r[1..] == rest[1..];
          assert JoinWith(rest, c) == rest[0] + [c] + JoinWith(rest[1..], c);
          assert s == [s[0]] + s[1..];
        }
      }
    }
  }

  /** `text.split('\n').length`. */
  function LineCount(text: string): (n: nat)
    ensures n == Occurrences(text, '\n') + 1
  {
    |SplitAt(text, '\n')|
  }

  /** The three statistics the footer shows. */
  datatype Stats = Stats(words: string, chars: string, lines: string)

  /** `updateStats`: words, characters and lines, each pluralized. */
  function StatsOf(text: string): (r: Stats)
    ensures r.words == "0 words" <==> AllSpace(text)
    ensures r.lines == Pluralize(Occurrences(text, '\n') + 1, "line")
  {
    ZeroWords(WordCount(text));
    Stats(Pluralize(WordCount(text), "word"), Pluralize(|text|, "char"), Pluralize(LineCount(text), "line"))
  }

  /** Only a count of zero reads "0 words". */
  lemma ZeroWords(n: nat)
    ensures Pluralize(n, "word") == "0 words" <==> n == 0
  {
    if n != 0 {
      assert Pluralize(n, "word")[0] == Dec(n)[0];
    } else {
      assert Dec(0) == "0";
    }
  }

  /** The footer counts the words, the characters, and the line breaks plus one. */
  lemma StatsCounts(text: string)
    ensures var r := StatsOf(text);
            r.words == Pluralize(WordStarts(text), "word") &&
            r.chars == Pluralize(|text|, "char") &&
            r.lines == Pluralize(Occurrences(text, '\n') + 1, "line")
  {
    WordCountIsWordStarts(text);
  }

  /** An empty editor shows no words, no characters and one line. */
  lemma EmptyStats()
    ensures StatsOf("") == Stats("0 words", "0 chars", "1 line")
  {
    assert Dec(0) == "0";
  }

  // ---- Document name ----

  /** The regular-expression class `\w`: ASCII letters, digits and `_`. */
  predicate IsWordChar(c: char)
  {
    'A' <= c <= 'Z' || 'a' <= c <= 'z' || '0' <= c <= '9' || c == '_'
  }

  /** What `replace(/[^\w\s-]/g, '')` keeps. */
  predicate Kept(c: char)
  {
    IsWordChar(c) || IsSpace(c) || c == '-'
  }

  /**
   * `replace(/[^\w\s-]/g, '')`: every other character removed, each kept
   * character staying as often as it occurs.
   */
  function Strip(s: string): (r: string)
    ensures |r| <= |s|
    ensures forall i :: 0 <= i < |r| ==> Kept(r[i])
    ensures forall c :: multiset(r)[c] == if Kept(c) then multiset(s)[c] else 0
  {
    if s == [] then []
    else
      assert s == [s[0]] + s[1..];
      (if Kept(s[0]) then [s[0]] else []) + Strip(s[1..])
  }

  /** The replacement keeps order: it works piece by piece over a concatenation. */
  lemma {:induction false} StripAppend(a: string, b: string)
    ensures Strip(a + b) == Strip(a) + Strip(b)
  {
    if a == [] {
      assert a + b == b;
    } else {
      var h := if Kept(a[0]) then [a[0]] else [];
      DropAppend(a, b, 1);
      assert (a + b)[0] == a[0];
      StripAppend(a[1..], b);
      Regroup(Strip(a + b), Strip(a), Strip(b), h, Strip(a[1..]));
    }
  }

  /** One character stays exactly when it is kept. */
  lemma StripOne(c: char)
    ensures Strip([c]) == if Kept(c) then [c] else []
  {
    assert [c][1..] == [];
  }

  /** Stripping keeps a string made of kept characters whole. */
  lemma {:induction false} StripKept(s: string)
    requires forall i :: 0 <= i < |s| ==> Kept(s[i])
    ensures Strip(s) == s
  {
    if s != [] {
      StripKept(s[1..]);
      assert s == [s[0]] + s[1..];
    }
  }

  /** The longest prefix of `s` without a line terminator: what `.+` matches before `$`. */
  function LineRest(s: string): (r: string)
    ensures |r| <= |s| && r == s[..|r|]
    ensures forall i :: 0 <= i < |r| ==> !IsLineTerminator(r[i])
    ensures |r| == |s| || IsLineTerminator(s[|r|])
  {
    if s == [] || IsLineTerminator(s[0]) then []
    else
      assert s == [s[0]] + s[1..];
      [s[0]] + LineRest(s[1..])
  }

  /**
   * `\s+(.+)$` after the `#`: the white space `u[..k]` is tried from the
   * longest run down, and the first `k` followed by a character other than a
   * line terminator wins; `(.+)` then takes the rest of that line, after
   * which `$` always holds.
   */
  function Backtrack(u: string, k: nat): (r: Option<string>)
    requires k <= LeadingSpace(u)
    ensures r.Some? ==> r.value != [] && forall i :: 0 <= i < |r.value| ==> !IsLineTerminator(r.value[i])
    ensures r.Some? ==> LeadingSpace(u) >= 1
  {
    if k == 0 then None
    else if k < |u| && !IsLineTerminator(u[k]) then Some(LineRest(u[k..]))
    else Backtrack(u, k - 1)
  }

  /**
   * Backtracking finds a capture exactly when some run length from 1 to `k`
   * fits, and the capture is the rest of the line after the longest one.
   */
  lemma {:induction false} BacktrackMatches(u: string, k: nat)
    requires k <= LeadingSpace(u)
    ensures Backtrack(u, k).None? <==> forall j :: 1 <= j <= k ==> !Fits(u, j)
    ensures forall j :: LastFit(u, j, k) ==> Backtrack(u, k) == Some(LineRest(u[j..]))
  {
    if k > 0 {
      if Fits(u, k) {
        assert forall j :: LastFit(u, j, k) ==> j == k;
      } else {
        BacktrackMatches(u, k - 1);
        assert forall j :: LastFit(u, j, k) ==> LastFit(u, j, k - 1);
      }
    }
  }

  /**
   * `\s+` can take `u[..j]` (the `#` already matched at `u`'s front is not
   * part of `u`) and `(.+)` can start at `u[j]`.
   */
  predicate Fits(u: string, j: int)
  {
    1 <= j < |u| && !IsLineTerminator(u[j])
  }

  /** `j` is the longest white-space run, at most `k`, that fits: the one backtracking stops at. */
  predicate LastFit(u: string, j: int, k: int)
  {
    j <= k && Fits(u, j) && forall j' :: j < j' <= k ==> !Fits(u, j')
  }

  /** What follows position `p`. */
  function AfterHash(s: string, p: nat): string
    requires p < |s|
  {
    s[p + 1..]
  }

  /** `#` at the start of a line. */
  predicate HashAtLineStart(s: string, p: nat)
    requires p < |s|
  {
    (p == 0 || IsLineTerminator(s[p - 1])) && s[p] == '#'
  }

  /** The capture of `^#\s+(.+)$` at `p`, if the pattern matches there. */
  function HeadingAt(s: string, p: nat): (r: Option<string>)
    requires p < |s|
    ensures r.Some? ==> s[p] == '#' && (p == 0 || IsLineTerminator(s[p - 1]))
    ensures r.Some? ==> p + 1 < |s| && IsSpace(s[p + 1])
    ensures r.Some? ==> r.value != [] && forall i :: 0 <= i < |r.value| ==> !IsLineTerminator(r.value[i])
  {
    if HashAtLineStart(s, p) then
      var u := AfterHash(s, p);
      Backtrack(u, LeadingSpace(u))
    else None
  }

  /**
   * When the pattern matches at `p`: exactly when a `#` starts the line and
   * some white-space run after it fits, and then the capture is the rest of
   * the line after the longest such run.
   */
  lemma HeadingAtMatches(s: string, p: nat)
    requires p < |s|
    ensures HeadingAt(s, p).None? <==>
              !HashAtLineStart(s, p) || forall j :: 1 <= j <= LeadingSpace(AfterHash(s, p)) ==> !Fits(AfterHash(s, p), j)
    ensures forall j :: HashAtLineStart(s, p) && LastFit(AfterHash(s, p), j, LeadingSpace(AfterHash(s, p))) ==>
              HeadingAt(s, p) == Some(LineRest(s[p + 1 + j..]))
  {
    var u := AfterHash(s, p);
    BacktrackMatches(u, LeadingSpace(u));
    assert forall j :: 0 <= j <= |u| ==> u[j..] == s[p + 1 + j..];
  }

  /** The capture of the leftmost match of `^#\s+(.+)$` in multiline mode, from `p` on. */
  function FirstHeadingFrom(s: string, p: nat): Option<string>
    decreases |s| - p
  {
    if p >= |s| then None
    else if HeadingAt(s, p).Some? then HeadingAt(s, p)
    else FirstHeadingFrom(s, p + 1)
  }

  /** The match from `p` on is the leftmost one, and there is none exactly when no position matches. */
  lemma {:induction false} FirstHeadingFromLeftmost(s: string, p: nat)
    ensures var r := FirstHeadingFrom(s, p);
            (r.None? ==> forall q :: p <= q < |s| ==> HeadingAt(s, q).None?) &&
            (r.Some? ==> exists q :: p <= q < |s| && HeadingAt(s, q) == r &&
                                     forall q' :: p <= q' < q ==> HeadingAt(s, q').None?)
    decreases |s| - p
  {
    var q := LeftmostFrom(s, p);
    if q < |s| {
      assert p <= q < |s| && HeadingAt(s, q) == FirstHeadingFrom(s, p);
    }
  }

  /** The position the search from `p` stops at: the first match, or past the end when there is none. */
  lemma {:induction false} LeftmostFrom(s: string, p: nat) returns (q: nat)
    ensures p <= q
    ensures q >= |s| ==> FirstHeadingFrom(s, p).None?
    ensures q < |s| ==> HeadingAt(s, q).Some? && FirstHeadingFrom(s, p) == HeadingAt(s, q)
    ensures forall q' :: p <= q' < q && q' < |s| ==> HeadingAt(s, q').None?
    decreases |s| - p
  {
    if p >= |s| {
      q := p;
    } else if HeadingAt(s, p).Some? {
      q := p;
      assert FirstHeadingFrom(s, p) == HeadingAt(s, p);
    } else {
      assert FirstHeadingFrom(s, p) == FirstHeadingFrom(s, p + 1);
      q := LeftmostFrom(s, p + 1);
    }
  }

  /** The leftmost match: none exactly when no position matches. */
  function FirstHeading(s: string): (r: Option<string>)
    ensures r.None? ==> forall q :: 0 <= q < |s| ==> HeadingAt(s, q).None?
    ensures r.Some? ==> exists q :: 0 <= q < |s| && HeadingAt(s, q) == r &&
                                    forall q' :: 0 <= q' < q ==> HeadingAt(s, q').None?
  {
    FirstHeadingFromLeftmost(s, 0);
    FirstHeadingFrom(s, 0)
  }

  /**
   * `updateDocName`: the first heading's text, trimmed, stripped, trimmed
   * again and cut to 28 characters, or `untitled` when that is empty or there
   * is no heading; then `.md`.
   */
  function DocName(text: string): (r: string)
    ensures |r| >= 4 && r[|r| - 3..] == ".md"
  {
    match FirstHeading(text)
    case None => "untitled.md"
    case Some(c) => NameOf(c)
  }

  /** The name made from a heading's text: one to 28 kept characters, then `.md`. */
  function NameOf(c: string): (r: string)
    ensures |r| >= 4 && r[|r| - 3..] == ".md" && 1 <= |r| - 3 <= 28
    ensures forall i :: 0 <= i < |r| - 3 ==> Kept(r[i])
  {
    var st := Strip(Trim(c));
    TrimKeepsKept(st);
    FileNameShape(Trim(st));
    FileName(Trim(st))
  }

  /** `(name.substring(0, 28) || 'untitled') + '.md'`. */
  function FileName(name: string): (r: string)
    ensures |r| >= 4 && r[|r| - 3..] == ".md"
    ensures name == [] ==> r == "untitled.md"
    ensures name != [] ==> |r| - 3 == (if |name| < 28 then |name| else 28) && r[..|r| - 3] == name[..|r| - 3]
  {
    var cut := if |name| > 28 then name[..28] else name;
    (if cut == [] then "untitled" else cut) + ".md"
  }

  /** The name ends in `.md` after one to 28 characters, each a word character, white space or `-`. */
  lemma DocNameShape(text: string)
    ensures var r := DocName(text);
            |r| >= 4 && r[|r| - 3..] == ".md" && 1 <= |r| - 3 <= 28 &&
            forall i :: 0 <= i < |r| - 3 ==> Kept(r[i])
  {
    if FirstHeading(text).None? {
      UntitledShape();
    }
  }

  lemma FileNameShape(name: string)
    requires forall i :: 0 <= i < |name| ==> Kept(name[i])
    ensures var r := FileName(name);
            |r| >= 4 && r[|r| - 3..] == ".md" && 1 <= |r| - 3 <= 28 &&
            forall i :: 0 <= i < |r| - 3 ==> Kept(r[i])
  {
    var cut := if |name| > 28 then name[..28] else name;
    if cut == [] {
      UntitledShape();
    } else {
      var r := cut + ".md";
      assert forall i :: 0 <= i < |cut| ==> r[i] == cut[i] == name[i];
      assert r[|r| - 3..] == ".md";
    }
  }

  lemma UntitledShape()
    ensures var r := "untitled.md";
            |r| >= 4 && r[|r| - 3..] == ".md" && 1 <= |r| - 3 <= 28 &&
            forall i :: 0 <= i < |r| - 3 ==> Kept(r[i])
  {
  }

  /** Trimming a string of kept characters leaves kept characters. */
  lemma TrimKeepsKept(st: string)
    requires forall i :: 0 <= i < |st| ==> Kept(st[i])
    ensures forall i :: 0 <= i < |Trim(st)| ==> Kept(Trim(st)[i])
  {
    var name := Trim(st);
    assert forall i :: 0 <= i < |name| ==> name[i] == st[LeadingSpace(st) + i];
  }

  /** No `#` at all: no heading. */
  lemma {:induction false} NoHashNoHeading(s: string, p: nat)
    requires '#' !in s
    ensures FirstHeadingFrom(s, p) == None
    decreases |s| - p
  {
    if p < |s| {
      NoHashNoHeading(s, p + 1);
    }
  }

  /** A text without `#` is named `untitled.md`. */
  lemma UntitledWithoutHash(text: string)
    requires '#' !in text
    ensures DocName(text) == "untitled.md"
  {
    NoHashNoHeading(text, 0);
  }

  /** The rest of a line that ends at a line terminator or at the end is exactly that line. */
  lemma {:induction false} LineRestOfLine(title: string, rest: string)
    requires forall i :: 0 <= i < |title| ==> !IsLineTerminator(title[i])
    requires rest == [] || IsLineTerminator(rest[0])
    ensures LineRest(title + rest) == title
  {
    if title != [] {
      assert (title + rest)[1..] == title[1..] + rest;
      LineRestOfLine(title[1..], rest);
    }
  }

  /** A text that opens with `# ` and a title reads that title as its heading. */
  lemma HeadingOfTitle(title: string, rest: string)
    requires title != [] && !IsSpace(title[0])
    requires forall i :: 0 <= i < |title| ==> !IsLineTerminator(title[i])
    requires rest == [] || IsLineTerminator(rest[0])
    ensures FirstHeading("# " + title + rest) == Some(title)
  {
    var s := "# " + title + rest;
    var v := title + rest;
    var u := s[1..];
    assert u == " " + v;
    OneLeadingSpace(v);
    assert u[1..] == v;
    LineRestOfLine(title, rest);
    assert HeadingAt(s, 0) == Backtrack(u, 1);
  }

  /**
   * A `#` at the start of any line, one or more white-space characters and a
   * title: the title, up to the end of its line, is the capture there.
   */
  lemma HeadingOnAnyLine(pre: string, w: string, title: string, post: string)
    requires pre == [] || IsLineTerminator(pre[|pre| - 1])
    requires w != [] && AllSpace(w)
    requires title != [] && !IsSpace(title[0])
    requires forall i :: 0 <= i < |title| ==> !IsLineTerminator(title[i])
    requires post == [] || IsLineTerminator(post[0])
    ensures HeadingAt(pre + "#" + w + title + post, |pre|) == Some(title)
  {
    var v := title + post;
    var s := pre + "#" + w + title + post;
    var p := |pre|;
    assert s == pre + ("#" + (w + v));
    assert s[p] == '#';
    assert pre != [] ==> s[p - 1] == pre[|pre| - 1];
    assert AfterHash(s, p) == w + v;
    RunThenLine(s, p, w, v);
    LineRestOfLine(title, post);
  }

  /** A white-space run after a line-start `#`, then a character that starts a line's rest: the rest of that line is the capture. */
  lemma RunThenLine(s: string, p: nat, w: string, v: string)
    requires p < |s| && HashAtLineStart(s, p) && AfterHash(s, p) == w + v
    requires w != [] && AllSpace(w)
    requires v != [] && !IsSpace(v[0]) && !IsLineTerminator(v[0])
    ensures HeadingAt(s, p) == Some(LineRest(v))
  {
    RunSplits(AfterHash(s, p), w, v);
    LongestRunMatches(s, p);
    assert s[p + 1 + |w|..] == AfterHash(s, p)[|w|..];
  }

  /** A white-space run followed by a character that starts a line's rest: the run is all the leading white space, and it fits. */
  lemma RunSplits(u: string, w: string, v: string)
    requires u == w + v
    requires w != [] && AllSpace(w)
    requires v != [] && !IsSpace(v[0]) && !IsLineTerminator(v[0])
    ensures LeadingSpace(u) == |w| && Fits(u, |w|) && u[|w|..] == v
  {
    TrimStartOfSpace(w, v);
    assert u[|w|] == v[0];
  }

  /** When the whole white-space run after a line-start `#` fits, the rest of that line is the capture. */
  lemma LongestRunMatches(s: string, p: nat)
    requires p < |s| && HashAtLineStart(s, p)
    requires Fits(AfterHash(s, p), LeadingSpace(AfterHash(s, p)))
    ensures HeadingAt(s, p) == Some(LineRest(s[p + 1 + LeadingSpace(AfterHash(s, p))..]))
  {
    var k := LeadingSpace(AfterHash(s, p));
    assert LastFit(AfterHash(s, p), k, k);
    HeadingAtMatches(s, p);
  }

  /** `TrimStart` drops exactly a white-space run that stops before a non-white-space character. */
  lemma {:induction false} TrimStartOfSpace(w: string, x: string)
    requires AllSpace(w)
    requires x == [] || !IsSpace(x[0])
    ensures TrimStart(w + x) == x
  {
    if w == [] {
      assert w + x == x;
    } else {
      assert (w + x)[1..] == w[1..] + x;
      TrimStartOfSpace(w[1..], x);
    }
  }

  /** One space before a non-white-space character is all `TrimStart` drops. */
  lemma OneLeadingSpace(v: string)
    requires v != [] && !IsSpace(v[0])
    ensures LeadingSpace(" " + v) == 1
  {
    assert (" " + v)[1..] == v;
  }

  /** A title of at most 28 kept characters, without white space at its ends, names the document. */
  lemma DocNameOfTitle(title: string, rest: string)
    requires title != [] && Trimmed(title) && |title| <= 28
    requires forall i :: 0 <= i < |title| ==> Kept(title[i]) && !IsLineTerminator(title[i])
    requires rest == [] || IsLineTerminator(rest[0])
    ensures DocName("# " + title + rest) == title + ".md"
  {
    HeadingOfTitle(title, rest);
    TrimTrimmed(title);
    StripKept(title);
  }

  /** The editor's state. */
  class Editor {
    /** The textarea's text and its selection. */
    var value: string
    var selStart: nat
    var selEnd: nat
    /** The toast's text. */
    var toast: string
    /** The text in the browser's storage. */
    var stored: Option<string>

    /** The selection lies within the text. */
    predicate Valid()
      reads this
    {
      selStart <= selEnd <= |value|
    }

    /** What the footer shows once the text is rendered. */
    function Footer(): Stats
      reads this
    {
      StatsOf(value)
    }

    /** What the header shows once the text is rendered. */
    function Name(): string
      reads this
    {
      DocName(value)
    }

    /** `load()`: the stored text, or the sample document, rendered and saved back. */
    constructor (saved: Option<string>, sample: string)
      ensures Valid()
      ensures value == (if saved.Some? then saved.value else sample)
      ensures stored == Some(value) && toast == ""
    {
      var text := if saved.Some? then saved.value else sample;
      value := text;
      selStart, selEnd := 0, 0;
      toast := "";
      stored := Some(text);
    }

    /** `render()`: the footer and the header follow the text, which is saved. */
    method Render()
      modifies this`stored
      ensures stored == Some(value)
    {
      stored := Some(value);
    }

    /** Typing: a new text and selection. */
    method Edit(text: string, start: nat, end: nat)
      requires start <= end <= |text|
      modifies this`value, this`selStart, this`selEnd
      ensures Valid() && value == text && selStart == start && selEnd == end
    {
      value, selStart, selEnd := text, start, end;
    }

    /** Tab: the selection becomes two spaces, the caret right after them; the rest of the text is kept. */
    method Tab()
      requires Valid()
      modifies this`value, this`selStart, this`selEnd
      ensures Valid()
      ensures |value| == |old(value)| - (old(selEnd) - old(selStart)) + 2
      ensures value[..old(selStart)] == old(value)[..old(selStart)]
      ensures value[old(selStart)..old(selStart) + 2] == "  "
      ensures value[old(selStart) + 2..] == old(value)[old(selEnd)..]
      ensures selStart == selEnd == old(selStart) + 2
    {
      var start := selStart;
      value := value[..start] + "  " + value[selEnd..];
      selStart := start + 2;
      selEnd := start + 2;
    }

    /**
     * `clearEditor`: nothing for a blank text; otherwise an empty, rendered
     * editor and a toast, with the footer and the header back at their
     * empty-document values.
     */
    method ClearEditor()
      requires Valid()
      modifies this
      ensures Valid()
      ensures AllSpace(old(value)) ==> unchanged(this)
      ensures !AllSpace(old(value)) ==> value == "" && stored == Some("") && toast == "Cleared"
      ensures !AllSpace(old(value)) ==> Footer() == Stats("0 words", "0 chars", "1 line") && Name() == "untitled.md"
    {
      if AllSpace(value) {
        return;
      }
      value, selStart, selEnd := "", 0, 0;
      Render();
      toast := "Cleared";
      EmptyStats();
      UntitledWithoutHash(value);
    }

    /** Ctrl+S: the text saved and a toast. */
    method Save()
      modifies this`stored, this`toast
      ensures stored == Some(value) && toast == "Saved"
    {
      stored := Some(value);
      toast := "Saved";
    }

    /**
     * The copy button: a blank text is not copied; otherwise the text is
     * offered to the clipboard, and `accepted` says whether it took it.
     */
    method Copy(accepted: bool) returns (clip: Option<string>)
      modifies this`toast
      ensures AllSpace(value) ==> clip == None && toast == "Nothing to copy"
      ensures !AllSpace(value) ==>
                clip == (if accepted then Some(value) else None) &&
                toast == (if accepted then "Copied to clipboard" else "Copy failed")
    {
      if AllSpace(value) {
        toast := "Nothing to copy";
        return None;
      }
      clip := if accepted then Some(value) else None;
      toast := if accepted then "Copied to clipboard" else "Copy failed";
    }

    /**
     * The download button: a blank text is not downloaded; otherwise a file
     * holding the text, named as the header shows (which is never empty, so
     * the `document.md` fallback is not used).
     */
    method Download() returns (file: Option<(string, string)>)
      modifies this`toast
      ensures AllSpace(value) ==> file == None && toast == "Nothing to download"
      ensures !AllSpace(value) ==> file == Some((Name(), value)) && toast == "Downloaded"
    {
      if AllSpace(value) {
        toast := "Nothing to download";
        return None;
      }
      var name := Name();
      DocNameShape(value);
      if name == "" {
        name := "document.md";
      }
      file := Some((name, value));
      toast := "Downloaded";
    }
  }
}

=== FILE: pomodoro.dfy ===
/**
 * The Pomodoro clock: the `mm:ss` and focus-time formats and the timer state
 * the controls and the one-second interval update. The interval itself is
 * abstracted: `Tick` is its callback, called only while the timer runs.
 */
module Pomodoro {
  import opened Wrappers
  import opened JsText

  /** `fmt(secs)`: whole minutes and the remaining seconds, each padded to two digits, around a colon. */
  function Fmt(secs: nat): (r: string)
    ensures |r| >= 5 && r[|r| - 3] == ':'
  {
    DecUnder100(secs % 60);
    Pad2(Dec(secs / 60)) + ":" + Pad2(Dec(secs % 60))
  }

  /** A number under 100 has at most two decimal digits. */
  lemma DecUnder100(n: nat)
    requires n < 100
    ensures |Dec(n)| <= 2
  {
    if n >= 10 {
      assert Dec(n) == Dec(n / 10) + [DigitChar(n % 10)];
    }
  }

  /** Reading a `fmt` display back: the part before the colon is the minutes, the two digits after it the seconds. */
  lemma FmtReadsBack(secs: nat)
    ensures var r := Fmt(secs);
            AllDigits(r[..|r| - 3]) && AllDigits(r[|r| - 2..]) &&
            ParseDec(r[..|r| - 3]) == secs / 60 && ParseDec(r[|r| - 2..]) == secs % 60
  {
    var mm := Pad2(Dec(secs / 60));
    var ss := Pad2(Dec(secs % 60));
    DecUnder100(secs % 60);
    ParseDecOfDec(secs / 60);
    ParseDecOfDec(secs % 60);
    var r := mm + ":" + ss;
    assert r[..|r| - 3] == mm;
    assert r[|r| - 2..] == ss;
  }

  /** `fmtFocus(s)`: `<m>m` under an hour, otherwise `<h>h <r>m`. */
  function FmtFocus(s: nat): (r: string)
    ensures |r| >= 2 && r[|r| - 1] == 'm'
  {
    var m := s / 60;
    if m < 60 then Dec(m) + "m" else Dec(m / 60) + "h " + Dec(m % 60) + "m"
  }

  /** The position of the first `c` in `s`. */
  function IndexOf(s: string, c: char): (r: Option<nat>)
    ensures r.Some? ==> r.value < |s| && s[r.value] == c && c !in s[..r.value]
    ensures r.None? ==> c !in s
  {
    if s == [] then None
    else if s[0] == c then Some(0)
    else match IndexOf(s[1..], c)
      case None => None
      case Some(k) =>
        assert s[..k + 1] == [s[0]] + s[1..][..k];
        Some(k + 1)
  }

  /** Reading a focus-time display back into whole minutes: `<m>m`, or `<h>h <r>m` with `r` under 60. */
  function ReadFocus(t: string): Option<nat>
  {
    if |t| < 2 || t[|t| - 1] != 'm' then None else ReadMinutes(t[..|t| - 1])
  }

  /** A focus display without its final `m`. */
  function ReadMinutes(body: string): Option<nat>
  {
    if AllDigits(body) then Some(ParseDec(body))
    else match IndexOf(body, 'h')
      case None => None
      case Some(k) => ReadHours(body[..k], body[k + 1..])
  }

  /** The hours before the `h` and, after a space, the minutes under 60. */
  function ReadHours(hs: string, rs: string): Option<nat>
  {
    if |rs| >= 2 && rs[0] == ' ' && AllDigits(hs) && AllDigits(rs[1..]) && ParseDec(rs[1..]) < 60
    then Some(ParseDec(hs) * 60 + ParseDec(rs[1..]))
    else None
  }

  /** The focus display reads back as the whole minutes of `s`. */
  lemma FmtFocusReadsBack(s: nat)
    ensures ReadFocus(FmtFocus(s)) == Some(s / 60)
  {
    var m := s / 60;
    var t := FmtFocus(s);
    if m < 60 {
      ParseDecOfDec(m);
      assert t[..|t| - 1] == Dec(m);
    } else {
      HoursReadBack(m / 60, m % 60);
    }
  }

  /** `<h>h <r>m` reads back as `h * 60 + r` minutes. */
  lemma HoursReadBack(h: nat, r: nat)
    requires r < 60
    ensures ReadFocus(Dec(h) + "h " + Dec(r) + "m") == Some(h * 60 + r)
  {
    ParseDecOfDec(h);
    ParseDecOfDec(r);
    DigitsHoursReadBack(Dec(h), Dec(r));
  }

  /** Digits, `h`, a space, digits worth under 60 and `m` read back as hours and minutes. */
  lemma DigitsHoursReadBack(hs: string, ds: string)
    requires AllDigits(hs) && AllDigits(ds) && ds != [] && ParseDec(ds) < 60
    ensures ReadFocus(hs + "h " + ds + "m") == Some(ParseDec(hs) * 60 + ParseDec(ds))
  {
    var rs := " " + ds;
    var t := hs + "h " + ds + "m";
    assert t == (hs + ['h'] + rs) + "m";
    assert t[..|t| - 1] == hs + ['h'] + rs;
    SplitAtHour(hs, rs);
    SpacedMinutes(hs, ds);
  }

  /** A space and digits worth under 60 after the hours give the total minutes. */
  lemma SpacedMinutes(hs: string, ds: string)
    requires AllDigits(hs) && AllDigits(ds) && ds != [] && ParseDec(ds) < 60
    ensures ReadHours(hs, " " + ds) == Some(ParseDec(hs) * 60 + ParseDec(ds))
  {
    assert (" " + ds)[1..] == ds;
  }

  /** With digits before the first `h`, the reader splits there. */
  lemma SplitAtHour(hs: string, rs: string)
    requires AllDigits(hs)
    ensures ReadMinutes(hs + ['h'] + rs) == ReadHours(hs, rs)
  {
    var body := hs + ['h'] + rs;
    assert !IsDigit(body[|hs|]);
    IndexAfterDigits(hs, 'h', rs);
    assert body[..|hs|] == hs && body[|hs| + 1..] == rs;
  }

  /** In digits followed by a non-digit `c`, the first `c` is right after the digits. */
  lemma {:induction false} IndexAfterDigits(p: string, c: char, rest: string)
    requires AllDigits(p) && !IsDigit(c)
    ensures IndexOf(p + [c] + rest, c) == Some(|p|)
  {
    var s := p + [c] + rest;
    if p != [] {
      assert s[1..] == p[1..] + [c] + rest;
      IndexAfterDigits(p[1..], c, rest);
    }
  }

  /** The clock's state. */
  class Timer {
    var breakLen: int
    var sessionLen: int
    var timeLeft: int
    var totalTime: int
    var isSession: bool
    var isRunning: bool
    var timerStarted: bool
    var sessions: nat
    var focusSecs: nat

    /** Both lengths are whole minutes in 1..60. */
    predicate Lengths()
      reads this
    {
      1 <= breakLen <= 60 && 1 <= sessionLen <= 60
    }

    /**
     * The lengths are in range; the time left never goes below zero or above
     * the phase's total, itself one to sixty whole minutes; a running timer
     * has been started; until the first start the clock shows a full session.
     */
    predicate Valid()
      reads this
    {
      Lengths() &&
      0 <= timeLeft <= totalTime && 60 <= totalTime <= 3600 &&
      (isRunning ==> timerStarted) &&
      (!timerStarted ==> isSession && timeLeft == totalTime == sessionLen * 60)
    }

    /** The page's initial state: a stopped 25-minute session and 5-minute breaks. */
    constructor ()
      ensures Valid()
      ensures breakLen == 5 && sessionLen == 25 && timeLeft == 1500 && totalTime == 1500
      ensures isSession && !isRunning && !timerStarted && sessions == 0 && focusSecs == 0
    {
      breakLen := 5;
      sessionLen := 25;
      timeLeft := 25 * 60;
      totalTime := 25 * 60;
      isSession := true;
      isRunning := false;
      timerStarted := false;
      sessions := 0;
      focusSecs := 0;
    }

    /**
     * The interval's callback: a second of focus while in a session, one
     * second less left; past zero the phase switches; reaching zero in a
     * session completes it.
     */
    method Tick()
      requires Valid() && isRunning
      modifies this`focusSecs, this`timeLeft, this`totalTime, this`isSession, this`sessions
      ensures Valid()
      ensures focusSecs == old(focusSecs) + (if old(isSession) then 1 else 0)
      ensures old(timeLeft) > 0 ==>
                timeLeft == old(timeLeft) - 1 && isSession == old(isSession) && totalTime == old(totalTime) &&
                sessions == old(sessions) + (if timeLeft == 0 && isSession then 1 else 0)
      ensures old(timeLeft) == 0 ==>
                isSession == !old(isSession) && sessions == old(sessions) &&
                totalTime == (if isSession then sessionLen else breakLen) * 60 && timeLeft == totalTime
    {
      if isSession {
        focusSecs := focusSecs + 1;
      }
      timeLeft := timeLeft - 1;
      if timeLeft < 0 {
        SwitchMode();
        return;
      }
      if timeLeft == 0 && isSession {
        sessions := sessions + 1;
      }
    }

    /** `switchMode`: the other phase, with a full period of its length. */
    method SwitchMode()
      requires Lengths() && timerStarted
      modifies this`isSession, this`totalTime, this`timeLeft
      ensures Valid()
      ensures isSession == !old(isSession)
      ensures totalTime == (if isSession then sessionLen else breakLen) * 60 && timeLeft == totalTime
    {
      isSession := !isSession;
      totalTime := (if isSession then sessionLen else breakLen) * 60;
      timeLeft := totalTime;
    }

    /** `startStop`: pause a running timer; otherwise start it and mark it started. */
    method StartStop()
      requires Valid()
      modifies this`isRunning, this`timerStarted
      ensures Valid()
      ensures isRunning == !old(isRunning)
      ensures timerStarted == (old(timerStarted) || isRunning)
    {
      if isRunning {
        isRunning := false;
      } else {
        timerStarted := true;
        isRunning := true;
      }
    }

    /** `reset`: stopped, never started, default lengths, a full session and no statistics. */
    method Reset()
      modifies this
      ensures Valid()
      ensures breakLen == 5 && sessionLen == 25 && timeLeft == 1500 && totalTime == 1500
      ensures isSession && !isRunning && !timerStarted && sessions == 0 && focusSecs == 0
    {
      isRunning := false;
      timerStarted := false;
      breakLen := 5;
      sessionLen := 25;
      timeLeft := 25 * 60;
      totalTime := 25 * 60;
      isSession := true;
      sessions := 0;
      focusSecs := 0;
    }

    /**
     * `adjustLen(type, delta)`: nothing while running or when the new length
     * leaves 1..60; otherwise the break (or session) length changes, and
     * before the first start a session shows its new full length.
     */
    method AdjustLen(isBreak: bool, delta: int)
      requires Valid()
      modifies this`breakLen, this`sessionLen, this`timeLeft, this`totalTime
      ensures Valid()
      ensures var n := (if isBreak then old(breakLen) else old(sessionLen)) + delta;
              if old(isRunning) || n < 1 || n > 60 then unchanged(this)
              else
                breakLen == (if isBreak then n else old(breakLen)) &&
                sessionLen == (if isBreak then old(sessionLen) else n) &&
                (!timerStarted && isSession ==> timeLeft == sessionLen * 60 && totalTime == sessionLen * 60) &&
                (timerStarted || !isSession ==> timeLeft == old(timeLeft) && totalTime == old(totalTime))
    {
      if isRunning {
        return;
      }
      if isBreak {
        var n := breakLen + delta;
        if n < 1 || n > 60 {
          return;
        }
        breakLen := n;
      } else {
        var n := sessionLen + delta;
        if n < 1 || n > 60 {
          return;
        }
        sessionLen := n;
      }
      if !timerStarted && isSession {
        timeLeft := sessionLen * 60;
        totalTime := sessionLen * 60;
      }
    }
  }
}

=== FILE: protocol.dfy ===
/**
 * Room codes as both ends of the DUEL protocol treat them: the server's
 * alphabet, the client's clean-up of a typed code and the server's own
 * normalisation of a code it receives.
 */
module Protocol {
  import opened Wrappers
  import opened JsText

  /** The 31 code characters: capital letters and digits without I, L, O, 0 and 1. */
  const Alphabet: string := "ABCDEFGHJKMNPQRSTUVWXYZ23456789"

  const CodeLength: nat := 5

  /** A character of `Alphabet`, told by its range (`AlphabetChars` and `AlphabetIndex` show the two agree). */
  predicate IsCodeChar(c: char)
  {
    ('A' <= c <= 'Z' && c != 'I' && c != 'L' && c != 'O') || ('2' <= c <= '9')
  }

  /** Every alphabet character is a code character. */
  lemma AlphabetChars(d: nat)
    requires d < |Alphabet|
    ensures IsCodeChar(Alphabet[d])
  {
  }

  /** Every code character is in the alphabet, at this position. */
  function AlphabetIndex(c: char): (d: nat)
    requires IsCodeChar(c)
    ensures d < |Alphabet| && Alphabet[d] == c
  {
    if c <= '9' then c as nat - '2' as nat + 23
    else if c <= 'H' then c as nat - 'A' as nat
    else if c <= 'K' then c as nat - 'A' as nat - 1
    else if c <= 'N' then c as nat - 'A' as nat - 2
    else c as nat - 'A' as nat - 3
  }

  /** A code `genCode` can produce: five alphabet characters. */
  predicate IsRoomCode(s: string)
  {
    |s| == CodeLength && forall i :: 0 <= i < |s| ==> IsCodeChar(s[i])
  }

  /** The client's `value.trim().toUpperCase()`. */
  function ClientCode(input: string): (r: string)
    ensures |r| <= |input|
    ensures Trimmed(r) && NoLower(r)
  {
    UpperTrimmed(Trim(input));
    Upper(Trim(input))
  }

  /** The server's `(code || '').toUpperCase().trim()`; an absent code is the empty string. */
  function ServerCode(code: Option<string>): (r: string)
    ensures |r| <= |code.GetOr("")|
    ensures Trimmed(r) && NoLower(r)
  {
    UpperTrimmed(code.GetOr(""));
    TrimNoLower(Upper(code.GetOr("")));
    Trim(Upper(code.GetOr("")))
  }

  /** Upper-casing is idempotent. */
  lemma UpperIdempotent(s: string)
    ensures Upper(Upper(s)) == Upper(s)
  {
  }

  /** The server looks up exactly the code the client sends. */
  lemma ServerAcceptsClientCode(input: string)
    ensures ServerCode(Some(ClientCode(input))) == ClientCode(input)
  {
    var c := ClientCode(input);
    UpperIdempotent(Trim(input));
    assert Some(c).GetOr("") == c;
    assert Upper(c) == c;
    TrimTrimmed(c);
  }

  /** A generated code passes unchanged through both clean-ups. */
  lemma RoomCodeSurvives(code: string)
    requires IsRoomCode(code)
    ensures ClientCode(code) == code && ServerCode(Some(code)) == code
  {
    assert forall i :: 0 <= i < |code| ==> UpperChar(code[i]) == code[i] && !IsSpace(code[i]);
    assert Upper(code) == code;
    TrimTrimmed(code);
    assert Some(code).GetOr("") == code;
  }
}

=== FILE: quotes.dfy ===
/**
 * The random quote machine's favourites: quotes are identified by a text key,
 * the heart toggles the current quote in or out of the list, a remove button
 * splices one entry out, and each quote shown bumps the counter. Fetching a
 * quote (or the random fallback) is abstracted: the quote is a parameter.
 */
module Quotes {
  import opened Wrappers
  import opened Seqs

  datatype Quote = Quote(text: string, author: string)

  /** `quoteKey(q)`: the text and the author around `|||`. */
  function QuoteKey(q: Quote): (k: string)
    ensures |k| == |q.text| + 3 + |q.author|
    ensures k[..|q.text|] == q.text && k[|q.text| + 3..] == q.author
  {
    q.text + "|||" + q.author
  }

  /**
   * Two quotes whose texts contain no `|` share a key only when they are
   * equal: the first `|` of a key ends the text.
   */
  lemma KeyInjective(p: Quote, q: Quote)
    requires '|' !in p.text && '|' !in q.text
    requires QuoteKey(p) == QuoteKey(q)
    ensures p == q
  {
    var k := QuoteKey(p);
    if |p.text| < |q.text| {
      BarAfterText(p);
      assert false;
    } else if |q.text| < |p.text| {
      BarAfterText(q);
      assert false;
    }
    assert p.text == k[..|p.text|] == q.text;
    assert p.author == k[|p.text| + 3..] == q.author;
  }

  /** The key has a `|` right after the text. */
  lemma BarAfterText(q: Quote)
    ensures QuoteKey(q)[|q.text|] == '|'
  {
  }

  /** A text that itself contains `|||` can make two different quotes share a key. */
  lemma KeysCanCollide()
    ensures QuoteKey(Quote("a|||b", "c")) == QuoteKey(Quote("a", "b|||c"))
    ensures Quote("a|||b", "c") != Quote("a", "b|||c")
  {
  }

  /** `favorites.some(q => quoteKey(q) === key)`. */
  function HasKey(favs: seq<Quote>, key: string): (b: bool)
    ensures b <==> exists i :: 0 <= i < |favs| && QuoteKey(favs[i]) == key
  {
    if favs == [] then false
    else QuoteKey(favs[0]) == key || HasKey(favs[1..], key)
  }

  /** `isCurrentFavorited()`: false without a current quote. */
  function IsFavorited(favs: seq<Quote>, current: Option<Quote>): (b: bool)
    ensures b <==> current.Some? && exists i :: 0 <= i < |favs| && QuoteKey(favs[i]) == QuoteKey(current.value)
  {
    current.Some? && HasKey(favs, QuoteKey(current.value))
  }

  /** `favorites.filter(q => quoteKey(q) !== key)`. */
  function WithoutKey(favs: seq<Quote>, key: string): (r: seq<Quote>)
    ensures |r| <= |favs|
    ensures HasKey(favs, key) ==> |r| < |favs|
  {
    if favs == [] then []
    else (if QuoteKey(favs[0]) == key then [] else [favs[0]]) + WithoutKey(favs[1..], key)
  }

  /** The filter keeps exactly the entries whose key differs. */
  lemma {:induction false} WithoutKeyMembers(favs: seq<Quote>, key: string)
    ensures forall q :: q in WithoutKey(favs, key) <==> q in favs && QuoteKey(q) != key
  {
    if favs != [] {
      WithoutKeyMembers(favs[1..], key);
      assert favs == [favs[0]] + favs[1..];
    }
  }

  /** The filter keeps order: it works piece by piece over a concatenation. */
  lemma {:induction false} WithoutKeyAppend(a: seq<Quote>, b: seq<Quote>, key: string)
    ensures WithoutKey(a + b, key) == WithoutKey(a, key) + WithoutKey(b, key)
  {
    if a == [] {
      assert a + b == b;
    } else {
      var h := if QuoteKey(a[0]) == key then [] else [a[0]];
      DropAppend(a, b, 1);
      assert (a + b)[0] == a[0];
      WithoutKeyAppend(a[1..], b, key);
      Regroup(WithoutKey(a + b, key), WithoutKey(a, key), WithoutKey(b, key), h, WithoutKey(a[1..], key));
    }
  }

  /** Filtering out a key the list does not hold changes nothing. */
  lemma {:induction false} WithoutAbsentKey(favs: seq<Quote>, key: string)
    requires !HasKey(favs, key)
    ensures WithoutKey(favs, key) == favs
  {
    if favs != [] {
      WithoutAbsentKey(favs[1..], key);
    }
  }

  /** No two favourites share a key. */
  predicate NoDupKeys(favs: seq<Quote>)
  {
    forall i, j :: 0 <= i < j < |favs| ==> QuoteKey(favs[i]) != QuoteKey(favs[j])
  }

  /** Removing every entry with a key keeps distinct keys distinct. */
  lemma {:induction false} WithoutKeyNoDup(favs: seq<Quote>, key: string)
    requires NoDupKeys(favs)
    ensures NoDupKeys(WithoutKey(favs, key))
  {
    if favs != [] {
      WithoutKeyNoDup(favs[1..], key);
      WithoutKeyMembers(favs[1..], key);
      var rest := WithoutKey(favs[1..], key);
      forall q | q in rest
        ensures QuoteKey(q) != QuoteKey(favs[0])
      {
        var j :| 0 <= j < |favs[1..]| && favs[1..][j] == q;
        assert favs[j + 1] == q;
      }
    }
  }

  /** `favorites.splice(idx, 1)`: the entry at `idx` goes, the others keep their order; past the end nothing changes. */
  function RemoveAt(favs: seq<Quote>, idx: nat): (r: seq<Quote>)
    ensures idx < |favs| ==> |r| == |favs| - 1 &&
                             (forall i :: 0 <= i < idx ==> r[i] == favs[i]) &&
                             (forall i :: idx <= i < |r| ==> r[i] == favs[i + 1])
    ensures idx >= |favs| ==> r == favs
  {
    if idx < |favs| then favs[..idx] + favs[idx + 1..] else favs
  }

  /** Splicing out one entry keeps distinct keys distinct. */
  lemma RemoveAtNoDup(favs: seq<Quote>, idx: nat)
    requires NoDupKeys(favs)
    ensures NoDupKeys(RemoveAt(favs, idx))
  {
    var r := RemoveAt(favs, idx);
    if idx < |favs| {
      forall i, j | 0 <= i < j < |r|
        ensures QuoteKey(r[i]) != QuoteKey(r[j])
      {
        var i' := if i < idx then i else i + 1;
        var j' := if j < idx then j else j + 1;
        assert r[i] == favs[i'] && r[j] == favs[j'] && i' < j';
      }
    }
  }

  /** The page's quote state. */
  class QuoteBoard {
    var favorites: seq<Quote>
    var current: Option<Quote>
    var quoteCount: nat

    /** A page whose stored counter and favourites were loaded. */
    constructor (storedCount: nat, storedFavorites: seq<Quote>)
      ensures favorites == storedFavorites && current == None && quoteCount == storedCount
    {
      favorites := storedFavorites;
      current := None;
      quoteCount := storedCount;
    }

    /** `displayNewQuote` once the quote `q` has arrived: it becomes current, the counter goes up, and the heart shows whether it is a favourite. */
    method ShowQuote(q: Quote) returns (heart: bool)
      modifies this`current, this`quoteCount
      ensures current == Some(q) && quoteCount == old(quoteCount) + 1
      ensures heart == HasKey(favorites, QuoteKey(q))
    {
      current := Some(q);
      heart := IsFavorited(favorites, current);
      quoteCount := quoteCount + 1;
    }

    /**
     * `toggleFavorite`: nothing without a current quote; a favourite quote
     * is filtered out by key, any other appended; either way its membership
     * flips and no key appears twice if none did.
     */
    method ToggleFavorite()
      modifies this`favorites
      ensures current.None? ==> favorites == old(favorites)
      ensures current.Some? ==>
                var key := QuoteKey(current.value);
                HasKey(favorites, key) == !HasKey(old(favorites), key) &&
                favorites == (if HasKey(old(favorites), key) then WithoutKey(old(favorites), key)
                              else old(favorites) + [current.value])
      ensures NoDupKeys(old(favorites)) ==> NoDupKeys(favorites)
    {
      if current.None? {
        return;
      }
      var key := QuoteKey(current.value);
      if IsFavorited(favorites, current) {
        if NoDupKeys(favorites) {
          WithoutKeyNoDup(favorites, key);
        }
        WithoutKeyMembers(favorites, key);
        favorites := WithoutKey(favorites, key);
      } else {
        favorites := favorites + [current.value];
        assert favorites[|favorites| - 1] == current.value;
      }
    }

    /** The remove button of entry `idx`; returns the heart's new state. */
    method RemoveFavorite(idx: nat) returns (heart: bool)
      modifies this`favorites
      ensures favorites == RemoveAt(old(favorites), idx)
      ensures NoDupKeys(old(favorites)) ==> NoDupKeys(favorites)
      ensures heart == IsFavorited(favorites, current)
    {
      if NoDupKeys(favorites) {
        RemoveAtNoDup(favorites, idx);
      }
      favorites := RemoveAt(favorites, idx);
      heart := IsFavorited(favorites, current);
    }
  }
}

=== FILE: rooms.dfy ===
/**
 * The DUEL room registry on the Socket.io server: a table from five-character
 * room codes to the number of players in the room, the data each socket
 * carries (its room and player number), the socket rooms used for
 * broadcasting, and the events the server emits. Acknowledgement callbacks
 * are the methods' results; `Math.random` is an oracle passed in as draws.
 */
module Rooms {
  import opened Wrappers
  import Protocol

  /** A socket id. */
  type Sid = nat

  /** `socket.data` when it is set: the room code and player number (1 creator, 2 joiner). */
  datatype SockData = SockData(room: string, num: nat)

  /** The events the server sends to clients; `Move` carries the client's payload untouched. */
  datatype ServerMsg = GameStart | Move(payload: int) | ReqRematch | OpponentLeft

  /** One emission: the sockets it reaches and the event. */
  datatype Emit = Emit(targets: set<Sid>, msg: ServerMsg)

  /** The acknowledgement of `join-room`: `{ ok: true }` or `{ error }`. */
  datatype JoinReply = Joined | JoinFailed(error: string)

  /** `c[Math.floor(Math.random() * c.length)]` for a draw in 0..30. */
  function CodeChar(d: nat): (c: char)
    requires d < |Protocol.Alphabet|
    ensures Protocol.IsCodeChar(c)
  {
    Protocol.AlphabetChars(d);
    Protocol.Alphabet[d]
  }

  /** A draw vector: five indices into the alphabet, one per character. */
  predicate IsDraw(draw: seq<nat>)
  {
    |draw| == Protocol.CodeLength && forall i :: 0 <= i < |draw| ==> draw[i] < |Protocol.Alphabet|
  }

  /** The code `genCode` builds from the draws `draw`. */
  function CodeOf(draw: seq<nat>): (code: string)
    requires IsDraw(draw)
    ensures Protocol.IsRoomCode(code)
    ensures forall i :: 0 <= i < |code| ==> code[i] == CodeChar(draw[i])
  {
    seq(|draw|, i requires 0 <= i < |draw| => CodeChar(draw[i]))
  }

  /** Every room code is the code of some draw: `genCode` can produce any of the 31^5 codes. */
  lemma EveryCodeDrawable(code: string) returns (draw: seq<nat>)
    requires Protocol.IsRoomCode(code)
    ensures IsDraw(draw) && CodeOf(draw) == code
  {
    draw := seq(|code|, i requires 0 <= i < |code| => Protocol.AlphabetIndex(code[i]));
    assert forall i :: 0 <= i < |code| ==> CodeOf(draw)[i] == code[i];
  }

  /** `genCode()`: five characters appended one at a time, each picked by its draw. */
  method GenCode(draw: seq<nat>) returns (code: string)
    requires IsDraw(draw)
    ensures Protocol.IsRoomCode(code)
    ensures code == CodeOf(draw)
  {
    code := "";
    for i := 0 to Protocol.CodeLength
      invariant |code| == i
      invariant forall j :: 0 <= j < i ==> code[j] == CodeChar(draw[j])
    {
      code := code + [CodeChar(draw[i])];
    }
  }

  /** The registry and the Socket.io state it drives. */
  class RoomServer {
    /** `rooms`: code to `count`. */
    var rooms: map<string, nat>
    /** `socket.data` per socket; a socket without an entry has data `{}` or none. */
    var data: map<Sid, SockData>
    /** The Socket.io room each socket has joined and not left, by code. */
    var members: map<string, set<Sid>>
    /** Every emission so far, in order. */
    var outbox: seq<Emit>

    /** Every registered code is a room code, occupied by one or two players. */
    predicate Valid()
      reads this
    {
      forall c :: c in rooms ==> Protocol.IsRoomCode(c) && 1 <= rooms[c] <= 2
    }

    /** The sockets in the Socket.io room `code`. */
    function MembersOf(code: string): set<Sid>
      reads this
    {
      if code in members then members[code] else {}
    }

    /** `socket.data?.room` when it is truthy. */
    function RoomOf(sid: Sid): (r: Option<string>)
      reads this
      ensures r.Some? <==> sid in data && data[sid].room != ""
      ensures r.Some? ==> r.value == data[sid].room
    {
      if sid in data && data[sid].room != "" then Some(data[sid].room) else None
    }

    constructor ()
      ensures Valid()
      ensures rooms == map[] && data == map[] && members == map[] && outbox == []
    {
      rooms := map[];
      data := map[];
      members := map[];
      outbox := [];
    }

    /** `socket.join(code)`. */
    method Join(sid: Sid, code: string)
      modifies this`members
      ensures members == old(members)[code := old(MembersOf(code)) + {sid}]
    {
      members := members[code := MembersOf(code) + {sid}];
    }

    /**
     * `create-room`: draw codes until one is not registered, join its room,
     * record the creator as player 1, register the room with count 1 and
     * acknowledge with the code. `draws` is the random oracle, one draw per
     * attempt; one of its draws gives an unregistered code.
     */
    method CreateRoom(sid: Sid, draws: seq<seq<nat>>) returns (code: string)
      requires Valid()
      requires forall k :: 0 <= k < |draws| ==> IsDraw(draws[k])
      requires exists k :: 0 <= k < |draws| && CodeOf(draws[k]) !in rooms
      modifies this`rooms, this`data, this`members
      ensures Valid()
      ensures code !in old(rooms) && Protocol.IsRoomCode(code)
      ensures exists k :: 0 <= k < |draws| && code == CodeOf(draws[k]) &&
                          forall j :: 0 <= j < k ==> CodeOf(draws[j]) in old(rooms)
      ensures rooms == old(rooms)[code := 1]
      ensures data == old(data)[sid := SockData(code, 1)]
      ensures members == old(members)[code := old(MembersOf(code)) + {sid}]
    {
      ghost var w :| 0 <= w < |draws| && CodeOf(draws[w]) !in rooms;
      var k := 0;
      code := GenCode(draws[0]);
      while code in rooms
        invariant rooms == old(rooms) && data == old(data) && members == old(members)
        invariant k <= w && code == CodeOf(draws[k])
        invariant forall j :: 0 <= j < k ==> CodeOf(draws[j]) in rooms
        decreases w - k
      {
        k := k + 1;
        code := GenCode(draws[k]);
      }
      Join(sid, code);
      data := data[sid := SockData(code, 1)];
      rooms := rooms[code := 1];
    }

    /**
     * `join-room`: normalise the code; an unknown code answers "Room not
     * found" and a room with two players "Room is full", both changing
     * nothing; otherwise join its room as player 2, set the count to 2,
     * announce `game-start` to everyone in the room and acknowledge.
     */
    method JoinRoom(sid: Sid, raw: Option<string>) returns (reply: JoinReply)
      requires Valid()
      modifies this`rooms, this`data, this`members, this`outbox
      ensures Valid()
      ensures var code := Protocol.ServerCode(raw);
              if code !in old(rooms) then reply == JoinFailed("Room not found") && unchanged(this)
              else if old(rooms)[code] >= 2 then reply == JoinFailed("Room is full") && unchanged(this)
              else
                reply == Joined && old(rooms)[code] == 1 &&
                rooms == old(rooms)[code := 2] &&
                data == old(data)[sid := SockData(code, 2)] &&
                members == old(members)[code := old(MembersOf(code)) + {sid}] &&
                outbox == old(outbox) + [Emit(old(MembersOf(code)) + {sid}, GameStart)]
    {
      var code := Protocol.ServerCode(raw);
      if code !in rooms || rooms[code] >= 2 {
        reply := JoinFailed(if code in rooms then "Room is full" else "Room not found");
        return;
      }
      Join(sid, code);
      data := data[sid := SockData(code, 2)];
      rooms := rooms[code := 2];
      outbox := outbox + [Emit(MembersOf(code), GameStart)];
      reply := Joined;
    }

    /** `socket.to(rc).emit(msg)` for the sender's room, if it has one: everyone else in that room. */
    method Relay(sid: Sid, msg: ServerMsg)
      modifies this`outbox
      ensures RoomOf(sid).None? ==> outbox == old(outbox)
      ensures RoomOf(sid).Some? ==> outbox == old(outbox) + [Emit(MembersOf(RoomOf(sid).value) - {sid}, msg)]
    {
      var rc := RoomOf(sid);
      if rc.Some? {
        outbox := outbox + [Emit(MembersOf(rc.value) - {sid}, msg)];
      }
    }

    /** `move`: the payload goes, unchanged, to the other sockets in the sender's room. */
    method MoveEvent(sid: Sid, payload: int)
      modifies this`outbox
      ensures RoomOf(sid).None? ==> outbox == old(outbox)
      ensures RoomOf(sid).Some? ==> outbox == old(outbox) + [Emit(MembersOf(RoomOf(sid).value) - {sid}, Move(payload))]
    {
      Relay(sid, Move(payload));
    }

    /** `req-rematch`: forwarded to the other sockets in the sender's room. */
    method RematchEvent(sid: Sid)
      modifies this`outbox
      ensures RoomOf(sid).None? ==> outbox == old(outbox)
      ensures RoomOf(sid).Some? ==> outbox == old(outbox) + [Emit(MembersOf(RoomOf(sid).value) - {sid}, ReqRematch)]
    {
      Relay(sid, ReqRematch);
    }

    /**
     * What `cleanup(socket)` does to the registry: nothing for a socket
     * without a room; otherwise the others hear `opponent-left`, the room
     * loses one player (and goes when none are left) and the socket's data
     * is cleared, so that the socket has no room any more.
     */
    twostate predicate CleanedUp(sid: Sid)
      reads this
    {
      RoomOf(sid).None? &&
      (old(RoomOf(sid)).None? ==> rooms == old(rooms) && data == old(data) && outbox == old(outbox)) &&
      (old(RoomOf(sid)).Some? ==>
         var rc := old(RoomOf(sid)).value;
         outbox == old(outbox) + [Emit(old(MembersOf(rc)) - {sid}, OpponentLeft)] &&
         data == old(data) - {sid} &&
         (rc !in old(rooms) ==> rooms == old(rooms)) &&
         (rc in old(rooms) && old(rooms)[rc] == 1 ==> rooms == old(rooms) - {rc}) &&
         (rc in old(rooms) && old(rooms)[rc] == 2 ==> rooms == old(rooms)[rc := 1]))
    }

    /** `cleanup(socket)`: the registry changes as `CleanedUp` says, and the socket leaves its room. */
    method Cleanup(sid: Sid)
      requires Valid()
      modifies this`rooms, this`data, this`members, this`outbox
      ensures Valid() && CleanedUp(sid)
      ensures old(RoomOf(sid)).Some? ==>
                var rc := old(RoomOf(sid)).value;
                members == (if rc in old(members) then old(members)[rc := old(members)[rc] - {sid}] else old(members))
      ensures old(RoomOf(sid)).None? ==> members == old(members)
    {
      var rc := RoomOf(sid);
      if rc.None? {
        return;
      }
      var code := rc.value;
      outbox := outbox + [Emit(MembersOf(code) - {sid}, OpponentLeft)];
      if code in members {
        members := members[code := members[code] - {sid}];
      }
      if code in rooms {
        var count := rooms[code] - 1;
        if count <= 0 {
          rooms := rooms - {code};
        } else {
          rooms := rooms[code := count];
        }
      }
      data := data - {sid};
    }

    /** `leave-room`. */
    method LeaveRoom(sid: Sid)
      requires Valid()
      modifies this`rooms, this`data, this`members, this`outbox
      ensures Valid() && CleanedUp(sid)
      ensures old(RoomOf(sid)).None? ==> members == old(members)
      ensures old(RoomOf(sid)).Some? ==>
                var rc := old(RoomOf(sid)).value;
                members == (if rc in old(members) then old(members)[rc := old(members)[rc] - {sid}] else old(members))
    {
      Cleanup(sid);
    }

    /**
     * `disconnect`: the same clean-up; Socket.io itself then takes the
     * socket out of every room it is still in.
     */
    method Disconnect(sid: Sid)
      requires Valid()
      modifies this`rooms, this`data, this`members, this`outbox
      ensures Valid() && CleanedUp(sid)
      ensures forall c :: c in members ==> sid !in members[c]
      ensures members.Keys == old(members).Keys
      ensures forall c :: c in members ==> members[c] == old(members)[c] - {sid}
    {
      Cleanup(sid);
      members := map c | c in members :: members[c] - {sid};
    }
  }
}

=== FILE: search.dfy ===
/**
 * The game-tree value the CPU player searches for: plain minimax over the
 * empty cells, without pruning. The in-place alpha-beta search of the client
 * is proved against it.
 *
 * `ai` is the CPU's mark (the client's `oppMark`) and `human` the player's
 * (`myMark`). The infinities of the search are the sentinels `NegInf` and
 * `PosInf`, which lie well outside the values a nine-cell board can produce.
 */
module Search {
  import opened Wrappers
  import opened Board

  const NegInf: int := -1000
  const PosInf: int := 1000

  function Max(a: int, b: int): int { if a >= b then a else b }
  function Min(a: int, b: int): int { if a <= b then a else b }

  /**
   * The score of `b` at search depth `depth` with `ai` to move when `isMax`:
   * a CPU line scores `10 - depth`, a player line `depth - 10` (the CPU line
   * is looked at first), a full board 0, and otherwise the best child for the
   * side to move.
   */
  function Value(b: seq<Cell>, ai: Mark, human: Mark, depth: nat, isMax: bool): int
    decreases Empties(b), 1, 0
  {
    if HasWin(b, ai) then 10 - depth
    else if HasWin(b, human) then depth - 10
    else if Full(b) then 0
    else BestOf(b, ai, human, depth, isMax, |b|)
  }

  /** The mark placed by the side to move. */
  function Mover(ai: Mark, human: Mark, isMax: bool): Mark
  {
    if isMax then ai else human
  }

  /**
   * The running maximum (for `isMax`) or minimum of the child values over the
   * empty cells below `n`, in index order, starting from the sentinel.
   */
  function BestOf(b: seq<Cell>, ai: Mark, human: Mark, depth: nat, isMax: bool, n: nat): int
    requires n <= |b|
    decreases Empties(b), 0, n
  {
    if n == 0 then (if isMax then NegInf else PosInf)
    else if b[n - 1].Some? then BestOf(b, ai, human, depth, isMax, n - 1)
    else
      EmptiesPlace(b, n - 1, Mover(ai, human, isMax));
      var child := Value(b[n - 1 := Some(Mover(ai, human, isMax))], ai, human, depth + 1, !isMax);
      var rest := BestOf(b, ai, human, depth, isMax, n - 1);
      if isMax then Max(rest, child) else Min(rest, child)
  }

  /**
   * The relation an alpha-beta search with window (`alpha`, `beta`) keeps
   * between its answer `v` and the true value `m`: a fail-low answer bounds
   * `m` from above, a fail-high answer from below, and an answer inside the
   * window is exact.
   */
  predicate FailSoft(v: int, m: int, alpha: int, beta: int)
  {
    (v <= alpha ==> m <= v) && (v >= beta ==> m >= v) && (alpha < v < beta ==> v == m)
  }

  /** The score `bestMove` gives the CPU placing its mark at `k`. */
  function ChildValue(b: seq<Cell>, ai: Mark, human: Mark, k: nat): int
    requires k < |b|
  {
    Value(b[k := Some(ai)], ai, human, 0, false)
  }

  /**
   * `k` is the cell `bestMove` picks: an empty cell whose child score is the
   * largest, and the lowest such cell.
   */
  predicate IsBestChoice(b: seq<Cell>, ai: Mark, human: Mark, k: nat)
  {
    k < |b| && b[k].None? &&
    (forall j :: 0 <= j < |b| && b[j].None? ==> ChildValue(b, ai, human, j) <= ChildValue(b, ai, human, k)) &&
    (forall j :: 0 <= j < k && b[j].None? ==> ChildValue(b, ai, human, j) < ChildValue(b, ai, human, k))
  }

  predicate HasEmptyBelow(b: seq<Cell>, n: nat)
  {
    exists j :: 0 <= j < n && j < |b| && b[j].None?
  }

  /**
   * With at most `10 - depth` empty cells every score lies in
   * [`depth - 10`, `10 - depth`]; from the root this is [-10, 10].
   */
  lemma {:induction false} ValueBounds(b: seq<Cell>, ai: Mark, human: Mark, depth: nat, isMax: bool)
    requires depth + Empties(b) <= 10
    ensures depth - 10 <= Value(b, ai, human, depth, isMax) <= 10 - depth
    decreases Empties(b), 1, 0
  {
    if !HasWin(b, ai) && !HasWin(b, human) && !Full(b) {
      var j :| 0 <= j < |b| && b[j].None?;
      BestOfBounds(b, ai, human, depth, isMax, |b|);
    }
  }

  /** Before the first empty cell the fold is still at its sentinel. */
  lemma {:induction false} BestOfNoChild(b: seq<Cell>, ai: Mark, human: Mark, depth: nat, isMax: bool, n: nat)
    requires n <= |b| && !HasEmptyBelow(b, n)
    ensures BestOf(b, ai, human, depth, isMax, n) == if isMax then NegInf else PosInf
  {
    if n > 0 {
      assert b[n - 1].Some?;
      BestOfNoChild(b, ai, human, depth, isMax, n - 1);
    }
  }

  /** The fold over the children is within the children's bounds once it has seen one child. */
  lemma {:induction false} BestOfBounds(b: seq<Cell>, ai: Mark, human: Mark, depth: nat, isMax: bool, n: nat)
    requires n <= |b| && depth + Empties(b) <= 10 && HasEmptyBelow(b, n)
    ensures depth + 1 - 10 <= BestOf(b, ai, human, depth, isMax, n) <= 10 - depth - 1
    decreases Empties(b), 0, n
  {
    if b[n - 1].None? {
      if HasEmptyBelow(b, n - 1) {
        BestOfBounds(b, ai, human, depth, isMax, n - 1);
      }
      var rest := BestOfSoFar(b, ai, human, depth, isMax, n - 1);
      BestOfBoundsStep(b, ai, human, depth, isMax, n, rest);
    } else {
      var j :| 0 <= j < n && j < |b| && b[j].None?;
      assert j < n - 1;
      BestOfBounds(b, ai, human, depth, isMax, n - 1);
    }
  }

  /** The fold so far is within the children's bounds once it has seen a child, and otherwise still at its sentinel. */
  lemma BestOfSoFar(b: seq<Cell>, ai: Mark, human: Mark, depth: nat, isMax: bool, n: nat) returns (rest: int)
    requires n <= |b|
    requires HasEmptyBelow(b, n) ==> depth + 1 - 10 <= BestOf(b, ai, human, depth, isMax, n) <= 10 - depth - 1
    ensures rest == BestOf(b, ai, human, depth, isMax, n)
    ensures depth + 1 - 10 <= rest <= 10 - depth - 1 || rest == (if isMax then NegInf else PosInf)
  {
    rest := BestOf(b, ai, human, depth, isMax, n);
    if !HasEmptyBelow(b, n) {
      BestOfNoChild(b, ai, human, depth, isMax, n);
    }
  }

  /** The fold over an empty cell stays within the bounds its child and the fold before it keep. */
  lemma {:induction false} BestOfBoundsStep(b: seq<Cell>, ai: Mark, human: Mark, depth: nat, isMax: bool, n: nat, rest: int)
    requires 0 < n <= |b| && b[n - 1].None? && depth + Empties(b) <= 10
    requires rest == BestOf(b, ai, human, depth, isMax, n - 1)
    requires depth + 1 - 10 <= rest <= 10 - depth - 1 || rest == (if isMax then NegInf else PosInf)
    ensures depth + 1 - 10 <= BestOf(b, ai, human, depth, isMax, n) <= 10 - depth - 1
    decreases Empties(b), 0, n, 0
  {
    var m := Mover(ai, human, isMax);
    EmptiesPlace(b, n - 1, m);
    ValueBounds(b[n - 1 := Some(m)], ai, human, depth + 1, !isMax);
    BestOfStep(b, ai, human, depth, isMax, n);
    FoldWithin(isMax, rest, Value(b[n - 1 := Some(m)], ai, human, depth + 1, !isMax), depth + 1 - 10, 10 - depth - 1);
  }

  /** Folding one child within bounds into a running value that is within them or still the sentinel keeps it within them. */
  lemma FoldWithin(isMax: bool, rest: int, child: int, lo: int, hi: int)
    requires NegInf < lo <= child <= hi < PosInf
    requires lo <= rest <= hi || rest == (if isMax then NegInf else PosInf)
    ensures lo <= (if isMax then Max(rest, child) else Min(rest, child)) <= hi
  {
  }

  /** One step of the fold over an empty cell. */
  lemma BestOfStep(b: seq<Cell>, ai: Mark, human: Mark, depth: nat, isMax: bool, n: nat)
    requires 0 < n <= |b| && b[n - 1].None?
    ensures var child := Value(b[n - 1 := Some(Mover(ai, human, isMax))], ai, human, depth + 1, !isMax);
            var rest := BestOf(b, ai, human, depth, isMax, n - 1);
            BestOf(b, ai, human, depth, isMax, n) == if isMax then Max(rest, child) else Min(rest, child)
  {
  }

  /** The running maximum only grows and the running minimum only shrinks as more cells are seen. */
  lemma {:induction false} BestOfMono(b: seq<Cell>, ai: Mark, human: Mark, depth: nat, isMax: bool, i: nat, j: nat)
    requires i <= j <= |b|
    ensures isMax ==> BestOf(b, ai, human, depth, isMax, i) <= BestOf(b, ai, human, depth, isMax, j)
    ensures !isMax ==> BestOf(b, ai, human, depth, isMax, i) >= BestOf(b, ai, human, depth, isMax, j)
    decreases j - i
  {
    if i < j {
      BestOfMono(b, ai, human, depth, isMax, i, j - 1);
    }
  }

  /**
   * One more child of a maximising node, searched with the window
   * (`Max(alpha, best)`, `beta`): the new running best either stays below
   * `beta`, bounding the true running maximum from above and meeting it once
   * above `alpha`, or reaches `beta` and bounds it from below.
   */
  lemma MaxStep(b: seq<Cell>, ai: Mark, human: Mark, depth: nat, i: nat, alpha: int, beta: int, best: int, c: int)
    requires i < |b| && b[i].None? && alpha < beta && best < beta
    requires BestOf(b, ai, human, depth, true, i) <= best
    requires alpha < best ==> best == BestOf(b, ai, human, depth, true, i)
    requires FailSoft(c, Value(b[i := Some(ai)], ai, human, depth + 1, false), Max(alpha, best), beta)
    ensures Max(best, c) < beta ==>
              BestOf(b, ai, human, depth, true, i + 1) <= Max(best, c) &&
              (alpha < Max(best, c) ==> Max(best, c) == BestOf(b, ai, human, depth, true, i + 1))
    ensures beta <= Max(best, c) ==> Max(best, c) <= BestOf(b, ai, human, depth, true, i + 1)
  {
  }

  /** The mirror image of `MaxStep` for a minimising node and the window (`alpha`, `Min(beta, best)`). */
  lemma MinStep(b: seq<Cell>, ai: Mark, human: Mark, depth: nat, i: nat, alpha: int, beta: int, best: int, c: int)
    requires i < |b| && b[i].None? && alpha < beta && alpha < best
    requires best <= BestOf(b, ai, human, depth, false, i)
    requires best < beta ==> best == BestOf(b, ai, human, depth, false, i)
    requires FailSoft(c, Value(b[i := Some(human)], ai, human, depth + 1, true), alpha, Min(beta, best))
    ensures alpha < Min(best, c) ==>
              Min(best, c) <= BestOf(b, ai, human, depth, false, i + 1) &&
              (Min(best, c) < beta ==> Min(best, c) == BestOf(b, ai, human, depth, false, i + 1))
    ensures Min(best, c) <= alpha ==> BestOf(b, ai, human, depth, false, i + 1) <= Min(best, c)
  {
  }

  /** The running minimum is at most the value of every child it has seen. */
  lemma {:induction false} BestOfMinAtMost(b: seq<Cell>, ai: Mark, human: Mark, depth: nat, n: nat, h: nat)
    requires h < n <= |b| && b[h].None?
    ensures BestOf(b, ai, human, depth, false, n) <= Value(b[h := Some(human)], ai, human, depth + 1, true)
    decreases n
  {
    if h < n - 1 {
      BestOfMinAtMost(b, ai, human, depth, n - 1, h);
    }
  }

  /**
   * When a CPU move does not complete a CPU line, its score is at most 8: the
   * player answers anywhere, and the CPU can then win at depth 2 at best.
   */
  lemma NonWinningChildAtMost8(b: seq<Cell>, ai: Mark, human: Mark, k: nat)
    requires ai != human && Empties(b) <= 9
    requires k < |b| && b[k].None? && !HasWin(b[k := Some(ai)], ai)
    ensures ChildValue(b, ai, human, k) <= 8
  {
    EmptiesPlace(b, k, ai);
    ReplyAtMost8(b[k := Some(ai)], ai, human);
  }

  /** With the player to move on a board without a CPU line, the score is at most 8. */
  lemma ReplyAtMost8(c: seq<Cell>, ai: Mark, human: Mark)
    requires ai != human && Empties(c) <= 8 && !HasWin(c, ai)
    ensures Value(c, ai, human, 0, false) <= 8
  {
    if !HasWin(c, human) && !Full(c) {
      var h :| 0 <= h < |c| && c[h].None?;
      BestOfMinAtMost(c, ai, human, 0, |c|, h);
      EmptiesPlace(c, h, human);
      NoNewWin(c, h, human, ai);
      NoWinValueBound(c[h := Some(human)], ai, human, 1, true);
    }
  }

  /** Without a CPU line, and with `depth` nine or less, a score is at most `9 - depth`. */
  lemma NoWinValueBound(b: seq<Cell>, ai: Mark, human: Mark, depth: nat, isMax: bool)
    requires depth + Empties(b) <= 9 && !HasWin(b, ai)
    ensures Value(b, ai, human, depth, isMax) <= 9 - depth
  {
    if !HasWin(b, human) && !Full(b) {
      var j :| 0 <= j < |b| && b[j].None?;
      assert HasEmptyBelow(b, |b|);
      BestOfBounds(b, ai, human, depth, isMax, |b|);
    }
  }

  /**
   * If some empty cell completes a CPU line, the cell `bestMove` picks
   * completes a CPU line too: that child scores 10 and any other at most 8.
   */
  lemma ImmediateWinChosen(b: seq<Cell>, ai: Mark, human: Mark, j: nat, k: nat)
    requires ai != human && Empties(b) <= 9
    requires j < |b| && b[j].None? && HasWin(b[j := Some(ai)], ai)
    requires IsBestChoice(b, ai, human, k)
    ensures HasWin(b[k := Some(ai)], ai)
  {
    assert ChildValue(b, ai, human, j) == 10;
    if !HasWin(b[k := Some(ai)], ai) {
      NonWinningChildAtMost8(b, ai, human, k);
    }
  }

  /** The cells the search tries, in increasing order: every empty index below `n`. */
  function EmptyIndices(b: seq<Cell>, n: nat): (r: seq<nat>)
    requires n <= |b|
    ensures forall t :: 0 <= t < |r| ==> r[t] < n && b[r[t]].None?
    ensures forall s, t :: 0 <= s < t < |r| ==> r[s] < r[t]
    ensures forall i :: 0 <= i < n && b[i].None? ==> i in r
  {
    if n == 0 then []
    else EmptyIndices(b, n - 1) + (if b[n - 1].None? then [n - 1] else [])
  }
  /**
   * `scores[u]` is the score of the cell `es[u]`. The scores are looked up
   * only where a `ChildValue` of that cell is already in view.
   */
  predicate Scored(b: seq<Cell>, ai: Mark, human: Mark, es: seq<nat>, scores: seq<int>)
  {
    |scores| == |es| && (forall u :: 0 <= u < |es| ==> es[u] < |b|) &&
    forall u {:trigger ChildValue(b, ai, human, es[u])} ::
      0 <= u < |es| && es[u] < |b| ==> scores[u] == ChildValue(b, ai, human, es[u])
  }

  /** The scores of the cells `es`. */
  lemma ScoresOf(b: seq<Cell>, ai: Mark, human: Mark, es: seq<nat>) returns (scores: seq<int>)
    requires forall u :: 0 <= u < |es| ==> es[u] < |b|
    ensures Scored(b, ai, human, es, scores)
  {
    scores := seq(|es|, u requires 0 <= u < |es| => ChildValue(b, ai, human, es[u]));
  }

  /**
   * The running maximum `bestMove` keeps: the first of the cells `es` whose
   * score is the largest is the best choice once every empty cell has been
   * scored.
   */
  lemma ScanChoosesBest(b: seq<Cell>, ai: Mark, human: Mark, es: seq<nat>, scores: seq<int>, mi: nat, best: int)
    requires es == EmptyIndices(b, |b|) && Scored(b, ai, human, es, scores)
    requires mi < |es| && best == scores[mi]
    requires forall s :: 0 <= s < |scores| ==> scores[s] <= best
    requires forall s :: 0 <= s < mi ==> scores[s] < best
    ensures IsBestChoice(b, ai, human, es[mi])
  {
    var k := es[mi];
    assert best == ChildValue(b, ai, human, es[mi]);
    forall j | 0 <= j < |b| && b[j].None?
      ensures ChildValue(b, ai, human, j) <= best
      ensures j < k ==> ChildValue(b, ai, human, j) < best
    {
      var s := ScoreOfCell(b, ai, human, es, scores, j, mi);
    }
  }

  /**
   * Every empty cell has its place among the scanned cells, and its score
   * there; a cell below the one at position `mi` is scanned before it.
   */
  lemma ScoreOfCell(b: seq<Cell>, ai: Mark, human: Mark, es: seq<nat>, scores: seq<int>, j: nat, mi: nat)
    returns (s: nat)
    requires es == EmptyIndices(b, |b|) && Scored(b, ai, human, es, scores)
    requires j < |b| && b[j].None? && mi < |es|
    ensures s < |es| && es[s] == j && scores[s] == ChildValue(b, ai, human, j)
    ensures j < es[mi] ==> s < mi
  {
    assert j in es;
    s :| 0 <= s < |es| && es[s] == j;
    assert scores[s] == ChildValue(b, ai, human, es[s]);
  }

  /**
   * One step of `bestMove`'s scan: a full-window search of the child at
   * `es[t]` yields its score.
   */
  lemma ScanStep(b: seq<Cell>, ai: Mark, human: Mark, es: seq<nat>, scores: seq<int>, t: nat, v: int)
    requires t < |es| && Scored(b, ai, human, es, scores)
    requires b[es[t]].None? && Empties(b) <= 10
    requires FailSoft(v, Value(b[es[t] := Some(ai)], ai, human, 0, false), NegInf, PosInf)
    ensures -10 <= v <= 10 && v == scores[t]
  {
    EmptiesPlace(b, es[t], ai);
    ValueBounds(b[es[t] := Some(ai)], ai, human, 0, false);
    assert scores[t] == ChildValue(b, ai, human, es[t]);
  }

  /** No empty index is found exactly on a full board. */
  lemma EmptyIndicesFull(b: seq<Cell>)
    ensures EmptyIndices(b, |b|) == [] <==> Full(b)
  {
    var r := EmptyIndices(b, |b|);
    if !Full(b) {
      var i :| 0 <= i < |b| && b[i].None?;
      assert i in r;
    }
  }
}

=== FILE: seqs.dfy ===
/** Two facts about sequence concatenation that the list-processing proofs use at every step. */
module Seqs {

  /** Dropping a prefix of the first part of a concatenation. */
  lemma DropAppend<T>(a: seq<T>, b: seq<T>, k: nat)
    requires k <= |a|
    ensures (a + b)[k..] == a[k..] + b
  {
  }

  /**
   * One step of a piece-by-piece proof: when `a` is `h + x` and `ab` is
   * `h + (x + b)`, then `ab` is `a + b`.
   */
  lemma Regroup<T>(ab: seq<T>, a: seq<T>, b: seq<T>, h: seq<T>, x: seq<T>)
    requires a == h + x && ab == h + (x + b)
    ensures ab == a + b
  {
  }
}

=== FILE: twitch.dfy ===
/**
 * The Twitch status board: one record per channel merged from its stream and
 * channel responses, the channels sorted live first and then by lower-cased
 * name, the row filter and the live/offline counts. The HTTP requests are
 * abstracted: their parsed JSON bodies (or `null` on failure) are inputs.
 */
module Twitch {
  import opened Wrappers
  import opened JsText
  import opened Seqs

  /** JavaScript truthiness of an optional string: present and not empty. */
  predicate Truthy(s: Option<string>)
  {
    s.Some? && s.value != ""
  }

  /** `stream.channel` of a stream response. */
  datatype StreamChannel = StreamChannel(status: Option<string>, logo: Option<string>)

  /** `stream` of a stream response. */
  datatype Stream = Stream(game: Option<string>, channel: Option<StreamChannel>, viewers: nat)

  /** A parsed `/streams/<name>` body; `stream` is absent or null when offline. */
  datatype StreamRes = StreamRes(stream: Option<Stream>)

  /** A parsed `/channels/<name>` body. */
  datatype ChannelRes = ChannelRes(displayName: Option<string>, logo: Option<string>, url: Option<string>,
                                   error: Option<string>, status: Option<int>)

  /** One channel record of `channelData`. */
  datatype Info = Info(name: string, isLive: bool, isAccount: bool, logo: Option<string>,
                       game: Option<string>, status: Option<string>, viewers: nat, url: string)

  /** The record `fetchChannel` starts from: offline, an existing account, no viewers, the channel's page. */
  function Initial(name: string): (info: Info)
    ensures info.name == name && !info.isLive && info.isAccount && info.viewers == 0
    ensures info.url == "https://www.twitch.tv/" + name
  {
    Info(name, false, true, None, None, None, 0, "https://www.twitch.tv/" + name)
  }

  /**
   * What the merged record says about the channel: live exactly when the
   * stream response has a stream, closed exactly when the channel response
   * reports an error or status 422, and named by the channel response's
   * display name when it has one.
   */
  predicate Identified(info: Info, name: string, streamRes: Option<StreamRes>, channelRes: Option<ChannelRes>)
  {
    (info.isLive <==> streamRes.Some? && streamRes.value.stream.Some?) &&
    (!info.isAccount <==>
       channelRes.Some? && (Truthy(channelRes.value.error) || channelRes.value.status == Some(422))) &&
    info.name == (if channelRes.Some? && Truthy(channelRes.value.displayName)
                  then channelRes.value.displayName.value else name)
  }

  /**
   * `fetchChannel(name)` once both responses are in (`None` for a failed
   * request): the channel response names the channel, gives its logo and
   * URL, and marks closed accounts; a live stream sets the game, title and
   * viewers, and its channel logo takes precedence.
   */
  method FetchChannel(name: string, streamRes: Option<StreamRes>, channelRes: Option<ChannelRes>)
    returns (info: Info)
    ensures Identified(info, name, streamRes, channelRes)
    ensures !info.isLive ==> info.viewers == 0 && info.game == None && info.status == None
    ensures info.isLive ==> info.viewers == streamRes.value.stream.value.viewers
    ensures info.isLive && Truthy(streamRes.value.stream.value.game) ==> info.game == streamRes.value.stream.value.game
    ensures info.isLive && streamRes.value.stream.value.channel.Some? ==>
              var logo := streamRes.value.stream.value.channel.value.logo;
              Truthy(logo) ==> info.logo == logo
    ensures channelRes.None? || !Truthy(channelRes.value.displayName) ==> info.url == "https://www.twitch.tv/" + name
  {
    info := Initial(name);
    if channelRes.Some? && Truthy(channelRes.value.displayName) {
      var ch := channelRes.value;
      info := info.(name := ch.displayName.value, logo := ch.logo,
                    url := if Truthy(ch.url) then ch.url.value else info.url);
    }
    if channelRes.Some? && (Truthy(channelRes.value.error) || channelRes.value.status == Some(422)) {
      info := info.(isAccount := false);
    }
    if streamRes.Some? && streamRes.value.stream.Some? {
      var st := streamRes.value.stream.value;
      info := info.(isLive := true);
      info := info.(game := if Truthy(st.game) then st.game else None);
      info := info.(status := if st.channel.Some? then st.channel.value.status else None);
      info := info.(viewers := st.viewers);
      if st.channel.Some? && Truthy(st.channel.value.logo) {
        info := info.(logo := st.channel.value.logo);
      }
    }
  }

  /** Code-unit order on strings: negative, zero or positive as `s` comes before, equals or follows `t`. */
  function LexCompare(s: string, t: string): (c: int)
    ensures -1 <= c <= 1
    ensures c == 0 <==> s == t
  {
    if s == [] && t == [] then 0
    else if s == [] then -1
    else if t == [] then 1
    else if s[0] < t[0] then -1
    else if s[0] > t[0] then 1
    else
      var c := LexCompare(s[1..], t[1..]);
      assert s == [s[0]] + s[1..] && t == [t[0]] + t[1..];
      c
  }

  /** Swapping the arguments flips the sign. */
  lemma {:induction false} LexCompareFlip(s: string, t: string)
    ensures LexCompare(t, s) == -LexCompare(s, t)
  {
    if s != [] && t != [] && s[0] == t[0] {
      LexCompareFlip(s[1..], t[1..]);
    }
  }

  /** The `fetchAll` comparator: live channels first, then by lower-cased name. */
  function Compare(a: Info, b: Info): (c: int)
    ensures a.isLive && !b.isLive ==> c < 0
    ensures !a.isLive && b.isLive ==> c > 0
    ensures a.isLive == b.isLive ==> c == LexCompare(Lower(a.name), Lower(b.name))
  {
    if a.isLive && !b.isLive then -1
    else if !a.isLive && b.isLive then 1
    else LexCompare(Lower(a.name), Lower(b.name))
  }

  /** The comparator is antisymmetric. */
  lemma CompareFlip(a: Info, b: Info)
    ensures Compare(b, a) == -Compare(a, b)
  {
    LexCompareFlip(Lower(a.name), Lower(b.name));
  }

  /** Each channel is at or before its successor under the comparator. */
  predicate Sorted(s: seq<Info>)
  {
    forall i :: 0 <= i < |s| - 1 ==> Compare(s[i], s[i + 1]) <= 0
  }

  /** `x` placed before the first channel it does not follow. */
  function Insert(x: Info, s: seq<Info>): (r: seq<Info>)
    ensures |r| == |s| + 1 && multiset(r) == multiset(s) + multiset{x}
    ensures r[0] == x || (s != [] && r[0] == s[0])
  {
    if s == [] then [x]
    else if Compare(x, s[0]) <= 0 then [x] + s
    else
      assert s == [s[0]] + s[1..];
      [s[0]] + Insert(x, s[1..])
  }

  /** Inserting into a sorted board keeps it sorted. */
  lemma {:induction false} InsertSorted(x: Info, s: seq<Info>)
    requires Sorted(s)
    ensures Sorted(Insert(x, s))
  {
    if s != [] && Compare(x, s[0]) > 0 {
      CompareFlip(x, s[0]);
      var rest := Insert(x, s[1..]);
      InsertSorted(x, s[1..]);
      var r := [s[0]] + rest;
      assert Insert(x, s) == r;
      forall i | 0 <= i < |r| - 1
        ensures Compare(r[i], r[i + 1]) <= 0
      {
        if i > 0 {
          assert r[i] == rest[i - 1] && r[i + 1] == rest[i];
        }
      }
    }
  }

  /** `channelData.sort(comparator)`, as a stable insertion sort. */
  function SortChannels(s: seq<Info>): (r: seq<Info>)
    ensures |r| == |s| && multiset(r) == multiset(s)
  {
    if s == [] then []
    else
      assert s == [s[0]] + s[1..];
      Insert(s[0], SortChannels(s[1..]))
  }

  /** The sort's result is ordered by the comparator. */
  lemma {:induction false} SortSorted(s: seq<Info>)
    ensures Sorted(SortChannels(s))
  {
    if s != [] {
      SortSorted(s[1..]);
      InsertSorted(s[0], SortChannels(s[1..]));
    }
  }

  /** Every live channel precedes every offline one. */
  predicate LiveFirst(s: seq<Info>)
  {
    forall i, j :: 0 <= i < j < |s| && s[j].isLive ==> s[i].isLive
  }

  /** A sorted board lists live channels first, and channels of the same kind by name. */
  lemma {:induction false} SortedLiveFirst(s: seq<Info>)
    requires Sorted(s)
    ensures LiveFirst(s)
    ensures forall i :: 0 <= i < |s| - 1 && s[i].isLive == s[i + 1].isLive ==>
              LexCompare(Lower(s[i].name), Lower(s[i + 1].name)) <= 0
  {
    if |s| > 1 {
      SortedLiveFirst(s[1..]);
      forall i, j | 0 <= i < j < |s| && s[j].isLive
        ensures s[i].isLive
      {
        if i > 0 {
          assert s[1..][i - 1] == s[i] && s[1..][j - 1] == s[j];
        } else if j > 1 {
          assert s[1..][0] == s[1] && s[1..][j - 1] == s[j];
          assert Compare(s[0], s[1]) <= 0;
        } else {
          assert Compare(s[0], s[1]) <= 0;
        }
      }
    }
  }

  /** Whether a row of the given liveness shows under `filter` (`'online'`, `'offline'` or anything else for all). */
  function Shows(filter: string, isLive: bool): (show: bool)
    ensures filter == "online" ==> (show <==> isLive)
    ensures filter == "offline" ==> (show <==> !isLive)
    ensures filter != "online" && filter != "offline" ==> show
  {
    if filter == "online" then isLive
    else if filter == "offline" then !isLive
    else true
  }

  /** The number of channels showing under `filter`. */
  function ShownCount(s: seq<Info>, filter: string): (n: nat)
    ensures n <= |s|
    ensures n == 0 <==> forall i :: 0 <= i < |s| ==> !Shows(filter, s[i].isLive)
  {
    if s == [] then 0
    else
      assert forall i :: 1 <= i < |s| ==> s[1..][i - 1] == s[i];
      ShownCount(s[..|s| - 1], filter) + (if Shows(filter, s[|s| - 1].isLive) then 1 else 0)
  }

  /** The number of live channels: `channelData.filter(c => c.isLive).length`. */
  function LiveCount(s: seq<Info>): (n: nat)
    ensures n <= |s|
  {
    if s == [] then 0 else LiveCount(s[..|s| - 1]) + (if s[|s| - 1].isLive then 1 else 0)
  }

  /** The live count adds up over a concatenation. */
  lemma {:induction false} LiveCountAppend(a: seq<Info>, b: seq<Info>)
    ensures LiveCount(a + b) == LiveCount(a) + LiveCount(b)
    decreases |b|
  {
    if b == [] {
      assert a + b == a;
    } else {
      var b' := b[..|b| - 1];
      assert (a + b)[..|a + b| - 1] == a + b';
      LiveCountAppend(a, b');
    }
  }

  /** One channel counts once exactly when it is live. */
  lemma LiveCountOne(x: Info)
    ensures LiveCount([x]) == if x.isLive then 1 else 0
  {
    assert [x][..0] == [];
  }

  /** `updateGlobalDot`'s test, `channelData.some(c => c.isLive)`: some channel is live, so the live count is not zero. */
  function AnyLive(s: seq<Info>): (b: bool)
    ensures b <==> exists i :: 0 <= i < |s| && s[i].isLive
    ensures b <==> LiveCount(s) > 0
  {
    if s == [] then false
    else
      var p := s[..|s| - 1];
      assert forall i :: 0 <= i < |p| ==> p[i] == s[i];
      AnyLive(p) || s[|s| - 1].isLive
  }

  /** Every channel shows under `'all'`; under `'online'` exactly the live ones, under `'offline'` the rest. */
  lemma {:induction false} ShownCounts(s: seq<Info>)
    ensures ShownCount(s, "all") == |s|
    ensures ShownCount(s, "online") == LiveCount(s)
    ensures ShownCount(s, "offline") == |s| - LiveCount(s)
  {
    if s != [] {
      ShownCounts(s[..|s| - 1]);
    }
  }

  /** `updateCounts`: all, live and offline; live and offline make up all. */
  function Counts(s: seq<Info>): (r: (nat, nat, nat))
    ensures r.1 + r.2 == r.0 && r.0 == |s|
    ensures r.1 == ShownCount(s, "online") && r.2 == ShownCount(s, "offline")
  {
    ShownCounts(s);
    (|s|, LiveCount(s), |s| - LiveCount(s))
  }

  /** The status badge: LIVE when live, otherwise CLOSED for a missing account and OFFLINE for the rest. */
  function Badge(ch: Info): (text: string)
    ensures text == "LIVE" <==> ch.isLive
    ensures text == "CLOSED" <==> !ch.isLive && !ch.isAccount
    ensures text == "OFFLINE" <==> !ch.isLive && ch.isAccount
  {
    if ch.isLive then "LIVE" else if !ch.isAccount then "CLOSED" else "OFFLINE"
  }

  /** The board's state: the channels in display order, the active tab, the rows' hidden flags and the empty notice. */
  class StatusBoard {
    var channelData: seq<Info>
    var activeFilter: string
    var hidden: seq<bool>
    var emptyShown: bool

    constructor ()
      ensures channelData == [] && activeFilter == "all" && hidden == [] && !emptyShown
    {
      channelData := [];
      activeFilter := "all";
      hidden := [];
      emptyShown := false;
    }

    /**
     * `applyFilter`: hide each row the active tab does not show, counting
     * the visible ones; the empty notice shows exactly when none is visible.
     */
    method ApplyFilter()
      modifies this`hidden, this`emptyShown
      ensures |hidden| == |channelData|
      ensures forall i :: 0 <= i < |hidden| ==> hidden[i] == !Shows(activeFilter, channelData[i].isLive)
      ensures emptyShown <==> ShownCount(channelData, activeFilter) == 0
      ensures emptyShown <==> forall i :: 0 <= i < |hidden| ==> hidden[i]
    {
      var visible := 0;
      hidden := [];
      for k := 0 to |channelData|
        invariant |hidden| == k
        invariant forall i :: 0 <= i < k ==> hidden[i] == !Shows(activeFilter, channelData[i].isLive)
        invariant visible == ShownCount(channelData[..k], activeFilter)
      {
        var show := Shows(activeFilter, channelData[k].isLive);
        hidden := hidden + [!show];
        if show {
          visible := visible + 1;
        }
        assert channelData[..k + 1][..k] == channelData[..k];
      }
      assert channelData[..|channelData|] == channelData;
      emptyShown := visible == 0;
    }

    /** A filter tab: make it active and re-filter. */
    method SelectFilter(filter: string)
      modifies this`activeFilter, this`hidden, this`emptyShown
      ensures activeFilter == filter && |hidden| == |channelData|
      ensures forall i :: 0 <= i < |hidden| ==> hidden[i] == !Shows(filter, channelData[i].isLive)
      ensures emptyShown <==> ShownCount(channelData, filter) == 0
    {
      activeFilter := filter;
      ApplyFilter();
    }

    /**
     * `fetchAll` once every channel's responses are in: merge each pair,
     * sort live first and by name, and render under the active tab.
     */
    method Refresh(names: seq<string>, responses: seq<(Option<StreamRes>, Option<ChannelRes>)>)
      returns (merged: seq<Info>)
      requires |responses| == |names|
      modifies this`channelData, this`hidden, this`emptyShown
      ensures |merged| == |names|
      ensures forall k :: 0 <= k < |merged| ==> Identified(merged[k], names[k], responses[k].0, responses[k].1)
      ensures channelData == SortChannels(merged) && multiset(channelData) == multiset(merged)
      ensures |channelData| == |names| && Sorted(channelData) && LiveFirst(channelData)
      ensures |hidden| == |channelData|
      ensures forall i :: 0 <= i < |hidden| ==> hidden[i] == !Shows(activeFilter, channelData[i].isLive)
      ensures emptyShown <==> ShownCount(channelData, activeFilter) == 0
    {
      merged := [];
      for k := 0 to |names|
        invariant |merged| == k
        invariant forall j :: 0 <= j < k ==> Identified(merged[j], names[j], responses[j].0, responses[j].1)
      {
        var info := FetchChannel(names[k], responses[k].0, responses[k].1);
        merged := merged + [info];
      }
      SortSorted(merged);
      channelData := SortChannels(merged);
      SortedLiveFirst(channelData);
      ApplyFilter();
    }
  }

  /** The channels `fetchAll` asks for, in this order. */
  const Channels: seq<string> := ["ESL_SC2", "OgamingSC2", "cretetion", "freecodecamp", "storbeck", "habathcx", "RobotCaleb", "noobs2ninjas"]
}

=== FILE: wiki.dfy ===
/**
 * The Wikipedia viewer: the search guard around `lastQuery` and the handlers
 * that reset it, the reading of a search response, and the selections the
 * discover feed shows (most read, on this day, the featured excerpt). HTTP
 * requests are abstracted: a search issued is recorded, and responses are
 * inputs.
 */
module Wiki {
  import opened Wrappers
  import opened JsText
  import opened Seqs

  /** The section the page shows. */
  datatype View = Welcome | Results | NoResults | Error(message: string)

  /** One search hit: only its title matters here. */
  datatype Item = Item(title: string)

  /** `data.query` of a search response: the hits, and `searchinfo.totalhits` when `searchinfo` is present. */
  datatype QueryPart = QueryPart(search: Option<seq<Item>>, totalHits: Option<nat>)

  /** A parsed search response. */
  datatype SearchResponse = SearchResponse(query: Option<QueryPart>)

  /** What a response leads to: an error message, no results, or the hits and the total shown above them. */
  datatype Outcome = Unexpected | Empty | Hits(items: seq<Item>, total: nat)

  /** The total shown above the results: `searchinfo.totalhits`, or the number of hits without `searchinfo`. */
  function TotalHits(items: seq<Item>, totalHits: Option<nat>): (n: nat)
    ensures totalHits.None? ==> n == |items|
    ensures totalHits.Some? ==> n == totalHits.value
  {
    if totalHits.Some? then totalHits.value else |items|
  }

  /** The part of `search` after the response arrives. */
  function ReadResponse(data: SearchResponse): (o: Outcome)
    ensures o == Unexpected <==> data.query.None? || data.query.value.search.None?
    ensures o == Empty <==> data.query.Some? && data.query.value.search == Some([])
    ensures o.Hits? ==> o.items == data.query.value.search.value && o.items != [] &&
                        (data.query.value.totalHits.None? ==> o.total == |o.items|)
  {
    if data.query.None? || data.query.value.search.None? then Unexpected
    else
      var items := data.query.value.search.value;
      if items == [] then Empty else Hits(items, TotalHits(items, data.query.value.totalHits))
  }

  /** The page's search state. */
  class Viewer {
    /** The search box's text. */
    var input: string
    /** The last query searched for. */
    var lastQuery: string
    /** The query a pending debounce timer will search for. */
    var debounced: Option<string>
    /** Every query sent to the search API, in order. */
    var requests: seq<string>
    var view: View

    constructor ()
      ensures input == "" && lastQuery == "" && debounced == None && requests == [] && view == Welcome
    {
      input := "";
      lastQuery := "";
      debounced := None;
      requests := [];
      view := Welcome;
    }

    /**
     * `search(query)`: a trimmed query shorter than two characters, or the
     * same as the last one, is ignored; otherwise it becomes the last query
     * and is sent.
     */
    method Search(query: string)
      modifies this`lastQuery, this`requests
      ensures var q := Trim(query);
              if |q| < 2 || q == old(lastQuery) then lastQuery == old(lastQuery) && requests == old(requests)
              else lastQuery == q && requests == old(requests) + [q]
    {
      var q := Trim(query);
      if q == "" || |q| < 2 {
        return;
      }
      if q == lastQuery {
        return;
      }
      lastQuery := q;
      requests := requests + [q];
    }

    /** The answer to the latest search arrives. */
    method OnResponse(data: SearchResponse)
      modifies this`view
      ensures var o := ReadResponse(data);
              view == (if o == Unexpected then Error("Unexpected API response.")
                       else if o == Empty then NoResults else Results)
    {
      var o := ReadResponse(data);
      if o == Unexpected {
        view := Error("Unexpected API response.");
        return;
      }
      if o == Empty {
        view := NoResults;
        return;
      }
      view := Results;
    }

    /** The search request fails for any reason other than being superseded: the network error screen. */
    method OnNetworkError()
      modifies this`view
      ensures view == Error("Network error \U{2014} check your connection.")
      ensures view != Welcome && !view.Results? && !view.NoResults?
    {
      view := Error("Network error \U{2014} check your connection.");
    }

    /**
     * Typing: any pending search is cancelled first. A short trimmed value
     * then schedules nothing, and an empty one also forgets the last query
     * and shows the welcome screen; otherwise a search for it is scheduled.
     */
    method OnInput(value: string)
      modifies this`input, this`lastQuery, this`debounced, this`view
      ensures input == value
      ensures var q := Trim(value);
              (|q| == 0 ==> lastQuery == "" && view == Welcome && debounced == None) &&
              (|q| == 1 ==> lastQuery == old(lastQuery) && view == old(view) && debounced == None) &&
              (|q| >= 2 ==> lastQuery == old(lastQuery) && view == old(view) && debounced == Some(q))
    {
      input := value;
      debounced := None;
      var q := Trim(value);
      if |q| < 2 {
        if |q| == 0 {
          lastQuery := "";
          view := Welcome;
        }
        return;
      }
      debounced := Some(q);
    }

    /** The debounce timer fires. */
    method OnDebounce()
      requires debounced.Some?
      modifies this`lastQuery, this`requests, this`debounced
      ensures debounced == None
      ensures var q := Trim(old(debounced).value);
              if |q| < 2 || q == old(lastQuery) then lastQuery == old(lastQuery) && requests == old(requests)
              else lastQuery == q && requests == old(requests) + [q]
    {
      var q := debounced.value;
      debounced := None;
      Search(q);
    }

    /** Enter: cancel the pending search and, for a query of two or more characters, search again even if it is the last one. */
    method OnEnter()
      modifies this`lastQuery, this`requests, this`debounced
      ensures debounced == None
      ensures var q := Trim(input);
              if |q| >= 2 then lastQuery == q && requests == old(requests) + [q]
              else lastQuery == old(lastQuery) && requests == old(requests)
    {
      debounced := None;
      if |Trim(input)| >= 2 {
        ResendBox();
      }
    }

    /** Both Enter and retry: forget the last query and search for the box's trimmed text. */
    method ResendBox()
      requires |Trim(input)| >= 2
      modifies this`lastQuery, this`requests
      ensures lastQuery == Trim(input) && requests == old(requests) + [Trim(input)]
    {
      var q := Trim(input);
      TrimIdempotent(input);
      SearchAgain(q);
    }

    /** `lastQuery = ''; search(query)`: the trimmed query is sent even when it was the last one, if it is long enough. */
    method SearchAgain(query: string)
      modifies this`lastQuery, this`requests
      ensures var q := Trim(query);
              if |q| >= 2 then lastQuery == q && requests == old(requests) + [q]
              else lastQuery == "" && requests == old(requests)
    {
      lastQuery := "";
      Search(query);
    }

    /** A suggestion pill: its query fills the box and is searched again even if it is the last one. */
    method OnPill(pill: string)
      modifies this`input, this`lastQuery, this`requests
      ensures input == pill
      ensures var q := Trim(pill);
              if |q| >= 2 then lastQuery == q && requests == old(requests) + [q]
              else lastQuery == "" && requests == old(requests)
    {
      input := pill;
      SearchAgain(pill);
    }

    /** The error screen's retry: search the box's query again, or go back to the welcome screen. */
    method OnRetry()
      modifies this`lastQuery, this`requests, this`view
      ensures |Trim(input)| >= 2 ==>
                lastQuery == Trim(input) && requests == old(requests) + [Trim(input)] && view == old(view)
      ensures |Trim(input)| < 2 ==> lastQuery == old(lastQuery) && requests == old(requests) && view == Welcome
    {
      var q := Trim(input);
      if |q| >= 2 {
        ResendBox();
      } else {
        view := Welcome;
        assert Trim(input) == q;
      }
    }

    /** `clearSearch`: empty box, no last query, no pending search, the welcome screen. */
    method ClearSearch()
      modifies this`input, this`lastQuery, this`debounced, this`view
      ensures input == "" && lastQuery == "" && debounced == None && view == Welcome
    {
      input := "";
      lastQuery := "";
      view := Welcome;
      debounced := None;
    }
  }

  /** A most-read article: its title and the normalized title when the feed gives one. */
  datatype Article = Article(title: string, normalizedTitle: Option<string>)

  /** Neither the main page nor a special page (a title beginning with `Special:`). */
  predicate Listable(a: Article): (b: bool)
    ensures !b <==> a.title == "Main Page" || (|a.title| >= 8 && a.title[..8] == "Special:")
  {
    a.title != "Main Page" && !StartsWith(a.title, "Special:")
  }

  /**
   * `articles.filter(a => a.title !== 'Main Page' && !a.title.startsWith('Special:'))`:
   * every listable article is kept as often as it occurs, and no other.
   */
  function ListableOnly(articles: seq<Article>): (r: seq<Article>)
    ensures |r| <= |articles|
    ensures forall i :: 0 <= i < |r| ==> Listable(r[i]) && r[i] in articles
    ensures forall a :: multiset(r)[a] == if Listable(a) then multiset(articles)[a] else 0
  {
    if articles == [] then []
    else
      assert articles == [articles[0]] + articles[1..];
      (if Listable(articles[0]) then [articles[0]] else []) + ListableOnly(articles[1..])
  }

  /** The filter keeps order: it works piece by piece over a concatenation. */
  lemma {:induction false} ListableOnlyAppend(a: seq<Article>, b: seq<Article>)
    ensures ListableOnly(a + b) == ListableOnly(a) + ListableOnly(b)
  {
    if a == [] {
      assert a + b == b;
    } else {
      var h := if Listable(a[0]) then [a[0]] else [];
      DropAppend(a, b, 1);
      assert (a + b)[0] == a[0];
      ListableOnlyAppend(a[1..], b);
      Regroup(ListableOnly(a + b), ListableOnly(a), ListableOnly(b), h, ListableOnly(a[1..]));
    }
  }

  /** One article is kept exactly when it is listable. */
  lemma ListableOnlyOne(x: Article)
    ensures ListableOnly([x]) == if Listable(x) then [x] else []
  {
    assert [x][1..] == [];
  }

  /** The listable articles, in their order, counted: every listable one is kept. */
  lemma {:induction false} ListableOnlyKeeps(articles: seq<Article>)
    ensures forall a :: a in articles && Listable(a) ==> a in ListableOnly(articles)
  {
    if articles != [] {
      ListableOnlyKeeps(articles[1..]);
      assert articles == [articles[0]] + articles[1..];
    }
  }

  /** The first `n` entries, or all of them when there are fewer: `slice(0, n)`. */
  function Take<T>(s: seq<T>, n: nat): (r: seq<T>)
    ensures |r| == if |s| < n then |s| else n
    ensures r == s[..|r|]
  {
    if |s| < n then s else s[..n]
  }

  /** `renderMostRead`'s selection: the first four listable articles. */
  function MostRead(articles: seq<Article>): (r: seq<Article>)
    ensures |r| <= 4 && |r| <= |ListableOnly(articles)|
    ensures forall i :: 0 <= i < |r| ==> Listable(r[i]) && r[i] in articles
    ensures r == ListableOnly(articles)[..|r|]
    ensures |r| == if |ListableOnly(articles)| < 4 then |ListableOnly(articles)| else 4
  {
    var l := ListableOnly(articles);
    var r := Take(l, 4);
    assert forall i :: 0 <= i < |r| ==> r[i] == l[i];
    r
  }

  /** The title a most-read card shows: `normalizedtitle || title`. */
  function DisplayTitle(a: Article): (t: string)
    ensures a.normalizedTitle.Some? && a.normalizedTitle.value != "" ==> t == a.normalizedTitle.value
    ensures a.normalizedTitle.None? || a.normalizedTitle.value == "" ==> t == a.title
  {
    if a.normalizedTitle.Some? && a.normalizedTitle.value != "" then a.normalizedTitle.value else a.title
  }

  /** An on-this-day event: its text, when present, and its year (negative before the common era). */
  datatype Event = Event(text: Option<string>, year: int)

  /** `e.text && e.year`: both truthy, so a text with at least one character and a year other than 0. */
  predicate Dated(e: Event): (b: bool)
    ensures b ==> e.text.Some? && |e.text.value| >= 1 && e.year != 0
    ensures !b ==> e.text.None? || e.text.value == "" || e.year == 0
  {
    e.text.Some? && e.text.value != "" && e.year != 0
  }

  /**
   * `events.filter(e => e.text && e.year)`: every dated event is kept as
   * often as it occurs, and no other.
   */
  function DatedOnly(events: seq<Event>): (r: seq<Event>)
    ensures |r| <= |events|
    ensures forall e :: e in r <==> e in events && Dated(e)
    ensures forall e :: multiset(r)[e] == if Dated(e) then multiset(events)[e] else 0
  {
    if events == [] then []
    else
      assert events == [events[0]] + events[1..];
      (if Dated(events[0]) then [events[0]] else []) + DatedOnly(events[1..])
  }

  /** The filter keeps order: it works piece by piece over a concatenation. */
  lemma {:induction false} DatedOnlyAppend(a: seq<Event>, b: seq<Event>)
    ensures DatedOnly(a + b) == DatedOnly(a) + DatedOnly(b)
  {
    if a == [] {
      assert a + b == b;
    } else {
      var h := if Dated(a[0]) then [a[0]] else [];
      DropAppend(a, b, 1);
      assert (a + b)[0] == a[0];
      DatedOnlyAppend(a[1..], b);
      Regroup(DatedOnly(a + b), DatedOnly(a), DatedOnly(b), h, DatedOnly(a[1..]));
    }
  }

  /** One event is kept exactly when it is dated. */
  lemma DatedOnlyOne(x: Event)
    ensures DatedOnly([x]) == if Dated(x) then [x] else []
  {
    assert [x][1..] == [];
  }

  /** Most recent first. */
  predicate NewestFirst(s: seq<Event>)
  {
    forall i, j :: 0 <= i < j < |s| ==> s[i].year >= s[j].year
  }

  /** `x` placed before the first event not more recent than it. */
  function InsertByYear(x: Event, s: seq<Event>): (r: seq<Event>)
    ensures |r| == |s| + 1 && multiset(r) == multiset(s) + multiset{x}
  {
    if s == [] then [x]
    else if x.year >= s[0].year then [x] + s
    else
      assert s == [s[0]] + s[1..];
      [s[0]] + InsertByYear(x, s[1..])
  }

  /** Inserting into a newest-first list keeps it newest first. */
  lemma {:induction false} InsertByYearSorted(x: Event, s: seq<Event>)
    requires NewestFirst(s)
    ensures NewestFirst(InsertByYear(x, s))
  {
    if s != [] && x.year < s[0].year {
      var rest := InsertByYear(x, s[1..]);
      InsertByYearSorted(x, s[1..]);
      forall e | e in rest
        ensures e.year <= s[0].year
      {
        assert e in multiset(rest);
        if e != x {
          assert e in multiset(s[1..]);
        }
      }
      assert InsertByYear(x, s) == [s[0]] + rest;
      ConsNewestFirst(s[0], rest);
    }
  }

  /** An event no older than every event of a newest-first list may go in front of it. */
  lemma ConsNewestFirst(h: Event, rest: seq<Event>)
    requires NewestFirst(rest)
    requires forall e :: e in rest ==> e.year <= h.year
    ensures NewestFirst([h] + rest)
  {
    var r := [h] + rest;
    forall i, j | 0 <= i < j < |r|
      ensures r[i].year >= r[j].year
    {
      assert r[j] == rest[j - 1];
      if i > 0 {
        assert r[i] == rest[i - 1];
      }
    }
  }

  /** `sort((a, b) => b.year - a.year)`, a stable sort, newest first. */
  function ByYear(s: seq<Event>): (r: seq<Event>)
    ensures |r| == |s| && multiset(r) == multiset(s)
  {
    if s == [] then []
    else
      assert s == [s[0]] + s[1..];
      InsertByYear(s[0], ByYear(s[1..]))
  }

  lemma {:induction false} ByYearSorted(s: seq<Event>)
    ensures NewestFirst(ByYear(s))
  {
    if s != [] {
      ByYearSorted(s[1..]);
      InsertByYearSorted(s[0], ByYear(s[1..]));
    }
  }

  /** `renderOnThisDay`'s selection: the dated events, newest first, at most five. */
  function OnThisDay(events: seq<Event>): (r: seq<Event>)
    ensures |r| <= 5 && |r| <= |events|
    ensures forall e :: e in r ==> e in events && Dated(e)
  {
    assert forall e :: e in Take(ByYear(DatedOnly(events)), 5) ==> e in multiset(ByYear(DatedOnly(events)));
    Take(ByYear(DatedOnly(events)), 5)
  }

  /**
   * The selection holds five dated events of the feed, or all of them when
   * there are fewer, newest first, and no dated event left out is more
   * recent than one shown.
   */
  lemma OnThisDayPicks(events: seq<Event>)
    ensures var r := OnThisDay(events);
            var n := |DatedOnly(events)|;
            |r| == (if n < 5 then n else 5) && NewestFirst(r) &&
            (forall e :: e in r ==> e in events && Dated(e)) &&
            (forall i, e :: 0 <= i < |r| && e in events && Dated(e) && e !in r ==> e.year <= r[i].year)
  {
    var s := SortedDated(events);
    TakeKeepsNewest(s, 5);
  }

  /** The dated events, sorted newest first: the same events, as many as there are dated ones. */
  lemma SortedDated(events: seq<Event>) returns (s: seq<Event>)
    ensures s == ByYear(DatedOnly(events))
    ensures NewestFirst(s) && |s| == |DatedOnly(events)|
    ensures forall e :: e in s <==> e in events && Dated(e)
  {
    var d := DatedOnly(events);
    s := ByYear(d);
    ByYearSorted(d);
    forall e
      ensures e in s <==> e in d
    {
      assert e in s <==> e in multiset(s);
      assert e in d <==> e in multiset(d);
    }
  }

  /** Of a newest-first list, a prefix is newest first and holds events at least as recent as any it leaves out. */
  lemma TakeKeepsNewest(s: seq<Event>, n: nat)
    requires NewestFirst(s)
    ensures NewestFirst(Take(s, n))
    ensures forall i, e :: 0 <= i < |Take(s, n)| && e in s && e !in Take(s, n) ==> e.year <= Take(s, n)[i].year
  {
    var r := Take(s, n);
    forall i, e | 0 <= i < |r| && e in s && e !in r
      ensures e.year <= r[i].year
    {
      var j :| 0 <= j < |s| && s[j] == e;
      assert r[i] == s[i];
    }
  }

  /** The year label: the number when positive, otherwise its magnitude followed by ` BC`. */
  function YearLabel(year: int): (t: string)
    ensures |t| >= 1
    ensures year > 0 <==> AllDigits(t)
    ensures year <= 0 ==> |t| >= 4 && t[|t| - 3..] == " BC"
  {
    assert year <= 0 ==> !IsDigit((Dec(-year) + " BC")[|Dec(-year)|]);
    if year > 0 then Dec(year) else Dec(-year) + " BC"
  }

  /** Reading a year label back. */
  function ReadYear(t: string): Option<int>
  {
    if |t| >= 3 && t[|t| - 3..] == " BC" && AllDigits(t[..|t| - 3]) then Some(0 - ParseDec(t[..|t| - 3]) as int)
    else if AllDigits(t) then Some(ParseDec(t))
    else None
  }

  /** Every year label reads back as its year. */
  lemma YearLabelReadsBack(year: int)
    ensures ReadYear(YearLabel(year)) == Some(year)
  {
    var t := YearLabel(year);
    if year > 0 {
      ParseDecOfDec(year);
      if |t| >= 3 {
        assert IsDigit(t[|t| - 3]);
        assert t[|t| - 3..][0] == t[|t| - 3];
      }
    } else {
      ParseDecOfDec(-year);
      assert t[..|t| - 3] == Dec(-year);
      assert t[|t| - 3..] == " BC";
    }
  }

  /** The featured excerpt: longer than 220 characters, its first 220 followed by `...`; otherwise unchanged. */
  function Excerpt(extract: string): (r: string)
    ensures |extract| <= 220 ==> r == extract
    ensures |extract| > 220 ==> |r| == 223 && r[..220] == extract[..220] && r[220..] == "..."
  {
    if |extract| > 220 then extract[..220] + "..." else extract
  }
}

=== FILE: wrappers.dfy ===
/** The usual optional-value datatype; `None` stands for JavaScript's null/undefined. */
module Wrappers {

  datatype Option<+T> = None | Some(value: T) {

    /** The value, or `default` when absent (JavaScript's `x ?? default`). */
    function GetOr(default: T): T
    {
      match this
      case Some(v) => v
      case None => default
    }
  }
}
